=== FILE: README.md ===
# gns3ctl core, modelled in Dafny

gns3ctl is a command-line client for a GNS3 network-emulation server.
This project models the parts of it that decide what happens on the server:

- the `load` command (`doLoad`). It gets or creates a project, imports
  appliances as templates, and creates the missing nodes (with their symbols
  and VPCS startup files). It then indexes the live links, matches the desired
  links against them, deletes the stale ones, creates the missing ones
  suspended, starts every node and resumes the links that should carry
  traffic;
- appliance import: deriving a template from an appliance, and the image
  cache check that downloads and verifies image files against an MD5 sidecar;
- the template JSON form: flattening the emulator record into the
  top-level object, and decoding it back;
- the name-or-id lookup and the mutators for projects, templates, nodes,
  links and computes, including link suspend and resume;
- the output-option parse and the template helpers (`filterLinks`,
  `lookupNode`, `getPort`) of the topology query.

The GNS3 server is a value (`Remote.Server`). Every client call is a
function from a server to the next server, the requests sent, and a result.
Whether the server answers a request is part of the server value
(`Remote.Answers`), so every call can fail. The load command is a chain of
phases over a `Load.Run`: the server, the requests sent so far, the report
lines printed so far, and the local files. Where the program ranges over a
Go map, whose iteration order is unspecified, the model uses an arbitrary
order chosen by `Load.Arrange`.

Modules, one per source file or concern:

- Wrappers, Text, Resolve: helpers. Resolve is the shared
  "fetch by id, else first listed with that name" lookup.
- Records: the entities.
- Json: tagged JSON objects.
- Remote: the server and its requests.
- Projects, Templates, Nodes, Links, Computes: the client calls.
- ImageCache, Appliances: appliance import.
- Url: whether net/url's Parse accepts a reference, and its scheme.
- Paths: path.Clean and path.Dir, for the appliance's input directory.
- Floats: whole numbers through float64 and back to strconv's shortest
  decimal, for the template JSON form.
- LinkDiff: the link index and match.
- Load: the load command.
- Topology: the topology query.

## Model

| member | source | states |
|---|---|---|
| Projects.Get | pkg/gns3/projects.go:70-92 | A UUID-shaped name is fetched directly and returned when that succeeds. Otherwise the result is the first listed project with that name, or not-found when none has it, or the list error. Only reads are sent. UUID-shaped means what google/uuid's Parse accepts (`Text.IsUuid`): 36 canonical bytes, 38 bytes whose middle 36 are canonical and whose two ends are never read, a `urn:uuid:` prefix, or 32 hex digits. |
| Projects.Create | pkg/gns3/projects.go:94-102 | One POST with the project. It fails exactly when the server refuses, and then nothing changes. On success the server's new record, with that name, is appended. |
| Projects.Delete | pkg/gns3/projects.go:104-110 | Resolves first; a failed lookup sends no DELETE and returns its error with an empty id. Otherwise it deletes by the resolved project id, returns that id, and removes exactly the projects with it. |
| Projects.Close | pkg/gns3/projects.go:112-118 | Resolves first, then posts close to the resolved id and returns that id. On success only that project's status changes, to closed. |
| Projects.Open | pkg/gns3/projects.go:120-126 | Resolves first; a failed lookup sends nothing more. Otherwise it posts open to the resolved id. |
| Projects.WithStatus | pkg/gns3/projects.go:112-126 | Keeps the length, sets the status of the projects with the id, and leaves every other project as it was. |
| Computes.Get | pkg/gns3/computes.go:60-79 | Always tries the direct fetch first, with no UUID gate. On failure the first listed compute with that name is returned, or not-found, or the list refusal. |
| Computes.Delete | pkg/gns3/computes.go:91-97 | Resolves first; a failed lookup sends no DELETE. Otherwise it deletes by the resolved compute id and removes exactly those computes. |
| Templates.Get | pkg/gns3/templates.go:104-126 | The same lookup as for projects: a direct fetch for a UUID-shaped id, then the first template with that name, then not-found. A List error propagates, including the decode error of a listing that holds a template the client cannot decode. |
| Templates.Fetch | pkg/gns3/templates.go:107-113 | The direct GET succeeds exactly when the server answers and the first template with that id decodes. A refusal, a missing id and a decode failure each give their own error. |
| Templates.List | pkg/gns3/templates.go:94-101 | The listing succeeds exactly when the server answers and every stored template decodes; it then holds the server's templates in order. An answered listing with an undecodable template gives the wrapped decode error. |
| Templates.StoredDecodes | pkg/gns3/templates.go:203-231 | The server's object for a stored template, numbers as stored, decodes exactly when the own-type record's whole numbers lie within int64 (`Decodable`). |
| Templates.CreatedDecodable | pkg/gns3/templates.go:136-144 | The template Create stores is Decodable exactly when the template given to it fits after the float64 pass. |
| Templates.UnfitCreateBreaksList | pkg/gns3/templates.go:94-101 | Once Create has stored a template whose numbers do not fit, every answered listing fails with the wrapped decode error, so a later lookup by name fails instead of finding it. |
| Templates.Create | pkg/gns3/templates.go:136-144 | One POST. A refusal changes nothing. When the server answers, it appends a template with the same name and type and a fresh id. The reply is decoded into the normalized template; that decoding fails with a wrapped decode error, after the server has stored the template, exactly when a whole number of the record no longer fits int64 after the float64 pass. |
| Templates.Delete | pkg/gns3/templates.go:146-152 | Resolves first and deletes by the resolved template id. A failed lookup sends no DELETE. |
| Templates.Marshal | pkg/gns3/templates.go:154-201 | The output is the base fields merged with the emulator record's fields. Every key of the record wins over a base key. Only the record of the template's own type (qemu or docker) is merged. Any other type gives just the base fields. The record's whole numbers go through float64 and strconv's shortest form (`Json.Reprinted`). |
| Templates.Unmarshal | pkg/gns3/templates.go:203-231 | Qemu is set exactly when the type is qemu, and Docker exactly when it is docker. Decoding fails exactly when a key the decoder reads for that type holds a value of the wrong JSON kind, or a whole number outside int64 for the `int`/`int64` fields `adapters`, `ram` and `console_http_port` (declared at lines 51, 55, 67 and 72). |
| Templates.RoundTrip | pkg/gns3/templates.go:154-231 | Decoding the encoding fails exactly when a whole number of the template's own record, after the float64 pass, falls outside int64. Otherwise it gives back the template up to `Normalized`: a nil record of the template's own type comes back as the zero record, and the other type's record is dropped. For docker, the shared `usage` key is read into both usage fields. The record's whole numbers (`adapters`, `ram`, `console_http_port`) come back as strconv's shortest decimal of their float64, which is the number itself up to 2^53 and may differ from the float64's exact value above it. |
| Templates.TagOverlap | pkg/gns3/templates.go:31-85 | The base and Qemu tags are disjoint. Base and Docker share exactly `usage`. |
| Templates.QemuTypeData | pkg/gns3/templates.go:154-231 | For a qemu template, the merged record uses only Qemu tags and decodes to the template's Qemu record (the zero record when nil), with `adapters` and `ram` reprinted through float64. It decodes exactly when both reprinted numbers fit int64. |
| Templates.DockerTypeData | pkg/gns3/templates.go:154-231 | For a docker template, the merged record decodes to its Docker record, with `adapters` and `console_http_port` reprinted through float64. It decodes exactly when both reprinted numbers fit int64. `usage` is present exactly when the Docker usage is non-empty, and then it holds that value. |
| Templates.NormalizedIsCanonical | pkg/gns3/templates.go:154-231 | Normalizing twice is normalizing once, so a second round trip changes nothing. |
| Templates.ExactNumbersSurvive | pkg/gns3/templates.go:154-201 | Whole numbers up to 2^53 in magnitude come back from the float64 pass unchanged, and such records always decode. |
| Templates.LargeRamIsRounded | pkg/gns3/templates.go:154-201 | A Qemu `ram` of 2^53 + 1 comes back as 2^53. |
| Templates.RamOf2To60ComesBackShortest | pkg/gns3/templates.go:154-231 | A qemu template with `ram` 2^60 (1152921504606846976) decodes, but with `ram` 1152921504606847000, the float64's shortest decimal. |
| Templates.MaxRamFailsToDecode | pkg/gns3/templates.go:154-231 | A qemu template with `ram` 9223372036854775807 does not survive its JSON form: it is printed as 9223372036854776000, and decoding fails. |
| Floats.RoundMagnitude | pkg/gns3/templates.go:157-189 | The rounded magnitude is one a float64 holds. Magnitudes below 2^53 are unchanged, and larger ones stay at least 2^53. |
| Floats.FixedIffRepresentable | pkg/gns3/templates.go:157-189 | Rounding leaves a whole number alone exactly when a float64 holds it. |
| Floats.ExactUpTo2To53 | pkg/gns3/templates.go:157-189 | Every whole number from -2^53 to 2^53 survives float64. |
| Floats.FirstInexact | pkg/gns3/templates.go:157-189 | 2^53 + 1 becomes 2^53, rounding the tie to even. |
| Floats.RoundKeepsSign | pkg/gns3/templates.go:157-189 | Rounding keeps zero at zero and keeps the sign. |
| Floats.RoundIdempotent | pkg/gns3/templates.go:157-189 | Rounding a rounded number changes nothing. |
| Floats.RoundMonotone | pkg/gns3/templates.go:157-189 | Rounding is monotone in the magnitude and in the sticky bit. |
| Floats.RoundScale | pkg/gns3/templates.go:157-189 | Rounding commutes with scaling by a power of two: the low bits shifted out only act as a sticky bit. |
| Floats.ParsesExactlyWithin | pkg/gns3/templates.go:157-189 | If the two ends of an interval parse to a float64 and the numbers just outside do not, exactly the interval parses to it. |
| Floats.ParsesToPowerOfTwo | pkg/gns3/templates.go:157-189 | The whole numbers that parse to the float64 2^(54+j) are exactly those from 2^(54+j) - 2^j to 2^(54+j) + 2^(j+1); the interval is lopsided because the spacing doubles at the power of two. |
| Floats.Shortest | pkg/gns3/templates.go:157-189 | The printed number parses back to the float64, and is zero exactly for zero. |
| Floats.ShortestHasFewestDigits | pkg/gns3/templates.go:157-189 | The printed number ends in as many zeros as any number that parses to the float64 can, and no number that parses back ends in more. |
| Floats.ShortestIsNearest | pkg/gns3/templates.go:157-189 | Among the numbers with that many trailing zeros that parse back, the printed one is nearest to the float64, and a tie goes to the even last digit. |
| Floats.ShortestInRange | pkg/gns3/templates.go:157-189 | When the numbers parsing to a float64 form an interval holding exactly one multiple of 10^k and none of 10^(k+1), that multiple is what gets printed. |
| Floats.Reprint | pkg/gns3/templates.go:157-189 | A whole number through float64 and back to its shortest decimal: the result has the same float64 and the same sign, and zero stays zero. |
| Floats.ReprintIdempotent | pkg/gns3/templates.go:157-189 | A second pass through float64 changes nothing more. |
| Floats.ReprintExactUpTo2To53 | pkg/gns3/templates.go:157-189 | Every whole number from -2^53 to 2^53 is printed back unchanged. |
| Floats.ShortestOf2To53 | pkg/gns3/templates.go:157-189 | 2^53 is printed as itself. |
| Floats.ShortestOf2To60 | pkg/gns3/templates.go:157-189 | The numbers parsing to 2^60 are exactly 2^60 - 64 to 2^60 + 128, and 2^60 is printed as 1152921504606847000. |
| Floats.ShortestOf2To63 | pkg/gns3/templates.go:157-189 | The numbers parsing to 2^63 are exactly 2^63 - 512 to 2^63 + 1024, and 2^63 is printed as 9223372036854776000. |
| Floats.ReprintOf2To60 | pkg/gns3/templates.go:157-189 | 2^60 comes back as 1152921504606847000. |
| Floats.ReprintOfMaxInt64 | pkg/gns3/templates.go:157-189 | 2^63 - 1, the largest int64, comes back as 9223372036854776000, beyond int64. |
| Json.Omit | pkg/gns3/templates.go:31-85 | `omitempty` drops exactly the zero values and keeps the other values unchanged. |
| Json.GetOmitted | pkg/gns3/templates.go:203-231 | Reading any key gives the same value whether or not `omitempty` removed the zero values. |
| Json.Reprinted | pkg/gns3/templates.go:157-189 | The `interface{}` map pass keeps the keys and every non-number value; each whole number keeps its float64 and whether it is zero, and comes back in strconv's shortest form. |
| Json.OmitReprinted | pkg/gns3/templates.go:157-189 | Whether `omitempty` applies before or after the map pass makes no difference. |
| Json.WellKindedConforms | pkg/gns3/templates.go:203-231 | An object whose values all have the right JSON kind decodes exactly when its whole numbers lie within int64. |
| Json.ConformsAgree | pkg/gns3/templates.go:203-231 | Objects holding the same entries under the decoded keys decode alike. |
| Nodes.Get | pkg/gns3/node.go:92-113 | A direct fetch for a UUID-shaped id (as for projects), otherwise the first node with that name in the project, otherwise not-found. Only reads are sent. |
| Nodes.Create | pkg/gns3/node.go:115-123 | One POST. On success the new node is appended to this project's nodes, it is stopped, it has a fresh id, and its other fields are as given. Other projects are unchanged. |
| Nodes.Prepared | pkg/gns3/node.go:125-153 | The type and symbol come from the template. Name, compute and position are copied unchanged. The template's settings are overlaid on the caller's properties, and the caller's other keys are kept. |
| Nodes.Settings | pkg/gns3/node.go:130-153 | The settings are the Qemu record only for a qemu template with a record, and the Docker record only for a docker template with one. Otherwise there are none. |
| Nodes.CreateUsingTemplate | pkg/gns3/node.go:125-156 | Posts the prepared copy, never the caller's node. The created node has the template's type and symbol, with name, compute and position passed through. |
| Nodes.Start | pkg/gns3/node.go:158-164 | Resolves first; a failed lookup returns its error and sends no start. Otherwise it posts start to the resolved node id. On success only that node becomes started. |
| Nodes.Stop | pkg/gns3/node.go:166-175 | The same as Start, but it posts stop and the node becomes stopped. |
| Nodes.WithStatusIdempotent | pkg/gns3/node.go:158-175 | Setting a node's status twice is the same as setting it once. |
| Links.Get | pkg/gns3/links.go:75-79 | One read. On success the link with that id is returned; on failure a zero link is returned with the error. |
| Links.Create | pkg/gns3/links.go:81-89 | One POST. On success the link is appended with a fresh id in this project only; a refusal changes nothing. |
| Links.Delete | pkg/gns3/links.go:91-97 | Gets the link first; on failure there is no DELETE and the id is empty. Otherwise it deletes by the fetched link id, returns it, and removes exactly that link. |
| Links.PatchFor | pkg/gns3/links.go:99-104 | The patch holds exactly one key, `suspend`, with the given boolean. |
| Links.Resume | pkg/gns3/links.go:106-112 | Sends the read and then exactly `{"suspend": false}` to that link. On success only that link's flag changes, to false. |
| Links.Suspend | pkg/gns3/links.go:114-120 | The same as Resume, with `{"suspend": true}`. |
| Links.SetFlagIdempotent | pkg/gns3/links.go:99-120 | The flag is set absolutely, so repeating resume or suspend leaves the server as the first call did. |
| Links.AlreadySet | pkg/gns3/links.go:99-120 | Setting a flag that every matching link already has leaves the server unchanged. |
| ImageCache.Check | pkg/gns3/appliances.go:249-294 | A check downloads at most twice, only from its URL, and never loses a file. On success the file is present and the sidecar holds the expected sum. A cache that is already valid is left as it is, with no download. Files other than the image and its sidecar are untouched. |
| ImageCache.DownloadTo | pkg/gns3/appliances.go:163-229 | A download either replaces the file and rewrites the sidecar with the content's digest, or fails. A request that cannot be built is an error; a failed transfer exits with status 1. |
| ImageCache.Digest | pkg/gns3/appliances.go:231-247 | The sidecar text is 32 hex characters. |
| ImageCache.MissingFileIsDownloaded | pkg/gns3/appliances.go:257-263 | A missing file is downloaded from the URL first, unless the request cannot be built. |
| ImageCache.RetryIffMismatch | pkg/gns3/appliances.go:264-284 | The check downloads again exactly when the sidecar it compares, whether found, generated or freshly written, differs from the expected sum. |
| ImageCache.MismatchAfterRetry | pkg/gns3/appliances.go:278-293 | After a retry, the result is a mismatch error exactly when the new digest still differs. |
| ImageCache.DownloadRewritesSidecar | pkg/gns3/appliances.go:249-294 | After a successful check that downloaded, the sidecar holds the digest of the file's content. |
| ImageCache.EmptyChecksumFails | pkg/gns3/appliances.go:278-293 | An empty expected sum never succeeds unless the cache already held it, because every written digest is 32 characters. |
| ImageCache.CheckIsIdempotent | pkg/gns3/appliances.go:249-294 | After a successful check, the next check accepts the cache with no download and no change. |
| Appliances.TemplateName | pkg/gns3/appliances.go:304-307 | The name is the appliance name, with `" " + Versions[0].Name` appended exactly when there is a version with a non-empty name. |
| Appliances.CategoryOf | pkg/gns3/appliances.go:316-320 | `multilayer_switch` becomes `switch`; every other category is kept. |
| Appliances.DefaultSymbol | pkg/gns3/appliances.go:358-375 | Guest gets the docker symbol when the appliance has Docker, else the qemu symbol. Router, switch, multilayer switch and firewall get their own constants. Any other category gets no symbol. |
| Appliances.SymbolOf | pkg/gns3/appliances.go:321-375 | A non-empty appliance symbol is kept verbatim; otherwise the default of the original category is used. |
| Appliances.MultilayerKeepsItsSymbol | pkg/gns3/appliances.go:316-375 | A multilayer switch becomes category `switch` but keeps the multilayer symbol, because the symbol is chosen from the original category. |
| Appliances.EmulatorOf | pkg/gns3/appliances.go:377-395 | The priority is Qemu, then Iou, then Dynamips, then Docker. None is chosen exactly when no section is present. |
| Appliances.PatchedOptions | pkg/gns3/appliances.go:439-442 | With kvm `disable`, the options contain `-machine accel=tcg`. It is appended only when absent; otherwise the options are unchanged. |
| Appliances.PatchedOptionsIdempotent | pkg/gns3/appliances.go:439-442 | Patching twice is patching once. |
| Appliances.QemuConfig | pkg/gns3/appliances.go:427-459 | The path is `qemu-system-` plus the arch, and the options are patched. The image fields come from the first version only, and are empty with no versions. The other fields are copied from the Qemu section. |
| Appliances.DockerConfig | pkg/gns3/appliances.go:419-425 | Only the image and the adapters are copied; every other Docker field stays zero. |
| Appliances.Derived | pkg/gns3/appliances.go:304-395 | The compute is `local`. The name, category, symbol and type follow the rules above. Exactly the emulator's own record is set. |
| Appliances.ImageUrl | pkg/gns3/appliances.go:398-413 | The direct URL is preferred over the download URL. An image with neither is skipped. |
| Appliances.FetchImages | pkg/gns3/appliances.go:397-414 | On success, every image with a URL was checked. There are at most two downloads per image. Every download comes from some image's chosen URL. |
| Appliances.FirstFailureAborts | pkg/gns3/appliances.go:400-404 | When the first image's check fails, the import stops with exactly that check's outcome. |
| Appliances.FetchFailsAtFirst | pkg/gns3/appliances.go:397-414 | A failing image loop failed at some image with a URL. Every image before it was checked without error, the loop's error is that image's check error, and no image after it is downloaded. |
| Appliances.SymbolSourceAsWritten | pkg/gns3/appliances.go:337-340 | As written, the path is left alone only for `""` and `"/"`. |
| Appliances.AbsoluteSymbolIsMisplaced | pkg/gns3/appliances.go:337-340 | As written, an absolute symbol path is redirected under the input directory. |
| Appliances.SymbolSource | pkg/gns3/appliances.go:333-340 | Corrected: absolute paths are kept, and relative ones are placed under the input directory. |
| Appliances.SymbolSourceAgreesOnRelative | pkg/gns3/appliances.go:337-340 | The as-written and corrected readings agree exactly on relative references. |
| Appliances.SymbolAction | pkg/gns3/appliances.go:321-356 | No symbol, or one that url.Parse rejects (the warning case), means no copy. An http or https reference, in any letter case, is downloaded as it is. A reference with no scheme is copied from the source as the code computes it: under the input directory unless it is `""` or `"/"`. Any other scheme copies nothing. |
| Appliances.AbsoluteSymbolCopiedFromInputDirectory | pkg/gns3/appliances.go:333-340 | An absolute symbol path of ordinary characters parses with no scheme and is copied from under the input directory, not from where it points. |
| Appliances.Import | pkg/gns3/appliances.go:296-417 | The symbol action is decided first, whatever follows. With no emulator section, the result is an error and there are no image downloads and no image-cache change. Otherwise the images are fetched into the emulator's image directory, and the first failure becomes the error. |
| Url.Scheme | pkg/gns3/appliances.go:325-327 | The scheme is the text before a first `:` made of scheme characters and starting with a letter. It is absent exactly when the reference starts with `:`. |
| Url.Parse | pkg/gns3/appliances.go:325-355 | A control character before the fragment, or a leading `:`, is rejected. A scheme that is returned is the lower-cased text before some `:` of the reference. |
| Url.ParsePlain | pkg/gns3/appliances.go:325 | For a reference with no fragment, no query and no control character, parsing is decided by the rules for what follows the scheme. |
| Url.PlainPathParses | pkg/gns3/appliances.go:325-340 | A path of ordinary file-name characters parses with no scheme, so it is copied as a local file. |
| Url.ColonInFirstSegmentRejected | pkg/gns3/appliances.go:325-355 | A reference with no scheme whose first path segment holds `:`, such as `my_router:1.svg`, is rejected, so nothing is copied. |
| Url.BadEscapeRejected | pkg/gns3/appliances.go:325-355 | A path reference with a `%` that does not open two hex digits, such as `icons/100%.svg`, is rejected. |
| Url.BadPortRejected | pkg/gns3/appliances.go:325-355 | A reference with a scheme and an authority whose port is not all digits, such as `http://h:abc/x.svg`, is rejected, so nothing is fetched. |
| LinkDiff.Index | cmd/load.go:253-274 | The index has a key exactly for the live links with two ends. A key that recurs takes the state of its last link. |
| LinkDiff.IndexFromLive | cmd/load.go:253-274 | Every indexed state is the state of a live two-ended link with that key. |
| LinkDiff.Overwritten | cmd/load.go:273 | Of two links with the same key, the later one's state is kept. |
| LinkDiff.Matched | cmd/load.go:293-296 | A desired link matches under its key first, else under its swapped key. |
| LinkDiff.MatchOne | cmd/load.go:293-311 | On a match, both orientations leave the pending index, nothing is created, and the id is queued for resume only when suspended. Without a match, the key is recorded for creation and nothing else changes. |
| LinkDiff.PendingAfterMatch | cmd/load.go:279-312 | After matching, a live key is still pending exactly when no desired link names it in either orientation. |
| LinkDiff.MatchGrows | cmd/load.go:279-312 | Matching only adds to the create set and the resume list, and only removes from the pending index. |
| LinkDiff.AbsentIsCreated | cmd/load.go:293-311 | A desired link matching no live link in either orientation is created. |
| LinkDiff.CreatedAreDesired | cmd/load.go:311 | Only desired links are created. |
| LinkDiff.KeptAreSuspended | cmd/load.go:298-302 | Every id queued for resume by matching is a suspended live link. |
| LinkDiff.ReversedDuplicatesBothCreated | cmd/load.go:290-311 | Two desired links that are reversals of each other and absent from the server are both created, because the create set uses the unswapped key. |
| LinkDiff.RepeatedMatchIsCreated | cmd/load.go:293-311 | A desired link listed twice whose live link was matched by the first copy is created again by the second. |
| LinkDiff.DesiredCovered | cmd/load.go:279-312 | After matching, every desired key is to be created, or a live link under it or its swap was matched and, when suspended, its id is queued for resume. |
| Load.EnsureProject | cmd/load.go:106-117 | When the lookup by name succeeds, no Create is sent. Otherwise exactly one Create with that name is sent, and its failure ends the run wrapped as `create`. |
| Load.ImportOne | cmd/load.go:123-166 | A read failure ends the run. An import failure is wrapped with the reference. The template is looked up by name and created only when missing. A create failure is wrapped: a refusal, or the decode error of a reply whose whole numbers no longer fit int64. |
| Paths.Clean | cmd/load.go:148 | path.Clean never gives `""` and keeps a path rooted exactly when it was. |
| Paths.CleanIsIdempotent | cmd/load.go:148 | Cleaning a clean path changes nothing. |
| Paths.JoinElements | cmd/load.go:148 | Splitting a path at every `/` and joining the parts gives it back. |
| Paths.Dir | cmd/load.go:148 | path.Dir gives `.` for a name with no `/`, and its result is always clean. |
| Paths.DirOfJoin | cmd/load.go:148 | The directory of a clean directory joined with a file name is that directory. |
| Load.ImportAll | cmd/load.go:119-168 | The trace only grows. Nodes, links and projects are unchanged. A failure is a wrapped error or the read error of one of the references, and it is the outcome of importing some reference on the run the earlier ones left, which ends the loop. |
| Load.SymbolFor | cmd/load.go:192-208 | A case-insensitive table; an unknown type gets `:/symbols/classic/` + lower(type) + `.svg`. |
| Load.SymbolForIgnoresCase | cmd/load.go:193 | The symbol depends only on the lower-cased type. |
| Load.EthernetSwitchTakesDefault | cmd/load.go:200-207 | Because of the misspelled type constant, `ethernet_switch` takes the default branch. It still gets the ethernet switch symbol, because the default shape produces that name. |
| Records.SwitchSymbolIsDefaultShaped | pkg/gns3/const.go:36 | The ethernet switch symbol has the default `:/symbols/classic/<type>.svg` shape. |
| Load.CreateNode | cmd/load.go:176-220 | With a template, an unresolvable template fails as `unknown template`, and otherwise the node is created from it. Without a template, a plain node with the table symbol is created. Either create failure is wrapped as `node create`. |
| Load.ComputeOf | cmd/load.go:172-175 | A node goes to its own compute when it names one, and to the configured default otherwise. |
| Load.WithStartup | cmd/load.go:221-238 | A vpcs node (case-insensitive) with a config gets the startup file at its project path, holding exactly the `set pcname` / `ip` text. Any other node gets none. |
| Load.EnsureNode | cmd/load.go:171-245 | A node found by name is reported as existing: no create and no startup file. Otherwise it is created. Every failure is wrapped. |
| Load.EnsureNodes | cmd/load.go:170-245 | The trace only grows, links and projects are unchanged, and no node is lost. On success every desired node is in the project by name or id. A failure is the failure of some node, ensured after every earlier node was placed, and it ends the loop. |
| Load.IndexLinks | cmd/load.go:247-274 | One list read. A refusal is annotated `error listing links`; otherwise the index of the live links is returned. |
| Load.WantOf | cmd/load.go:280-291 | Succeeds exactly when both ends resolve, giving the key of the resolved node ids and configured ports. An a-end failure is reported before a z-end failure. |
| Load.Wants | cmd/load.go:279-312 | Either every desired link resolves, position by position, or the error is an a-end or z-end wrap. |
| Load.WantsFailsAtFirst | cmd/load.go:279-287 | The error is the one of the first desired link that does not resolve. |
| Load.MatchedEndsResolve | cmd/load.go:280-289 | Every resolved end names a node of the project. |
| Load.MatchLinksFollowsWants | cmd/load.go:276-312 | Matching fails exactly as resolution does. On success it yields the diff of the resolved links against the index. |
| Load.DeleteOne | cmd/load.go:315-320 | A stale delete never adds links or touches other projects. When the server answers, no link with that id remains. |
| Load.DeleteStaleEffect | cmd/load.go:314-320 | Deleting the stale links only removes links: every link left was live, and every live link whose id was not deleted remains. |
| Load.AnsweredStaleIsDeleted | cmd/load.go:314-320 | Every stale delete the server answers takes effect, whatever failed before it, because failures are only printed. |
| Load.DeleteStale | cmd/load.go:314-320 | The stale-link loop sends no DELETE except for the listed ids, and never touches nodes, projects or other projects' links. |
| Load.StaleDeleteSent | cmd/load.go:314-320 | Every listed link that exists and whose fetch the server answers gets its DELETE, whatever the earlier deletes did. |
| Load.DeleteStaleLinks | cmd/load.go:314-320 | Over the stale links in some order: only stale ids are deleted, each stale link whose fetch is answered gets its DELETE, and every other link stays. |
| Load.NewLink | cmd/load.go:325-328 | A created link is `ethernet`, suspended, in the project, and has the two ends of its key. |
| Load.CreateOne | cmd/load.go:322-335 | One POST of the new link. A refusal is wrapped as `link create`. On success the link is appended suspended. |
| Load.CreateLinks | cmd/load.go:322-335 | The links are created in order, one POST per key, and the first failure aborts as `link create`. On success the resume list is the old list followed by one suspended new link per key. |
| Load.Prepare | cmd/load.go:314-335 | The delete then create phases. Only stale ids are deleted and every other live link stays. On success the resume list starts with the ids of the matched suspended links, and every key to create has a new link whose id is in the list. |
| Load.StartNodes | cmd/load.go:337-345 | Every desired node is started in order. Each gets one report line, started or start failed, and a failure does not stop the others. |
| Load.ResumeAll | cmd/load.go:347-352 | A failure is wrapped as `resume failed`. Nodes and projects are unchanged. |
| Load.ResumeAllOnlyResumes | cmd/load.go:347-352 | Resuming changes no link except by clearing the suspend flag of a listed link. |
| Load.ResumeAllActivates | cmd/load.go:347-352 | After a successful resume phase, no listed link is suspended. |
| Load.ResumeStopsAtFirstFailure | cmd/load.go:348-351 | When the first resume fails, nothing else is sent and the server is unchanged. |
| Load.Arrange | cmd/load.go:315-322 | The Go map range is some order that visits each key exactly once. |
| Load.Load | cmd/load.go:92-355 | The run begins with the project step, and a failure there is the outcome of the whole run. On success the project found or created is returned, and every desired node is in it by name or id. On success the link phases also kept Connect's promises (`LinkPromises`), from a run whose links and projects are those the project step left: only stale links are deleted, each answered stale link gets its DELETE, other live links survive or are resumed, and under distinct server link ids every desired link is active. A failure is a wrapped error, an annotated one, or a reference's read error. |
| Load.Populate | cmd/load.go:119-245 | The appliance and node phases leave projects and links unchanged and lose no node. On success every desired node is in the project. They fail only with wrapped or read errors. |
| Load.Connect | cmd/load.go:247-352 | Projects are unchanged and nodes keep their names and ids. The only DELETEs are of stale links: live two-ended links that no desired link names in either orientation. Each stale link whose fetch the server answers gets its DELETE. Every other live link survives, at most resumed. On success, when the server's link ids are distinct, every desired link exists in one orientation or the other and is not suspended. Failures are wrapped or annotated. |
| Load.ConnectIndexed | cmd/load.go:276-352 | After a successful list, the same promises as the link phase as a whole, with failures always wrapped. |
| Load.ApplyDiff | cmd/load.go:314-352 | Given the diff of the desired links against the live ones: only stale links are deleted, the others survive at most resumed, and on success every desired key is active. |
| Load.OddLinksNotStale | cmd/load.go:253-274 | A link that does not join exactly two node ports is never stale, so the link phase neither deletes nor loses it. |
| Load.DesiredActive | cmd/load.go:279-352 | When the delete and create phases left every desired key with a link listed for resume, and the resume loop cleared every listed flag, every desired link is active. |
| Topology.ParseOutput | cmd/getTopology.go:47-56 | An option starting with `template` fails exactly when it holds no `=`, and otherwise is split at its first `=`. Any other option passes through with no file. |
| Topology.ParseOutputRoundTrip | cmd/getTopology.go:49-55 | A template format without `=` and any file, joined by `=`, parse back to exactly that pair. |
| Topology.Select | cmd/getTopology.go:85-94 | `json` selects JSON and `template` selects the template. Everything else, `yaml` included, selects YAML. |
| Topology.TemplateOnlyWhenExact | cmd/getTopology.go:47-94 | Template output is chosen exactly by `template=<file>`. Its file is everything after the first `=`. |
| Topology.HasEnd | cmd/getTopology.go:102-107 | The endpoint scan finds a match exactly when some endpoint is on the node. |
| Topology.FilterLinks | cmd/getTopology.go:98-110 | The result holds exactly the links with an endpoint on the node, each as often as in the input, never more. |
| Topology.FilterLinksAppend | cmd/getTopology.go:98-110 | Filtering distributes over concatenation, so the original order is kept. |
| Topology.FilterLinksSingle | cmd/getTopology.go:101-107 | A single link is kept once exactly when it touches the node, whichever and however many of its ends do. |
| Topology.LookupNode | cmd/getTopology.go:111-118 | The result is the first node with that id, or nothing exactly when no node has it. |
| Topology.PortAsWritten | cmd/getTopology.go:119-126 | As written: the first port on the adapter. None exactly when the adapter has no port. |
| Topology.PortAsWrittenIgnoresPortNumber | cmd/getTopology.go:119-126 | As written, asking for port 1 of an adapter with ports 0 and 1 returns port 0. |
| Topology.PortOf | cmd/getTopology.go:119-126 | Corrected: the first port with both the adapter and the port number, or none exactly when there is no such port. |
| Topology.PortAsWrittenAgreesOnSinglePortAdapters | cmd/getTopology.go:119-126 | Where every port on the adapter has the asked-for number, the two readings agree. |
| Text.IndexOf | cmd/getTopology.go:50 | The first occurrence of the character, or none exactly when it is absent. |
| Text.SplitOnce | cmd/getTopology.go:50 | Splitting into at most two parts at the first separator; joining the parts with it gives the input back. |
| Text.ToLower | cmd/load.go:193 | Keeps the length and lower-cases each ASCII letter; no upper-case ASCII letter remains. Other characters are kept as they are. |
| Text.UuidEndsUnread | pkg/gns3/projects.go:71 | Any canonical UUID between two one-byte characters is accepted, braces or not, because Parse skips the ends of a 38-byte id unread. |
| Text.UnbracedUuidAccepted | pkg/gns3/projects.go:71 | `x6ba7b810-9dad-11d1-80b4-00c04fd430c8x` counts as a UUID, so the lookups fetch it directly first. |
| Resolve.ByIdOrName | pkg/gns3/projects.go:70-92 | A successful direct fetch wins. Otherwise a list error propagates, or the first listed entry with the name is returned, or not-found. |

## Left out

- The HTTP transport (pkg/gns3/gns3.go): authentication, TLS, timeouts and
  error decoding. A server either answers a request or refuses it, and a
  refusal is one abstract error.
- Download internals (pkg/gns3/appliances.go:163-229): the grab client,
  progress output and buffer sizes. A download attempt is the environment's
  answer: saved content, a request that cannot be built, or a failed
  transfer, which exits the program.
- MD5 hashing (pkg/gns3/appliances.go:231-247) is an uninterpreted function
  from content to sixteen bytes. Failures reading or writing the sidecar
  are not modelled.
- Symbol file I/O (pkg/gns3/appliances.go:325-356): the copy or download
  is an action value (`Appliances.SymbolAction`). Its own I/O errors, which
  would end the import, are not modelled.
- Decoding the network YAML and the appliance JSON
  (cmd/load.go:95-104, pkg/gns3/appliances.go:299-302), and opening or
  fetching appliance references (cmd/load.go:123-147): `Load.Load` takes
  a decoded network and a `read` function. That function returns the
  decoded appliance or the error the command returns for that reference.
- Text.ToLower: lower-cases ASCII letters only. Go's strings.ToLower also
  folds non-ASCII letters (cmd/load.go:193, 207). Node types and URL
  schemes are ASCII in practice.
- Url.Parse: the model decides only whether net/url accepts a reference and
  which scheme it has. It does not check IPv6 literals or zone ids inside
  brackets, and it does not compute the parsed host, path, query or
  fragment. The symbol's destination file name (`path.Base(u.Path)`,
  pkg/gns3/appliances.go:326) is not modelled.
- The Docker record's `custom_adapters` field (pkg/gns3/templates.go:77-84)
  is not part of `Records.TemplateDocker`. It is neither encoded nor
  decoded, so the template round trip says nothing about it.
- Load.Connect: the promise that every desired link ends up active assumes
  that the server's link ids are distinct, as a real controller's are. A
  live link that is not stale may also end up resumed when its id is
  listed for resume.
- Report line formats: the printed lines are `Load.Line` values, not
  strings.
- Local file-system errors while writing the VPCS startup file
  (cmd/load.go:228-237): the write always succeeds.
- Go map iteration order: `Load.Arrange` picks an arbitrary order.
- The `ERROR: '<ref>': ...\n` message text: errors are `Wrapped(context,
  cause)` values. Their rendering, including the trailing newline some
  contexts carry, is not modelled.
- cmd/getTopology.go: the project-name check, fetching nodes and links,
  JSON/YAML marshalling and template execution (lines 58-84, 128-145),
  and the `toLower`/`toUpper` template functions.
- Templates.Close (pkg/gns3/templates.go:128-134) and Computes.Create
  (pkg/gns3/computes.go:81-89) are not used by the load command or the
  topology query, and are not part of this model.
- Nodes.Prepared: the Go code copies the caller's node but shares its
  `Properties` map. When that map is non-nil, the template settings are
  written into the caller's map too. The model has no aliasing, and the
  load command always passes a nil map.
- Templates.RoundTrip: Go's `int` is taken to be 64 bits wide, as on the
  platforms the client is built for. strconv's shortest formatting (Go's
  standard library, not part of this model) is modelled by its defining
  property: the fewest significant digits that parse back to the same
  float64, then the nearest such number, then the even last digit. Its
  algorithm is not modelled, and neither is the exponent form it switches
  to at 1e21, which no int64 reaches.
- Templates.Unmarshal: JSON numbers with a fraction or an exponent, which
  `encoding/json` also rejects for an integer field, are not part of
  `Json.Value`. The record decoded into is the one MarshalJSON produced,
  which holds whole numbers only.
- Nodes.Stop: the debug line it prints (pkg/gns3/node.go:172) is output,
  not modelled. The reply to the stop request is decoded into a node
  that is then discarded; the model takes that decoding to succeed
  whenever the server answers.
- Server-side behaviour beyond what the client observes: new records get a
  fresh id from a counter, and created nodes start stopped.

## Findings

| source | as written | input that shows it | evidently intended | confidence | as-written member | corrected member |
|---|---|---|---|---|---|---|
| pkg/gns3/appliances.go:338 | `strings.HasPrefix("/", src)` tests whether `"/"` starts with the symbol path, so every path except `""` and `"/"` is treated as relative | symbol `/usr/share/r.svg` with input directory `appliances` is read from `appliances//usr/share/r.svg` | absolute paths are used as they are, and only relative ones are placed under the input directory | high, not executed | Appliances.SymbolSourceAsWritten, Appliances.AbsoluteSymbolIsMisplaced | Appliances.SymbolSource, Appliances.SymbolSourceAgreesOnRelative |
| cmd/getTopology.go:119-126 | `getPort(node, adapterNum, portNum)` returns the first port on the adapter and never reads `portNum` | a node with ports (adapter 0, port 0) and (adapter 0, port 1): asking for port 1 of adapter 0 gives port 0 | the port with both the adapter number and the port number | medium, not executed | Topology.PortAsWritten, Topology.PortAsWrittenIgnoresPortNumber | Topology.PortOf, Topology.PortAsWrittenAgreesOnSinglePortAdapters |

=== FILE: appliances.dfy ===
/** pkg/gns3/appliances.go: the derivation of a template from a GNS3
    appliance description (Import, addQemuConfigToTemplate,
    addDockerConfigToTemplate) and the download of its images into the
    local cache. Decoding the appliance JSON is not modelled: Import starts
    from the decoded record. */
module Appliances {
  import opened Wrappers
  import opened Records
  import Text
  import ImageCache
  import Url

  datatype ApplianceImage = ApplianceImage(
    directDownloadUrl: string,
    downloadUrl: string,
    filename: string,
    fileSize: int,
    md5sum: string,
    version: string)

  datatype ApplianceQemu = ApplianceQemu(
    adapterType: string,
    adapters: int,
    arch: string,
    bootPriority: string,
    consoleType: string,
    hdaDiskInterface: string,
    kvm: string,
    kernelCommandLine: string,
    options: string,
    ram: int)

  /** The Docker section, reduced to the two fields Import copies. */
  datatype ApplianceDocker = ApplianceDocker(image: string, adapters: int)

  datatype VersionImages = VersionImages(cdromImage: string, biosImage: string, hdaDiskImage: string)

  datatype ApplianceVersion = ApplianceVersion(images: VersionImages, name: string)

  /** An appliance, reduced to the fields Import reads. The Iou and
      Dynamips sections have no fields; only their presence matters. */
  datatype Appliance = Appliance(
    category: string,
    name: string,
    symbol: string,
    firstPortName: string,
    portNameFormat: string,
    usage: string,
    images: seq<ApplianceImage>,
    versions: seq<ApplianceVersion>,
    qemu: Option<ApplianceQemu>,
    docker: Option<ApplianceDocker>,
    iou: bool,
    dynamips: bool)

  /** The template name: the appliance name, followed by the name of its
      first version when there is one. */
  function TemplateName(app: Appliance): (r: string)
    ensures Text.HasPrefix(r, app.name)
    ensures r == app.name <==> |app.versions| == 0 || app.versions[0].name == ""
    ensures r != app.name ==> r[|app.name|..] == " " + app.versions[0].name
  {
    if |app.versions| > 0 && app.versions[0].name != "" then app.name + " " + app.versions[0].name else app.name
  }

  /** Multilayer switches are filed as switches; other categories are kept. */
  function CategoryOf(category: string): (r: string)
    ensures r != CategoryMultilayerSwitch
    ensures category != CategoryMultilayerSwitch ==> r == category
  {
    if category == CategoryMultilayerSwitch then CategorySwitch else category
  }

  /** The symbol of an appliance that names none, chosen by its original
      category; other categories get no symbol. */
  function DefaultSymbol(app: Appliance): (r: string)
    ensures app.category == CategoryGuest ==> r == (if app.docker.Some? then SymbolDockerGuest else SymbolQemuGuest)
    ensures r == "" <==>
              app.category !in {CategoryGuest, CategoryRouter, CategorySwitch, CategoryMultilayerSwitch, CategoryFirewall}
  {
    if app.category == CategoryGuest then (if app.docker.Some? then SymbolDockerGuest else SymbolQemuGuest)
    else if app.category == CategoryRouter then SymbolRouter
    else if app.category == CategorySwitch then SymbolEthernetSwitch
    else if app.category == CategoryMultilayerSwitch then SymbolMultilayerSwitch
    else if app.category == CategoryFirewall then SymbolFirewall
    else ""
  }

  /** A symbol the appliance names is kept verbatim. */
  function SymbolOf(app: Appliance): (r: string)
    ensures app.symbol != "" ==> r == app.symbol
    ensures app.symbol == "" ==> r == DefaultSymbol(app)
  {
    if app.symbol != "" then app.symbol else DefaultSymbol(app)
  }

  /** The multilayer-switch default is chosen from the category before it
      is remapped: the template is a switch with the multilayer symbol. */
  lemma MultilayerKeepsItsSymbol(app: Appliance)
    requires app.category == CategoryMultilayerSwitch && app.symbol == ""
    ensures SymbolOf(app) == SymbolMultilayerSwitch && CategoryOf(app.category) == CategorySwitch
  {
  }

  datatype Emulator = Qemu | Iou | Dynamips | Docker

  /** The emulator an appliance is imported for: the first present of
      Qemu, Iou, Dynamips and Docker, in that order. */
  function EmulatorOf(app: Appliance): (r: Option<Emulator>)
    ensures r == Some(Qemu) <==> app.qemu.Some?
    ensures r == Some(Iou) <==> app.qemu.None? && app.iou
    ensures r == Some(Dynamips) <==> app.qemu.None? && !app.iou && app.dynamips
    ensures r == Some(Docker) <==> app.qemu.None? && !app.iou && !app.dynamips && app.docker.Some?
    ensures r.None? <==> app.qemu.None? && !app.iou && !app.dynamips && app.docker.None?
  {
    if app.qemu.Some? then Some(Qemu)
    else if app.iou then Some(Iou)
    else if app.dynamips then Some(Dynamips)
    else if app.docker.Some? then Some(Docker)
    else None
  }

  function TemplateTypeOf(e: Emulator): string {
    match e
    case Qemu => TemplateTypeQemu
    case Iou => TemplateTypeIou
    case Dynamips => TemplateTypeDynamips
    case Docker => TemplateTypeDocker
  }

  /** The image cache subdirectory of each template type; a type missing
      from the table reads as "" like a Go map. */
  const ImageTypes: map<string, string> :=
    map[TemplateTypeQemu := "QEMU", TemplateTypeDynamips := "IOS", TemplateTypeIou := "IOU", TemplateTypeDocker := "DOCKER"]

  function ImageType(templateType: string): string {
    if templateType in ImageTypes then ImageTypes[templateType] else ""
  }

  const AccelTcg := "-machine accel=tcg"

  /** QEMU options: TCG acceleration is forced when KVM is disabled and the
      options do not already ask for it. */
  function PatchedOptions(options: string, kvm: string): (r: string)
    ensures kvm == "disable" ==> Text.Contains(r, AccelTcg)
    ensures kvm != "disable" || Text.Contains(options, AccelTcg) ==> r == options
    ensures r != options ==> r == options + " " + AccelTcg
  {
    if kvm == "disable" && !Text.Contains(options, AccelTcg) then
      Text.ContainsAppended(options + " ", AccelTcg);
      assert options + " " + AccelTcg == (options + " ") + AccelTcg;
      options + " " + AccelTcg
    else options
  }

  /** Patching the options twice is patching them once. */
  lemma PatchedOptionsIdempotent(options: string, kvm: string)
    ensures PatchedOptions(PatchedOptions(options, kvm), kvm) == PatchedOptions(options, kvm)
  {
  }

  /** addQemuConfigToTemplate: the Qemu record of the template. */
  function QemuConfig(app: Appliance, q: ApplianceQemu): (r: TemplateQemu)
    ensures r.path == "qemu-system-" + q.arch
    ensures r.options == PatchedOptions(q.options, q.kvm)
    ensures r.portNameFormat == app.portNameFormat
    ensures |app.versions| > 0 ==>
              r.biosImage == app.versions[0].images.biosImage
              && r.hdaDiskImage == app.versions[0].images.hdaDiskImage
              && r.cdromImage == app.versions[0].images.cdromImage
    ensures |app.versions| == 0 ==> r.biosImage == "" && r.hdaDiskImage == "" && r.cdromImage == ""
    ensures r.adapterType == q.adapterType && r.adapters == q.adapters && r.bootPriority == q.bootPriority
    ensures r.consoleType == q.consoleType && r.hdaDiskInterface == q.hdaDiskInterface
    ensures r.ram == q.ram && r.kernelCommandLine == q.kernelCommandLine
  {
    var images := if |app.versions| > 0 then app.versions[0].images else VersionImages("", "", "");
    TemplateQemu(
      PatchedOptions(q.options, q.kvm), q.kernelCommandLine, q.adapterType, q.adapters, q.bootPriority,
      q.consoleType, q.hdaDiskInterface, q.ram, "qemu-system-" + q.arch, app.portNameFormat,
      images.biosImage, images.hdaDiskImage, images.cdromImage)
  }

  /** addDockerConfigToTemplate: only the image and the adapter count. */
  function DockerConfig(d: ApplianceDocker): (r: TemplateDocker)
    ensures r.image == d.image && r.adapters == d.adapters
    ensures r.(image := "", adapters := 0) == ZeroDocker
  {
    ZeroDocker.(image := d.image, adapters := d.adapters)
  }

  /** The template Import derives for an appliance with an emulator. */
  function Derived(app: Appliance, e: Emulator): (t: Template)
    requires EmulatorOf(app) == Some(e)
    ensures t.computeId == "local" && t.name == TemplateName(app)
    ensures t.category == CategoryOf(app.category) && t.symbol == SymbolOf(app)
    ensures t.usage == app.usage && t.firstPortName == app.firstPortName
    ensures t.templateType == TemplateTypeOf(e)
    ensures t.qemu.Some? <==> e == Qemu
    ensures t.qemu.Some? ==> t.qemu.value == QemuConfig(app, app.qemu.value)
    ensures t.docker.Some? <==> e == Docker
    ensures t.docker.Some? ==> t.docker.value == DockerConfig(app.docker.value)
  {
    Template(
      false, CategoryOf(app.category), "local", "", app.firstPortName, TemplateName(app), SymbolOf(app), "",
      TemplateTypeOf(e), app.usage,
      if e == Qemu then Some(QemuConfig(app, app.qemu.value)) else None,
      if e == Docker then Some(DockerConfig(app.docker.value)) else None)
  }

  /** The URL an image is fetched from: the direct one when given, else
      the download page one, else none (the image is skipped). */
  function ImageUrl(img: ApplianceImage): (r: Option<string>)
    ensures img.directDownloadUrl != "" ==> r == Some(img.directDownloadUrl)
    ensures img.directDownloadUrl == "" && img.downloadUrl != "" ==> r == Some(img.downloadUrl)
    ensures r.None? <==> img.directDownloadUrl == "" && img.downloadUrl == ""
  {
    if img.directDownloadUrl != "" then Some(img.directDownloadUrl)
    else if img.downloadUrl != "" then Some(img.downloadUrl)
    else None
  }

  /** The image loop of Import: each image with a URL is checked against
      the cache in order; the first failing check ends the loop. */
  function FetchImages(env: ImageCache.Env, disk: ImageCache.Disk, images: seq<ApplianceImage>, imgType: string)
    : (r: ImageCache.Checked)
    ensures |r.downloads| <= 2 * |images|
    ensures disk.Keys <= r.disk.Keys
    ensures r.err.None? ==>
              forall i :: 0 <= i < |images| && ImageUrl(images[i]).Some? ==>
                ImageCache.ImagePath(env, imgType, images[i].filename) in r.disk
    ensures forall u :: u in r.downloads ==> exists i :: 0 <= i < |images| && ImageUrl(images[i]) == Some(u)
    decreases |images|
  {
    if |images| == 0 then ImageCache.Checked(disk, [], None)
    else match ImageUrl(images[0])
      case None =>
        var rest := FetchImages(env, disk, images[1..], imgType);
        LaterImages(env, images, imgType, rest, []);
        rest
      case Some(url) =>
        var c := ImageCache.Check(env, disk, url, imgType, images[0].filename, images[0].md5sum);
        if c.err.Some? then c
        else
          var rest := FetchImages(env, c.disk, images[1..], imgType);
          LaterImages(env, images, imgType, rest, c.downloads);
          ImageCache.Checked(rest.disk, c.downloads + rest.downloads, rest.err)
  }

  /** The loop's facts about the images after the first carry over to the
      whole list, and downloads of the first image's URL are its own. */
  lemma LaterImages(env: ImageCache.Env, images: seq<ApplianceImage>, imgType: string, rest: ImageCache.Checked, first: seq<string>)
    requires |images| > 0
    requires forall u :: u in first ==> ImageUrl(images[0]) == Some(u)
    requires rest.err.None? ==>
               forall i :: 0 <= i < |images[1..]| && ImageUrl(images[1..][i]).Some? ==>
                 ImageCache.ImagePath(env, imgType, images[1..][i].filename) in rest.disk
    requires forall u :: u in rest.downloads ==> exists i :: 0 <= i < |images[1..]| && ImageUrl(images[1..][i]) == Some(u)
    ensures rest.err.None? ==>
              forall i :: 0 < i < |images| && ImageUrl(images[i]).Some? ==>
                ImageCache.ImagePath(env, imgType, images[i].filename) in rest.disk
    ensures forall u :: u in first + rest.downloads ==> exists i :: 0 <= i < |images| && ImageUrl(images[i]) == Some(u)
  {
    forall i | 0 < i < |images|
      ensures images[i] == images[1..][i - 1]
    {
    }
    forall u | u in first + rest.downloads
      ensures exists i :: 0 <= i < |images| && ImageUrl(images[i]) == Some(u)
    {
      if u in first {
        assert ImageUrl(images[0]) == Some(u);
      } else {
        var j :| 0 <= j < |images[1..]| && ImageUrl(images[1..][j]) == Some(u);
        assert images[j + 1] == images[1..][j];
      }
    }
  }

  /** A failing check of the first image ends the loop with its error. */
  lemma FirstFailureAborts(env: ImageCache.Env, disk: ImageCache.Disk, images: seq<ApplianceImage>, imgType: string)
    requires |images| > 0 && ImageUrl(images[0]).Some?
    requires ImageCache.Check(env, disk, ImageUrl(images[0]).value, imgType, images[0].filename, images[0].md5sum).err.Some?
    ensures FetchImages(env, disk, images, imgType) ==
              ImageCache.Check(env, disk, ImageUrl(images[0]).value, imgType, images[0].filename, images[0].md5sum)
  {
  }

  /** A failing image loop failed at some image with a URL: every image
      before it was checked without error, its check's error is the loop's,
      and nothing after it was downloaded. */
  lemma {:induction false} FetchFailsAtFirst(env: ImageCache.Env, disk: ImageCache.Disk, images: seq<ApplianceImage>, imgType: string)
    requires FetchImages(env, disk, images, imgType).err.Some?
    ensures exists i :: 0 <= i < |images| && FailsAt(env, disk, images, imgType, i)
    decreases |images|
  {
    var url := ImageUrl(images[0]);
    if url.None? {
      FetchFailsAtFirst(env, disk, images[1..], imgType);
      var j :| 0 <= j < |images[1..]| && FailsAt(env, disk, images[1..], imgType, j);
      SkippedShift(env, disk, images, imgType, j);
    } else {
      var c := ImageCache.Check(env, disk, url.value, imgType, images[0].filename, images[0].md5sum);
      if c.err.Some? {
        assert images[..0] == [];
        assert FailsAt(env, disk, images, imgType, 0);
      } else {
        FetchFailsAtFirst(env, c.disk, images[1..], imgType);
        var j :| 0 <= j < |images[1..]| && FailsAt(env, c.disk, images[1..], imgType, j);
        CheckedShift(env, disk, images, imgType, j);
      }
    }
  }

  /** A first image without a URL shifts where the loop fails by one. */
  lemma SkippedShift(env: ImageCache.Env, disk: ImageCache.Disk, images: seq<ApplianceImage>, imgType: string, j: nat)
    requires 0 < |images| && ImageUrl(images[0]).None?
    requires j < |images| - 1 && FailsAt(env, disk, images[1..], imgType, j)
    ensures FailsAt(env, disk, images, imgType, j + 1)
  {
    assert images[..j + 1][1..] == images[1..][..j];
    assert images[j + 1] == images[1..][j];
  }

  /** A first image whose check succeeds shifts where the loop fails by
      one, and its downloads come first. */
  lemma CheckedShift(env: ImageCache.Env, disk: ImageCache.Disk, images: seq<ApplianceImage>, imgType: string, j: nat)
    requires 0 < |images| && ImageUrl(images[0]).Some?
    requires ImageCache.Check(env, disk, ImageUrl(images[0]).value, imgType, images[0].filename, images[0].md5sum).err.None?
    requires j < |images| - 1
    requires FailsAt(env, ImageCache.Check(env, disk, ImageUrl(images[0]).value, imgType, images[0].filename, images[0].md5sum).disk,
                     images[1..], imgType, j)
    ensures FailsAt(env, disk, images, imgType, j + 1)
  {
    var c := ImageCache.Check(env, disk, ImageUrl(images[0]).value, imgType, images[0].filename, images[0].md5sum);
    assert images[..j + 1][1..] == images[1..][..j];
    assert images[j + 1] == images[1..][j];
    var before := FetchImages(env, c.disk, images[1..][..j], imgType);
    var failed := ImageCache.Check(env, before.disk, ImageUrl(images[j + 1]).value, imgType,
                                   images[j + 1].filename, images[j + 1].md5sum);
    var rest := FetchImages(env, c.disk, images[1..], imgType);
    assert rest == ImageCache.Checked(failed.disk, before.downloads + failed.downloads, failed.err);
    assert images[..j + 1][0] == images[0];
    assert FetchImages(env, disk, images[..j + 1], imgType)
        == ImageCache.Checked(before.disk, c.downloads + before.downloads, before.err);
    assert FetchImages(env, disk, images, imgType)
        == ImageCache.Checked(rest.disk, c.downloads + rest.downloads, rest.err);
    Associative(c.downloads, before.downloads, failed.downloads);
  }

  lemma Associative(a: seq<string>, b: seq<string>, c: seq<string>)
    ensures a + (b + c) == (a + b) + c
  {
  }

  /** The image loop over `images` stops at image `i`: it has a URL, the
      loop over the images before it succeeds, the check of image `i` on the
      cache that loop leaves fails, and the whole loop ends right there. */
  ghost predicate FailsAt(env: ImageCache.Env, disk: ImageCache.Disk, images: seq<ApplianceImage>, imgType: string, i: nat)
    requires i < |images|
  {
    && ImageUrl(images[i]).Some?
    && var before := FetchImages(env, disk, images[..i], imgType);
       var failed := ImageCache.Check(env, before.disk, ImageUrl(images[i]).value, imgType,
                                      images[i].filename, images[i].md5sum);
       && before.err.None?
       && failed.err.Some?
       && FetchImages(env, disk, images, imgType) == ImageCache.Checked(failed.disk, before.downloads + failed.downloads, failed.err)
  }

  /** What the symbol reference of an appliance leads Import to do with
      the symbol file. */
  datatype SymbolCopy = NoCopy | FetchSymbol(url: string) | CopySymbol(src: string)

  /** The local source of a relative symbol reference, as written in the
      source: the prefix test has its arguments swapped, so every reference
      but "" and "/" is taken as relative. */
  function SymbolSourceAsWritten(src: string, inputDirectory: string): (r: string)
    ensures r == src <==> src == "" || src == "/"
  {
    if !Text.HasPrefix("/", src) then inputDirectory + "/" + src else src
  }

  /** An absolute symbol path is redirected under the input directory. */
  lemma AbsoluteSymbolIsMisplaced()
    ensures SymbolSourceAsWritten("/usr/share/r.svg", "appliances") == "appliances//usr/share/r.svg"
  {
  }

  /** The local source of a symbol reference: absolute paths as they are,
      relative ones under the directory of the appliance file. */
  function SymbolSource(src: string, inputDirectory: string): (r: string)
    ensures Text.HasPrefix(src, "/") ==> r == src
    ensures !Text.HasPrefix(src, "/") ==> r == inputDirectory + "/" + src
  {
    if Text.HasPrefix(src, "/") then src else inputDirectory + "/" + src
  }

  /** The two readings agree on relative references and part on absolute ones. */
  lemma SymbolSourceAgreesOnRelative(src: string, inputDirectory: string)
    requires src != "" && src != "/"
    ensures SymbolSourceAsWritten(src, inputDirectory) == SymbolSource(src, inputDirectory) <==> !Text.HasPrefix(src, "/")
  {
  }

  /** The symbol file action: download for http(s) references, a copy for
      references without a scheme, nothing (a warning) for a reference
      net/url rejects or one with another scheme. The local source is the
      one the source computes, with its swapped prefix test. */
  function SymbolAction(symbol: string, inputDirectory: string): (r: SymbolCopy)
    ensures symbol == "" || Url.Parse(symbol).None? ==> r == NoCopy
    ensures r.FetchSymbol? <==> symbol != "" && Url.Parse(symbol) in {Some("http"), Some("https")}
    ensures r.FetchSymbol? ==> r.url == symbol
    ensures r.CopySymbol? <==> symbol != "" && Url.Parse(symbol) == Some("")
    ensures r.CopySymbol? ==> r.src == SymbolSourceAsWritten(symbol, inputDirectory)
  {
    if symbol == "" then NoCopy
    else match Url.Parse(symbol)
      case None => NoCopy
      case Some(scheme) =>
        if scheme == "http" || scheme == "https" then FetchSymbol(symbol)
        else if scheme == "" then CopySymbol(SymbolSourceAsWritten(symbol, inputDirectory))
        else NoCopy
  }

  /** An absolute symbol path of ordinary characters is copied, and copied
      from under the input directory. */
  lemma AbsoluteSymbolCopiedFromInputDirectory(symbol: string, inputDirectory: string)
    requires Text.HasPrefix(symbol, "/") && symbol != "/"
    requires forall i :: 0 <= i < |symbol| ==> Url.PathChar(symbol[i])
    ensures SymbolAction(symbol, inputDirectory) == CopySymbol(inputDirectory + "/" + symbol)
  {
    Url.PlainPathParses(symbol);
  }

  /** What Import leaves behind: the image cache, the URLs downloaded, the
      symbol action taken, and the template or the error. */
  datatype Imported = Imported(
    disk: ImageCache.Disk,
    downloads: seq<string>,
    symbolCopy: SymbolCopy,
    result: Result<Template, Error>)

  /** Appliances.Import on a decoded appliance. */
  function Import(env: ImageCache.Env, disk: ImageCache.Disk, app: Appliance, inputDirectory: string): (r: Imported)
    ensures r.symbolCopy == SymbolAction(app.symbol, inputDirectory)
    ensures EmulatorOf(app).None? ==>
              r.result == Failure(NoEmulator(TemplateName(app))) && r.downloads == [] && r.disk == disk
    ensures EmulatorOf(app).Some? ==>
              var fetched := FetchImages(env, disk, app.images, ImageType(TemplateTypeOf(EmulatorOf(app).value)));
              && r.disk == fetched.disk && r.downloads == fetched.downloads
              && (fetched.err.Some? ==> r.result == Failure(fetched.err.value))
              && (fetched.err.None? ==> r.result == Success(Derived(app, EmulatorOf(app).value)))
  {
    var symbolCopy := SymbolAction(app.symbol, inputDirectory);
    match EmulatorOf(app)
    case None => Imported(disk, [], symbolCopy, Failure(NoEmulator(TemplateName(app))))
    case Some(e) =>
      var t := Derived(app, e);
      var fetched := FetchImages(env, disk, app.images, ImageType(t.templateType));
      Imported(fetched.disk, fetched.downloads, symbolCopy,
               if fetched.err.Some? then Failure(fetched.err.value) else Success(t))
  }
}

=== FILE: computes.dfy ===
/** pkg/gns3/computes.go: compute lookup (direct fetch first, for any id) and
    deletion of the resolved compute. */
module Computes {
  import opened Wrappers
  import opened Records
  import opened Remote
  import Resolve

  function ComputeName(c: Compute): string { c.name }

  /** GET v2/computes/<id>. */
  function Fetch(s: Server, id: string): (r: Result<Compute, Error>)
    ensures r.Success? <==> Answers(s, Read(ComputeAt(id))) && exists i :: 0 <= i < |s.computes| && s.computes[i].computeId == id
    ensures r.Success? ==> r.value in s.computes && r.value.computeId == id
  {
    if !Answers(s, Read(ComputeAt(id))) then Failure(Refusal)
    else match Resolve.First(s.computes, (c: Compute) => c.computeId == id)
      case None => Failure(Missing)
      case Some(c) => Success(c)
  }

  /** GET v2/computes. */
  function List(s: Server): (r: Result<seq<Compute>, Error>)
    ensures r.Success? <==> Answers(s, Read(ComputesAll))
    ensures r.Success? ==> r.value == s.computes
  {
    if Answers(s, Read(ComputesAll)) then Success(s.computes) else Failure(Refusal)
  }

  /** Computes.Get: unlike the other lookups, the direct fetch is tried for
      every id, with no UUID check; the name scan follows when it fails. */
  function Get(s: Server, id: string): (st: Step<Compute>)
    ensures st.srv == s
    ensures |st.sent| > 0 && st.sent[0] == Read(ComputeAt(id))
    ensures Fetch(s, id).Success? ==> st.result == Fetch(s, id) && st.sent == [Read(ComputeAt(id))]
    ensures Fetch(s, id).Failure? ==> st.sent == [Read(ComputeAt(id)), Read(ComputesAll)]
    ensures Fetch(s, id).Failure? && !Answers(s, Read(ComputesAll)) ==> st.result == Failure(Refusal)
    ensures Fetch(s, id).Failure? && Answers(s, Read(ComputesAll)) ==>
              && (st.result.Success? <==> exists i :: 0 <= i < |s.computes| && s.computes[i].name == id)
              && (st.result.Success? ==> Resolve.IsFirstNamed(s.computes, ComputeName, id, st.result.value))
              && (st.result.Failure? ==> st.result.error == NotFound)
    ensures st.result.Success? ==> st.result.value in s.computes
  {
    var direct := Fetch(s, id);
    var r := Resolve.ByIdOrName(id, Some(direct), List(s), ComputeName);
    Step(s, LookupSent(ComputeAt(id), ComputesAll, true, direct.Success?), r)
  }

  function Without(cs: seq<Compute>, id: string): (r: seq<Compute>)
    ensures forall c :: c in r <==> c in cs && c.computeId != id
  {
    if |cs| == 0 then []
    else (if cs[0].computeId == id then [] else [cs[0]]) + Without(cs[1..], id)
  }

  /** Computes.Delete: resolve, then DELETE v2/computes/<resolved id>. */
  function Delete(s: Server, id: string): (r: Reply)
    ensures Get(s, id).result.Failure? ==>
              r.srv == s && r.sent == Get(s, id).sent && r.id == "" && r.err == Some(Get(s, id).result.error)
    ensures Get(s, id).result.Success? ==>
              && r.id == Get(s, id).result.value.computeId
              && r.sent == Get(s, id).sent + [Request(DELETE, ComputeAt(r.id), NoBody)]
              && (r.err.None? <==> Answers(s, Request(DELETE, ComputeAt(r.id), NoBody)))
              && (r.err.None? ==> forall c :: c in r.srv.computes <==> c in s.computes && c.computeId != r.id)
              && (r.err.Some? ==> r.srv == s)
  {
    var found := Get(s, id);
    match found.result
    case Failure(e) => Reply(s, found.sent, "", Some(e))
    case Success(c) =>
      var req := Request(DELETE, ComputeAt(c.computeId), NoBody);
      if !Answers(s, req) then Reply(s, found.sent + [req], c.computeId, Some(Refusal))
      else Reply(s.(computes := Without(s.computes, c.computeId)), found.sent + [req], c.computeId, None)
  }
}

=== FILE: floats.dfy ===
/** Go's float64 as far as whole numbers are concerned: encoding/json
    decodes every JSON number it stores in an `interface{}` as a float64,
    so a whole number that comes back out has been rounded to the nearest
    value with 53 significant bits, ties to even (roundTiesToEven, section
    4.3.1 of IEEE 754-2008). Whole numbers of Go's `int` never reach the
    float64 overflow range, so infinities are not modelled. */
module Floats {

  /** 2^53: every whole number up to it has at most 53 significant bits. */
  const Pow53: nat := 0x20_0000_0000_0000
  const Pow54: nat := 0x40_0000_0000_0000

  /** A whole magnitude a float64 holds exactly: at most 53 significant
      bits, that is, below 2^53, or even with half of it held exactly. */
  predicate Representable(r: nat)
    decreases r
  {
    if r < Pow53 then true
    else if r < Pow54 then r % 2 == 0
    else r % 2 == 0 && Representable(r / 2)
  }

  /** A whole magnitude `a`, plus a positive amount below one when
      `sticky` is set, rounded to the nearest float64, ties to even. From
      2^54 on the last bit is folded into `sticky` and the half is rounded;
      between 2^53 and 2^54 the unit in the last place is 2, and an odd `a`
      lies halfway between its neighbours unless `sticky` breaks the tie
      upwards. */
  function Round(a: nat, sticky: bool): nat
    decreases a
  {
    if a < Pow53 then a
    else if a < Pow54 then
      if a % 2 == 0 then a
      else if sticky || (a / 2) % 2 == 1 then a + 1
      else a - 1
    else 2 * Round(a / 2, sticky || a % 2 == 1)
  }

  /** The rounded magnitude is a float64, and rounding never leaves the
      range of 2^53 or 2^54 it starts in. */
  lemma {:induction false} RoundShape(a: nat, sticky: bool)
    ensures Representable(Round(a, sticky))
    ensures a >= Pow53 ==> Round(a, sticky) >= Pow53
    ensures a >= Pow54 ==> Round(a, sticky) >= Pow54
    ensures a < Pow53 ==> Round(a, sticky) == a
    decreases a
  {
    if a >= Pow54 {
      var half := Round(a / 2, sticky || a % 2 == 1);
      RoundShape(a / 2, sticky || a % 2 == 1);
      assert (2 * half) % 2 == 0 && (2 * half) / 2 == half;
    } else if a >= Pow53 && a % 2 == 1 && (sticky || (a / 2) % 2 == 1) {
      assert a + 1 == Pow54 ==> (a + 1) / 2 == Pow53;
    }
  }

  /** Round, with what is known of its result: a float64, in the range
      of 2^53 or 2^54 it starts in, and `a` itself below 2^53. */
  function RoundMagnitude(a: nat, sticky: bool): (r: nat)
    ensures Representable(r)
    ensures a >= Pow53 ==> r >= Pow53
    ensures a >= Pow54 ==> r >= Pow54
    ensures a < Pow53 ==> r == a
  {
    RoundShape(a, sticky);
    Round(a, sticky)
  }

  /** float64(n) for a whole number, read back as a whole number. */
  function Float64(n: int): int {
    if n >= 0 then RoundMagnitude(n, false) else -(RoundMagnitude(-n, false) as int)
  }

  /** Rounding leaves a whole number alone exactly when a float64 holds it. */
  lemma {:induction false} FixedIffRepresentable(a: nat)
    ensures RoundMagnitude(a, false) == a <==> Representable(a)
    decreases a
  {
    if a >= Pow54 && Representable(a) {
      FixedIffRepresentable(a / 2);
    }
  }

  /** Whole numbers up to 2^53 in magnitude are held exactly. */
  lemma ExactUpTo2To53(n: int)
    requires -(Pow53 as int) <= n <= Pow53
    ensures Float64(n) == n
  {
  }

  /** 2^53 + 1 is the first whole number a float64 cannot hold: it lies
      halfway between 2^53 and 2^53 + 2 and goes to the even one. */
  lemma FirstInexact()
    ensures Float64(Pow53 + 1) == Pow53
  {
  }

  /** Rounding keeps zero and the sign. */
  lemma RoundKeepsSign(n: int)
    ensures Float64(n) == 0 <==> n == 0
    ensures Float64(n) > 0 <==> n > 0
  {
  }

  /** A rounded value is a float64 already: rounding it again changes
      nothing. */
  lemma RoundIdempotent(n: int)
    ensures Float64(Float64(n)) == Float64(n)
  {
    var a: nat := if n >= 0 then n else -n;
    FixedIffRepresentable(RoundMagnitude(a, false));
  }

  /** Rounding is monotone: a larger magnitude, or the same magnitude with
      a positive amount below one added, never rounds to less. */
  lemma {:induction false} RoundMonotone(x: nat, s: bool, y: nat, t: bool)
    requires x < y || (x == y && (s ==> t))
    ensures RoundMagnitude(x, s) <= RoundMagnitude(y, t)
    decreases y
  {
    if x < Pow53 || y < Pow54 {
    } else if x < Pow54 {
      assert RoundMagnitude(x, s) <= Pow54 <= RoundMagnitude(y, t);
    } else {
      RoundMonotone(x / 2, s || x % 2 == 1, y / 2, t || y % 2 == 1);
    }
  }

  /** ParseFloat reads the whole number `x` as the float64 `a`. */
  predicate ParsesTo(x: nat, a: nat) {
    Round(x, false) == a
  }

  /** The whole numbers ParseFloat reads as `a` are the range `lo` to `hi`
      when both ends are read as `a` and their outer neighbours are not. */
  lemma ParsesExactlyWithin(a: nat, lo: nat, hi: nat)
    requires 1 <= lo <= hi
    requires ParsesTo(lo, a) && ParsesTo(hi, a) && !ParsesTo(lo - 1, a) && !ParsesTo(hi + 1, a)
    ensures forall x: nat :: ParsesTo(x, a) <==> lo <= x <= hi
  {
    forall x: nat
      ensures ParsesTo(x, a) <==> lo <= x <= hi
    {
      if x < lo {
        RoundMonotone(x, false, lo - 1, false);
        RoundMonotone(lo - 1, false, lo, false);
      } else if x > hi {
        RoundMonotone(hi + 1, false, x, false);
        RoundMonotone(hi, false, hi + 1, false);
      } else {
        RoundMonotone(lo, false, x, false);
        RoundMonotone(x, false, hi, false);
      }
    }
  }

  /** Twice a float64 is a float64. */
  lemma DoubleRepresentable(a: nat)
    requires Representable(a)
    ensures Representable(2 * a)
  {
  }

  function Pow10(k: nat): (p: nat)
    ensures p >= 1
  {
    if k == 0 then 1 else 10 * Pow10(k - 1)
  }

  /** The multiple of `p` at or below `a`, and the one at or above it. */
  function Below(a: nat, p: nat): (r: nat)
    requires p >= 1
    ensures r <= a && r % p == 0
  {
    MulMod(a / p, p);
    a / p * p
  }

  function Above(a: nat, p: nat): (r: nat)
    requires p >= 1
    ensures a <= r && r % p == 0
  {
    if a % p == 0 then a
    else
      MulMod(a / p + 1, p);
      (a / p + 1) * p
  }

  /** `q * p` leaves no remainder on division by `p`. */
  lemma MulMod(q: nat, p: nat)
    requires p >= 1
    ensures (q * p) % p == 0
  {
    DivModUnique(q * p, p, q, 0);
  }

  /** Division by a positive `p` has one quotient and one remainder. */
  lemma DivModUnique(x: int, p: int, q: int, r: int)
    requires p >= 1 && 0 <= r < p && x == q * p + r
    ensures x / p == q && x % p == r
  {
    var q', r' := x / p, x % p;
    if q > q' {
      MulAtLeast(q - q', p);
    } else if q < q' {
      MulAtLeast(q' - q, p);
    }
  }

  lemma MulAtLeast(d: int, p: int)
    requires d >= 1 && p >= 1
    ensures d * p >= p
  {
  }

  /** No multiple of `p` lies strictly between `Below(a, p)` and `a`. */
  lemma BelowIsLargest(a: nat, p: nat, x: nat)
    requires p >= 1 && x % p == 0 && x <= a
    ensures x <= Below(a, p)
  {
    if x / p > a / p {
      MulAtLeast(x / p - a / p, p);
      assert false;
    }
    MulLe(x / p, a / p, p);
  }

  /** No multiple of `p` lies strictly between `a` and `Above(a, p)`. */
  lemma AboveIsSmallest(a: nat, p: nat, x: nat)
    requires p >= 1 && x % p == 0 && a <= x
    ensures Above(a, p) <= x
  {
    if a % p != 0 {
      if x / p <= a / p {
        MulLe(x / p, a / p, p);
        assert false;
      }
      MulLe(a / p + 1, x / p, p);
    }
  }

  lemma MulLe(u: int, v: int, p: int)
    requires 0 <= u <= v && p >= 1
    ensures u * p <= v * p
  {
  }

  /** Some multiple of `p` next to the float64 `a` parses back as `a`. */
  predicate Near(a: nat, p: nat)
    requires p >= 1
  {
    ParsesTo(Below(a, p), a) || ParsesTo(Above(a, p), a)
  }

  /** A multiple of `p` that parses back as `a` is never above twice `a`,
      so `p` is not either. */
  lemma NearBound(a: nat, p: nat)
    requires Representable(a) && a > 0 && p >= 1 && Near(a, p)
    ensures p <= 2 * a
  {
    if ParsesTo(Below(a, p), a) {
      assert Below(a, p) != 0;
      PositiveMultiple(Below(a, p), p);
    } else {
      var c := Above(a, p);
      if c > 2 * a {
        DoubleRepresentable(a);
        FixedIffRepresentable(2 * a);
        RoundMonotone(2 * a, false, c, false);
        assert false;
      }
      PositiveMultiple(c, p);
    }
  }

  lemma PositiveMultiple(x: nat, p: nat)
    requires p >= 1 && x > 0 && x % p == 0
    ensures p <= x
  {
  }

  /** From `k` on, the largest `j` such that some multiple of 10^j parses
      back as `a`. */
  function Level(a: nat, k: nat): (r: nat)
    requires Representable(a) && a > 0
    requires Near(a, Pow10(k))
    ensures r >= k && Near(a, Pow10(r)) && !Near(a, Pow10(r + 1))
    decreases 2 * a - Pow10(k)
  {
    if Near(a, Pow10(k + 1)) then
      NearBound(a, Pow10(k + 1));
      Level(a, k + 1)
    else k
  }

  /** The trailing decimal zeros of strconv's shortest form of the
      float64 `a`: as many as any number ParseFloat reads as `a` has. */
  function Zeros(a: nat): (r: nat)
    requires Representable(a) && a > 0
    ensures Near(a, Pow10(r)) && !Near(a, Pow10(r + 1))
  {
    FixedIffRepresentable(a);
    assert Below(a, Pow10(0)) == a;
    Level(a, 0)
  }

  /** Of the two multiples of `p` next to `a`, the one strconv writes: the
      one that parses back as `a`, the nearer when both do, and on a tie
      the one with an even last digit. */
  function Pick(a: nat, p: nat): (r: nat)
    requires p >= 1 && Near(a, p)
    ensures ParsesTo(r, a) && r % p == 0
    ensures r == Below(a, p) || r == Above(a, p)
  {
    var lo := Below(a, p);
    var hi := Above(a, p);
    if ParsesTo(lo, a) && ParsesTo(hi, a) then
      if a - lo < hi - a then lo
      else if hi - a < a - lo then hi
      else if (lo / p) % 2 == 0 then lo
      else hi
    else if ParsesTo(lo, a) then lo
    else hi
  }

  /** strconv.FormatFloat(f, 'f', -1, 64) of a whole float64 `a`, read as
      a whole number: the fewest significant digits that ParseFloat reads
      back as `a`, the nearest such number, ties to an even last digit. */
  function Shortest(a: nat): (r: nat)
    requires Representable(a)
    ensures ParsesTo(r, a)
    ensures r == 0 <==> a == 0
  {
    if a == 0 then 0 else Pick(a, Pow10(Zeros(a)))
  }

  /** How far `x` is from `a`. */
  function Dist(x: nat, a: nat): nat {
    if x <= a then a - x else x - a
  }

  /** A multiple of 10^j that parses back as `a`, on one side of `a`,
      makes the multiple of 10^j next to `a` on that side parse back too. */
  lemma NextMultipleParses(a: nat, p: nat, x: nat)
    requires Representable(a) && p >= 1 && x % p == 0 && ParsesTo(x, a)
    ensures x <= a ==> ParsesTo(Below(a, p), a) && x <= Below(a, p)
    ensures x >= a ==> ParsesTo(Above(a, p), a) && Above(a, p) <= x
  {
    FixedIffRepresentable(a);
    if x <= a {
      BelowIsLargest(a, p, x);
      RoundMonotone(x, false, Below(a, p), false);
      RoundMonotone(Below(a, p), false, a, false);
    }
    if x >= a {
      AboveIsSmallest(a, p, x);
      RoundMonotone(a, false, Above(a, p), false);
      RoundMonotone(Above(a, p), false, x, false);
    }
  }

  /** strconv's form is shortest: it ends in `Zeros(a)` zeros, and no
      number with more trailing zeros parses back as `a`. */
  lemma ShortestHasFewestDigits(a: nat)
    requires Representable(a) && a > 0
    ensures Shortest(a) % Pow10(Zeros(a)) == 0
    ensures forall x: nat :: ParsesTo(x, a) ==> x % Pow10(Zeros(a) + 1) != 0
  {
    var q := Pow10(Zeros(a) + 1);
    forall x: nat | ParsesTo(x, a)
      ensures x % q != 0
    {
      if x % q == 0 {
        NextMultipleParses(a, q, x);
      }
    }
  }

  /** Of the numbers with that many trailing zeros that parse back as `a`,
      strconv's form is a nearest one to `a`; another one just as near
      loses the tie to its even last digit. */
  lemma ShortestIsNearest(a: nat, x: nat)
    requires Representable(a) && a > 0
    requires ParsesTo(x, a) && x % Pow10(Zeros(a)) == 0
    ensures Dist(Shortest(a), a) <= Dist(x, a)
    ensures Dist(x, a) == Dist(Shortest(a), a) && x != Shortest(a) ==> (Shortest(a) / Pow10(Zeros(a))) % 2 == 0
  {
    PickIsNearest(a, Pow10(Zeros(a)), x);
  }

  lemma PickIsNearest(a: nat, p: nat, x: nat)
    requires Representable(a) && p >= 1 && Near(a, p)
    requires ParsesTo(x, a) && x % p == 0
    ensures Dist(Pick(a, p), a) <= Dist(x, a)
    ensures Dist(x, a) == Dist(Pick(a, p), a) && x != Pick(a, p) ==> (Pick(a, p) / p) % 2 == 0
  {
    var lo, hi := Below(a, p), Above(a, p);
    NextMultipleParses(a, p, x);
    PickNearer(a, p);
    if Dist(x, a) == Dist(Pick(a, p), a) && x != Pick(a, p) {
      assert x != lo || x != hi;
      PickTie(a, p);
    }
  }

  /** Pick takes a side that parses back, and the nearer when both do. */
  lemma PickNearer(a: nat, p: nat)
    requires p >= 1 && Near(a, p)
    ensures ParsesTo(Below(a, p), a) ==> Dist(Pick(a, p), a) <= a - Below(a, p)
    ensures ParsesTo(Above(a, p), a) ==> Dist(Pick(a, p), a) <= Above(a, p) - a
  {
  }

  /** On a tie, Pick takes the multiple with the even quotient. */
  lemma PickTie(a: nat, p: nat)
    requires p >= 1 && Near(a, p)
    requires ParsesTo(Below(a, p), a) && ParsesTo(Above(a, p), a)
    requires a - Below(a, p) == Above(a, p) - a && Below(a, p) != Above(a, p)
    ensures (Pick(a, p) / p) % 2 == 0
  {
    var lo, hi := Below(a, p), Above(a, p);
    assert a % p != 0;
    DivModUnique(lo, p, a / p, 0);
    DivModUnique(hi, p, a / p + 1, 0);
  }

  /** The whole number the text of a float64 carries: strconv's shortest
      form of its magnitude, with its sign. */
  function Printed(v: int): (r: int)
    requires Representable(if v >= 0 then v else -v)
    ensures Float64(r) == v
  {
    if v >= 0 then Shortest(v) else -(Shortest(-v) as int)
  }

  /** `n` decoded from JSON into a float64 and encoded again, as the
      whole number the new text holds. */
  function Reprint(n: int): (r: int)
    ensures Float64(r) == Float64(n)
    ensures r == 0 <==> n == 0
    ensures r > 0 <==> n > 0
  {
    RoundKeepsSign(n);
    Printed(Float64(n))
  }

  /** A second pass through float64 and back changes nothing more. */
  lemma ReprintIdempotent(n: int)
    ensures Reprint(Reprint(n)) == Reprint(n)
  {
  }

  /** Only `a` itself parses back as a float64 below 2^53. */
  lemma OnlyItselfBelow2To53(a: nat, x: nat)
    requires a < Pow53 && ParsesTo(x, a)
    ensures x == a
  {
    RoundShape(x, false);
  }

  /** ParseFloat reads 2^53 and 2^53 + 1, and nothing else, as 2^53. */
  lemma ParsesTo2To53()
    ensures forall x: nat :: ParsesTo(x, Pow53) <==> Pow53 <= x <= Pow53 + 1
  {
    assert RoundMagnitude(Pow53 + 2, false) == Pow53 + 2;
    ParsesExactlyWithin(Pow53, Pow53, Pow53 + 1);
  }

  /** Whole numbers up to 2^53 in magnitude come back from the float64 pass
      with the same text. */
  lemma ReprintExactUpTo2To53(n: int)
    requires -(Pow53 as int) <= n <= Pow53
    ensures Reprint(n) == n
  {
    ExactUpTo2To53(n);
    var a: nat := if n >= 0 then n else -n;
    if a < Pow53 {
      OnlyItselfBelow2To53(a, Shortest(a));
    } else if a == Pow53 {
      ShortestOf2To53();
    }
  }

  lemma ShortestOf2To53()
    ensures Shortest(Pow53) == Pow53
  {
    ParsesTo2To53();
    ShortestHasFewestDigits(Pow53);
    if Zeros(Pow53) > 0 {
      Pow10Divides(Shortest(Pow53), 1, Zeros(Pow53));
    }
  }

  /** A multiple of 10^k is a multiple of 10^j for every j up to k. */
  lemma {:induction false} Pow10Divides(x: nat, j: nat, k: nat)
    requires j <= k && x % Pow10(k) == 0
    ensures x % Pow10(j) == 0
    decreases k
  {
    if j < k {
      var q := x / Pow10(k);
      assert x == q * Pow10(k);
      assert q * Pow10(k) == (q * 10) * Pow10(k - 1);
      DivModUnique(x, Pow10(k - 1), q * 10, 0);
      Pow10Divides(x, j, k - 1);
    }
  }

  /** 2^60 and 2^63, the powers of two of the worked examples below. */
  const Pow60: nat := 0x1000_0000_0000_0000
  const Pow63: nat := 0x8000_0000_0000_0000

  function Pow2(k: nat): (p: nat)
    ensures p >= 1
  {
    if k == 0 then 1 else 2 * Pow2(k - 1)
  }

  /** Rounding `x * 2^k + r`, where `r` is below 2^k, is rounding `x` with
      `r` folded into the sticky bit, scaled by 2^k. */
  lemma {:induction false} RoundScale(x: nat, k: nat, r: nat, s: bool)
    requires Pow53 <= x && r < Pow2(k)
    ensures Round(x * Pow2(k) + r, s) == Pow2(k) * Round(x, s || r > 0)
    decreases k
  {
    if k == 0 {
      assert x * Pow2(k) + r == x;
    } else {
      var q := Pow2(k - 1);
      var xq := x * q;
      assert x * Pow2(k) == 2 * xq;
      MulLe(1, q, x);
      var a, b := 2 * xq + r, xq + r / 2;
      assert a == 2 * b + r % 2 && a >= Pow54;
      DivModUnique(a, 2, b, r % 2);
      assert Round(a, s) == 2 * Round(b, s || r % 2 == 1);
      RoundScale(x, k - 1, r / 2, s || r % 2 == 1);
      assert (s || r % 2 == 1 || r / 2 > 0) == (s || r > 0);
      MulTwice(q, Round(x, s || r > 0));
    }
  }

  lemma MulTwice(q: int, m: int)
    ensures 2 * (q * m) == (2 * q) * m
  {
  }

  /** ParseFloat reads `a = 2^54 * 2^j` from `2^j` below it to `2^(j+1)`
      above it, and nothing else, as that float64: its neighbours are
      `2^(j+1)` below it and `2^(j+2)` above it. */
  lemma ParsesToPowerOfTwo(j: nat, a: nat, p: nat)
    requires p == Pow2(j) && a == Pow54 * p
    ensures forall x: nat :: ParsesTo(x, a) <==> a - p <= x <= a + 2 * p
  {
    LowEndParses(j, a, p);
    BelowLowEndMisses(j, a, p);
    HighEndParses(j, a, p);
    AboveHighEndMisses(j, a, p);
    ParsesExactlyWithin(a, a - p, a + 2 * p);
  }

  /** How the numbers next to 2^54 round: 2^54 - 1 is halfway between two
      float64s and goes to the even one above; 2^53 + 1 goes to the even
      one below unless a sticky bit pushes it up. */
  lemma RoundAtBinadeEdges()
    ensures Round(Pow54 - 1, false) == Pow54
    ensures Round(Pow54 - 2, false) == Pow54 - 2 && Round(Pow54 - 2, true) == Pow54 - 2
    ensures Round(Pow53 + 1, false) == Pow53 && Round(Pow53 + 1, true) == Pow53 + 2
  {
  }

  /** The ends of that range parse back as `a`, and the numbers just
      outside them do not. */
  lemma LowEndParses(j: nat, a: nat, p: nat)
    requires p == Pow2(j) && a == Pow54 * p
    ensures ParsesTo(a - p, a)
  {
    RoundScale(Pow54 - 1, j, 0, false);
    RoundAtBinadeEdges();
    assert (Pow54 - 1) * p + 0 == a - p;
  }

  lemma BelowLowEndMisses(j: nat, a: nat, p: nat)
    requires p == Pow2(j) && a == Pow54 * p
    ensures !ParsesTo(a - p - 1, a)
  {
    RoundScale(Pow54 - 2, j, p - 1, false);
    RoundAtBinadeEdges();
    assert (Pow54 - 2) * p + (p - 1) == a - p - 1;
  }

  lemma HighEndParses(j: nat, a: nat, p: nat)
    requires p == Pow2(j) && a == Pow54 * p
    ensures ParsesTo(a + 2 * p, a)
  {
    assert Pow2(j + 1) == 2 * p;
    RoundScale(Pow53 + 1, j + 1, 0, false);
    RoundAtBinadeEdges();
    assert (Pow53 + 1) * (2 * p) + 0 == a + 2 * p;
  }

  lemma AboveHighEndMisses(j: nat, a: nat, p: nat)
    requires p == Pow2(j) && a == Pow54 * p
    ensures !ParsesTo(a + 2 * p + 1, a)
  {
    assert Pow2(j + 1) == 2 * p;
    RoundScale(Pow53 + 1, j + 1, 1, false);
    RoundAtBinadeEdges();
    assert (Pow53 + 1) * (2 * p) + 1 == a + 2 * p + 1;
  }

  /** The float64 `a` is read back from exactly `lo` to `hi`; `m` is the
      one multiple of 10^k in that range, and the multiples of 10^(k+1)
      all miss it: then strconv prints `a` as `m`. */
  lemma ShortestInRange(a: nat, lo: nat, hi: nat, k: nat, m: nat)
    requires Representable(a) && a > 0
    requires forall x: nat :: ParsesTo(x, a) <==> lo <= x <= hi
    requires Above(lo, Pow10(k)) == m == Below(hi, Pow10(k))
    requires Below(hi, Pow10(k + 1)) < lo
    ensures Shortest(a) == m
  {
    var s := Shortest(a);
    assert lo <= s <= hi && ParsesTo(m, a);
    ShortestHasFewestDigits(a);
    var z := Zeros(a);
    if z < k {
      Pow10Divides(m, z + 1, k);
      assert false;
    } else if z > k {
      Pow10Divides(s, k + 1, z);
      BelowIsLargest(hi, Pow10(k + 1), s);
      assert false;
    }
    AboveIsSmallest(lo, Pow10(k), s);
    BelowIsLargest(hi, Pow10(k), s);
  }

  /** ParseFloat reads 2^60 - 64 to 2^60 + 128, and nothing else, as 2^60,
      and strconv prints it as 1152921504606847000. */
  lemma ShortestOf2To60()
    ensures forall x: nat :: ParsesTo(x, Pow60) <==> Pow60 - 64 <= x <= Pow60 + 128
    ensures Shortest(Pow60) == 1152921504606847000
  {
    ParsesToPowerOfTwo(6, Pow60, 64);
    ShortestInRange(Pow60, Pow60 - 64, Pow60 + 128, 3, 1152921504606847000);
  }

  /** ParseFloat reads 2^63 - 512 to 2^63 + 1024, and nothing else, as
      2^63, and strconv prints it as 9223372036854776000. */
  lemma ShortestOf2To63()
    ensures forall x: nat :: ParsesTo(x, Pow63) <==> Pow63 - 512 <= x <= Pow63 + 1024
    ensures Shortest(Pow63) == 9223372036854776000
  {
    ParsesToPowerOfTwo(9, Pow63, 512);
    ShortestInRange(Pow63, Pow63 - 512, Pow63 + 1024, 3, 9223372036854776000);
  }

  /** 2^60 comes back from the float64 pass as 1152921504606847000. */
  lemma ReprintOf2To60()
    ensures Reprint(Pow60) == 1152921504606847000
  {
    ShortestOf2To60();
    assert ParsesTo(Pow60, Pow60);
    assert Float64(Pow60) == Pow60;
  }

  /** 2^63 - 1, the largest int64, rounds up to 2^63 and comes back as
      9223372036854776000, which is beyond int64. */
  lemma ReprintOfMaxInt64()
    ensures Reprint(Pow63 - 1) == 9223372036854776000
  {
    ShortestOf2To63();
    assert ParsesTo(Pow63 - 1, Pow63);
    assert Float64(Pow63 - 1) == Pow63;
  }
}

=== FILE: imagecache.dfy ===
/** The local image cache check of pkg/gns3/appliances.go
    (checkAndDownload): an image file under
    <base-directory>/images/<type>/<name> with an MD5 sidecar next to it,
    downloaded when missing and downloaded once more when its sidecar does
    not hold the expected checksum. Downloads and MD5 digests are abstract:
    the environment says what each download attempt yields and what digest
    each content has. */
module ImageCache {
  import opened Wrappers
  import Text

  /** The local files the check reads and writes: contents by path. */
  type Disk = map<string, string>

  /** An MD5 digest: sixteen bytes. */
  type Md5 = b: seq<bv8> | |b| == 16 witness seq(16, i => 0 as bv8)

  /** What one download attempt yields: the saved content, a request that
      could not be built (grab.NewRequest failed), or a failed transfer,
      after which the program exits with status 1. */
  datatype Download = Saved(content: string) | BadRequest | Failed

  /** The environment of a check: the configured base directory, the
      outcome of the n-th download attempt of a URL within one check, and
      the MD5 function. */
  datatype Env = Env(baseDirectory: string, fetch: (string, nat) -> Download, md5: string -> Md5)

  /** The image file, ImagePath in the source. */
  function ImagePath(env: Env, imgType: string, name: string): string {
    env.baseDirectory + "/images/" + imgType + "/" + name
  }

  /** Its checksum sidecar, ImageMd5Path in the source. */
  function Md5Path(env: Env, imgType: string, name: string): string {
    ImagePath(env, imgType, name) + ".md5sum"
  }

  /** The sidecar text generateMd5Sum writes: the digest in lower-case hex. */
  function Digest(env: Env, content: string): (r: string)
    ensures |r| == 32
  {
    Text.Hex(env.md5(content))
  }

  /** The disk after a check, the URLs actually downloaded, in order, and the error. */
  datatype Checked = Checked(disk: Disk, downloads: seq<string>, err: Option<Error>)

  /** downloadUrlToFile with a sidecar name: the file is replaced by the
      downloaded content and the sidecar by its digest. */
  function DownloadTo(env: Env, disk: Disk, url: string, attempt: nat, file: string, sidecar: string): (r: Checked)
    ensures r.err.None? <==> env.fetch(url, attempt).Saved?
    ensures r.downloads == [] || r.downloads == [url]
    ensures r.err.None? ==>
              && r.downloads == [url]
              && r.disk == disk[file := env.fetch(url, attempt).content][sidecar := Digest(env, env.fetch(url, attempt).content)]
    ensures env.fetch(url, attempt).BadRequest? ==> r == Checked(disk, [], Some(BadDownloadRequest(url)))
    ensures env.fetch(url, attempt).Failed? ==> r == Checked(disk, [url], Some(Exited(1)))
  {
    match env.fetch(url, attempt)
    case BadRequest => Checked(disk, [], Some(BadDownloadRequest(url)))
    case Failed => Checked(disk, [url], Some(Exited(1)))
    case Saved(c) => Checked(disk[file := c][sidecar := Digest(env, c)], [url], None)
  }

  /** The file is present and its sidecar holds the expected checksum. */
  predicate Valid(disk: Disk, file: string, sidecar: string, expected: string) {
    file in disk && sidecar in disk && disk[sidecar] == expected
  }

  /** The file and sidecar after the first step: downloaded when the file
      is missing. */
  function Fill(env: Env, disk: Disk, url: string, file: string, sidecar: string): (r: Checked)
    ensures r.err.None? ==> file in r.disk
    ensures r.downloads == [] || r.downloads == [url]
    ensures file in disk ==> r == Checked(disk, [], None)
  {
    if file !in disk then DownloadTo(env, disk, url, 0, file, sidecar) else Checked(disk, [], None)
  }

  /** The sidecar generated from the file when it is missing. */
  function Hashed(env: Env, disk: Disk, file: string, sidecar: string): (r: Disk)
    requires file in disk
    ensures sidecar in r && file in r
    ensures sidecar in disk ==> r == disk
  {
    if sidecar !in disk then disk[sidecar := Digest(env, disk[file])] else disk
  }

  /** checkAndDownload(url, imgType, name, expected). */
  function Check(env: Env, disk: Disk, url: string, imgType: string, name: string, expected: string): (r: Checked)
    ensures |r.downloads| <= 2 && forall u :: u in r.downloads ==> u == url
    ensures disk.Keys <= r.disk.Keys
    ensures r.err.None? ==> Valid(r.disk, ImagePath(env, imgType, name), Md5Path(env, imgType, name), expected)
    ensures Valid(disk, ImagePath(env, imgType, name), Md5Path(env, imgType, name), expected) ==>
              r == Checked(disk, [], None)
    ensures forall p :: p != ImagePath(env, imgType, name) && p != Md5Path(env, imgType, name) ==>
              (p in r.disk <==> p in disk) && (p in disk ==> r.disk[p] == disk[p])
  {
    var file := ImagePath(env, imgType, name);
    var sidecar := Md5Path(env, imgType, name);
    var first := Fill(env, disk, url, file, sidecar);
    if first.err.Some? then first
    else
      var hashed := Hashed(env, first.disk, file, sidecar);
      if hashed[sidecar] == expected then Checked(hashed, first.downloads, None)
      else
        var second := DownloadTo(env, hashed, url, |first.downloads|, file, sidecar);
        var downloads := first.downloads + second.downloads;
        if second.err.Some? then Checked(second.disk, downloads, second.err)
        else if second.disk[sidecar] != expected then Checked(second.disk, downloads, Some(Md5Mismatch))
        else Checked(second.disk, downloads, None)
  }

  /** The sidecar as the final comparison reads it, when nothing failed
      before that comparison. */
  function SidecarBeforeRetry(env: Env, disk: Disk, url: string, imgType: string, name: string): (r: Option<string>)
    ensures r.Some? <==> Fill(env, disk, url, ImagePath(env, imgType, name), Md5Path(env, imgType, name)).err.None?
  {
    var file := ImagePath(env, imgType, name);
    var sidecar := Md5Path(env, imgType, name);
    var first := Fill(env, disk, url, file, sidecar);
    if first.err.Some? then None else Some(Hashed(env, first.disk, file, sidecar)[sidecar])
  }

  /** A missing file is downloaded first: the first download is of `url`
      unless the request could not even be built. */
  lemma MissingFileIsDownloaded(env: Env, disk: Disk, url: string, imgType: string, name: string, expected: string)
    requires ImagePath(env, imgType, name) !in disk
    ensures env.fetch(url, 0).BadRequest? <==> Check(env, disk, url, imgType, name, expected).downloads == []
    ensures !env.fetch(url, 0).BadRequest? ==> Check(env, disk, url, imgType, name, expected).downloads[0] == url
  {
  }

  /** The check downloads again exactly when the sidecar it compares with,
      whether found, generated or written by the first download, differs
      from the expected checksum. */
  lemma RetryIffMismatch(env: Env, disk: Disk, url: string, imgType: string, name: string, expected: string)
    requires SidecarBeforeRetry(env, disk, url, imgType, name).Some?
    ensures var r := Check(env, disk, url, imgType, name, expected);
            var before := if ImagePath(env, imgType, name) in disk then 0 else 1;
            (SidecarBeforeRetry(env, disk, url, imgType, name).value != expected <==>
               (|r.downloads| > before || r.err == Some(BadDownloadRequest(url))))
  {
  }

  /** After the retry a sidecar that still differs is a checksum mismatch. */
  lemma MismatchAfterRetry(env: Env, disk: Disk, url: string, imgType: string, name: string, expected: string)
    requires SidecarBeforeRetry(env, disk, url, imgType, name).Some?
    requires SidecarBeforeRetry(env, disk, url, imgType, name).value != expected
    requires env.fetch(url, if ImagePath(env, imgType, name) in disk then 0 else 1).Saved?
    ensures var c := env.fetch(url, if ImagePath(env, imgType, name) in disk then 0 else 1).content;
            Check(env, disk, url, imgType, name, expected).err ==
              (if Digest(env, c) == expected then None else Some(Md5Mismatch))
  {
  }

  /** A downloaded file always ends with the digest of its content in the sidecar. */
  lemma DownloadRewritesSidecar(env: Env, disk: Disk, url: string, imgType: string, name: string, expected: string)
    requires |Check(env, disk, url, imgType, name, expected).downloads| > 0
    requires Check(env, disk, url, imgType, name, expected).err.None?
    ensures var r := Check(env, disk, url, imgType, name, expected);
            r.disk[Md5Path(env, imgType, name)] == Digest(env, r.disk[ImagePath(env, imgType, name)])
  {
  }

  /** An empty expected checksum never succeeds once the check has written
      a digest: every digest is 32 characters long. */
  lemma EmptyChecksumFails(env: Env, disk: Disk, url: string, imgType: string, name: string)
    requires !Valid(disk, ImagePath(env, imgType, name), Md5Path(env, imgType, name), "")
    ensures Check(env, disk, url, imgType, name, "").err.Some?
  {
  }

  /** A successful check leaves a cache that the next check accepts
      without downloading or changing anything. */
  lemma CheckIsIdempotent(env: Env, disk: Disk, url: string, imgType: string, name: string, expected: string)
    requires Check(env, disk, url, imgType, name, expected).err.None?
    ensures var after := Check(env, disk, url, imgType, name, expected).disk;
            Check(env, after, url, imgType, name, expected) == Checked(after, [], None)
  {
  }
}

=== FILE: json.dfy ===
/** JSON objects as `encoding/json` sees the client's records: a map from
    field tags to values. Text encoding is abstracted away; `omitempty`
    encoding and zero-value decoding are what matter here. */
module Json {
  import opened Floats

  datatype Value = Str(s: string) | Int(i: int) | Bool(b: bool) | Strs(ss: seq<string>)

  /** The JSON field tags of the encoded records, one constructor per
      distinct tag string: `Usage`, `Adapters` and `ConsoleType` are shared
      by several records exactly as their tag strings are. */
  datatype Key =
    | Builtin | Category | ComputeId | DefaultNameFormat | FirstPortName | Name
    | Symbol | TemplateId | TemplateType | Usage
    | Options | KernelCommandLine | AdapterType | Adapters | BootPriority
    | ConsoleType | HdaDiskInterface | Ram | QemuPath | PortNameFormat
    | BiosImage | HdaDiskImage | CdromImage
    | Image | StartCommand | Environment | ConsoleAutoStart | ConsoleHttpPort
    | ConsoleHttpPath | ConsoleResolution | ExtraHosts | ExtraVolumes
    | Suspend

  /** The tag string each key is written as. */
  function Tag(k: Key): string {
    match k
    case Builtin => "builtin"
    case Category => "category"
    case ComputeId => "compute_id"
    case DefaultNameFormat => "default_name_format"
    case FirstPortName => "first_port_name"
    case Name => "name"
    case Symbol => "symbol"
    case TemplateId => "template_id"
    case TemplateType => "template_type"
    case Usage => "usage"
    case Options => "options"
    case KernelCommandLine => "kernel_command_line"
    case AdapterType => "adapter_type"
    case Adapters => "adapters"
    case BootPriority => "boot_priority"
    case ConsoleType => "console_type"
    case HdaDiskInterface => "hda_disk_interface"
    case Ram => "ram"
    case QemuPath => "qemu_path"
    case PortNameFormat => "port_name_format"
    case BiosImage => "bios_image"
    case HdaDiskImage => "hda_disk_image"
    case CdromImage => "cdrom_image"
    case Image => "image"
    case StartCommand => "start_command"
    case Environment => "environment"
    case ConsoleAutoStart => "console_auto_start"
    case ConsoleHttpPort => "console_http_port"
    case ConsoleHttpPath => "console_http_path"
    case ConsoleResolution => "console_resolution"
    case ExtraHosts => "extra_hosts"
    case ExtraVolumes => "extra_volumes"
    case Suspend => "suspend"
  }

  type Object = map<Key, Value>

  datatype Kind = KStr | KInt | KBool | KStrs

  /** The Go field type a tag decodes into; a tag shared by several records
      has the same type in each. */
  function KeyKind(k: Key): Kind {
    match k
    case Builtin | ConsoleAutoStart | Suspend => KBool
    case Adapters | Ram | ConsoleHttpPort => KInt
    case ExtraVolumes => KStrs
    case _ => KStr
  }

  function KindOf(v: Value): Kind {
    match v
    case Str(_) => KStr
    case Int(_) => KInt
    case Bool(_) => KBool
    case Strs(_) => KStrs
  }

  /** The zero value of a Go field: what `omitempty` leaves out. */
  predicate IsZero(v: Value) {
    match v
    case Str(s) => s == ""
    case Int(i) => i == 0
    case Bool(b) => !b
    case Strs(ss) => |ss| == 0
  }

  /** The range of Go's `int64`, and of `int` on the 64-bit platforms the
      client is built for. */
  const MinInt64: int := -0x8000_0000_0000_0000
  const MaxInt64: int := 0x7fff_ffff_ffff_ffff

  predicate FitsInt64(i: int) {
    MinInt64 <= i <= MaxInt64
  }

  /** json.Unmarshal stores `v` in the field tagged `k`: the kinds agree,
      and a whole number lies within the field's range (otherwise the
      decoder reports an UnmarshalTypeError). */
  predicate Decodes(v: Value, k: Key) {
    KindOf(v) == KeyKind(k) && (v.Int? ==> FitsInt64(v.i))
  }

  /** json.Unmarshal into a struct fails when a known key carries a value
      the field cannot hold. */
  predicate Conforms(m: Object, keys: set<Key>) {
    forall k :: k in m && k in keys ==> Decodes(m[k], k)
  }

  /** Every entry holds a value of the kind its tag decodes into. */
  predicate WellKinded(m: Object) {
    forall k :: k in m ==> KindOf(m[k]) == KeyKind(k)
  }

  /** An object whose every entry has the right kind decodes into a record
      exactly when the record's whole numbers are in range. */
  lemma WellKindedConforms(m: Object, keys: set<Key>)
    requires WellKinded(m)
    ensures Conforms(m, keys) <==> forall k :: k in m && k in keys && m[k].Int? ==> FitsInt64(m[k].i)
  {
  }

  /** Objects that agree on `keys` decode alike into a record with those tags. */
  lemma ConformsAgree(m1: Object, m2: Object, keys: set<Key>)
    requires Agree(m1, m2, keys)
    ensures Conforms(m1, keys) <==> Conforms(m2, keys)
  {
  }

  /** json.Unmarshal into an `interface{}` map and json.Marshal of that map:
      every whole number becomes a float64 and is written again in
      strconv's shortest form; the other values and the keys are kept. */
  function Reprinted(m: Object): (r: Object)
    ensures r.Keys == m.Keys
    ensures forall k :: k in m && !m[k].Int? ==> r[k] == m[k]
    ensures forall k :: k in m && m[k].Int? ==> r[k].Int? && Float64(r[k].i) == Float64(m[k].i)
    ensures forall k :: k in m ==> (IsZero(r[k]) <==> IsZero(m[k]))
    ensures WellKinded(m) ==> WellKinded(r)
  {
    map k | k in m :: if m[k].Int? then Int(Reprint(m[k].i)) else m[k]
  }

  /** An object whose only whole numbers sit under `a` and `b` is
      reprinted by reprinting those two entries. */
  lemma ReprintedTwoInts(m: Object, a: Key, b: Key, x: int, y: int)
    requires a in m && b in m && a != b && m[a] == Int(x) && m[b] == Int(y)
    requires forall k :: k in m && m[k].Int? ==> k == a || k == b
    ensures Reprinted(m) == m[a := Int(Reprint(x))][b := Int(Reprint(y))]
  {
  }

  /** Reprinting keeps every zero and every nonzero value, so it does not
      matter whether `omitempty` applies before or after it. */
  lemma OmitReprinted(m: Object)
    ensures Reprinted(Omit(m)) == Omit(Reprinted(m))
  {
  }

  /** `omitempty`: every field holding its zero value is left out. */
  function Omit(m: Object): (r: Object)
    ensures forall k :: k in r <==> k in m && !IsZero(m[k])
    ensures forall k :: k in r ==> r[k] == m[k]
    ensures WellKinded(m) ==> WellKinded(r)
  {
    map k | k in m && !IsZero(m[k]) :: m[k]
  }

  /** Leaving out fields never makes an object fail to decode. */
  lemma OmitConforms(m: Object, keys: set<Key>)
    requires Conforms(m, keys)
    ensures Conforms(Omit(m), keys)
  {
  }

  /** Leaving out zero fields is invisible to decoding, whatever the kinds. */
  lemma GetOmitted(m: Object)
    ensures forall k :: GetStr(Omit(m), k) == GetStr(m, k) && GetInt(Omit(m), k) == GetInt(m, k)
    ensures forall k :: GetBool(Omit(m), k) == GetBool(m, k) && GetStrs(Omit(m), k) == GetStrs(m, k)
  {
  }

  /** Decoding one field: an absent key leaves the zero value. */
  function GetStr(m: Object, k: Key): string {
    if k in m && m[k].Str? then m[k].s else ""
  }

  /** A whole number outside int64 never gets here: Conforms rejects it
      before any field is read. */
  function GetInt(m: Object, k: Key): int {
    if k in m && m[k].Int? then m[k].i else 0
  }

  function GetBool(m: Object, k: Key): bool {
    if k in m && m[k].Bool? then m[k].b else false
  }

  function GetStrs(m: Object, k: Key): seq<string> {
    if k in m && m[k].Strs? then m[k].ss else []
  }

  /** Two objects that hold the same entries under every key of `keys`. */
  ghost predicate Agree(m1: Object, m2: Object, keys: set<Key>) {
    forall k :: k in keys ==> (k in m1 <==> k in m2) && (k in m1 ==> m1[k] == m2[k])
  }

  /** Decoding looks only at the decoded key. */
  lemma GetAgree(m1: Object, m2: Object, k: Key)
    requires k in m1 <==> k in m2
    requires k in m1 ==> m1[k] == m2[k]
    ensures GetStr(m1, k) == GetStr(m2, k) && GetInt(m1, k) == GetInt(m2, k)
    ensures GetBool(m1, k) == GetBool(m2, k) && GetStrs(m1, k) == GetStrs(m2, k)
  {
  }

  /** Merging `x` over `a` (a Go map copy loop): a key keeps its value from
      `x` when `x` holds it, from `a` otherwise. */
  lemma MergedAgrees(a: Object, x: Object, keys: set<Key>)
    requires x.Keys !! keys
    ensures Agree(a + x, a, keys)
  {
  }

  lemma MergedOverAgrees(a: Object, x: Object, keys: set<Key>)
    requires a.Keys !! keys
    ensures Agree(a + x, x, keys)
  {
  }
}

=== FILE: linkdiff.dfy ===
/** The link reconciliation of cmd/load.go: the index of the project's live
    links, the matching of the desired links against it in either endpoint
    orientation, and what that leaves to delete, to create and to resume. */
module LinkDiff {
  import opened Wrappers
  import opened Records

  /** One end of a link as the index sees it: node id, port and adapter. */
  datatype LinkRef = LinkRef(nodeId: string, port: int, adapter: int)

  /** The index key of a link: its two ends in the order they are listed. */
  datatype LinkKey = LinkKey(aEnd: LinkRef, zEnd: LinkRef)

  /** What the index keeps for a live link. */
  datatype LinkState = LinkState(suspend: bool, linkId: string)

  /** The endpoint node names of a desired link, for the creation report. */
  datatype LinkInfo = LinkInfo(aEndName: string, zEndName: string)

  /** The same link read from its other end. */
  function Swap(k: LinkKey): LinkKey {
    LinkKey(k.zEnd, k.aEnd)
  }

  /** Only links joining exactly two node ports are indexed. */
  predicate TwoEnded(l: Link) {
    |l.nodes| == 2
  }

  function End(r: NodeRef): LinkRef {
    LinkRef(r.nodeId, r.portNumber, r.adapterNumber)
  }

  function KeyOf(l: Link): LinkKey
    requires TwoEnded(l)
  {
    LinkKey(End(l.nodes[0]), End(l.nodes[1]))
  }

  function StateOf(l: Link): LinkState {
    LinkState(l.suspend, l.linkId)
  }

  /** Live link `i` is the one the index ends up keeping for its key: it is
      two-ended and no later two-ended live link has the same key. */
  predicate IsLastWithKey(links: seq<Link>, i: int)
    requires 0 <= i < |links|
  {
    && TwoEnded(links[i])
    && forall j :: i < j < |links| && TwoEnded(links[j]) ==> KeyOf(links[j]) != KeyOf(links[i])
  }

  /** The index of the live links, built in list order, so that a later
      link with the same key replaces an earlier one. */
  function Index(links: seq<Link>): (m: map<LinkKey, LinkState>)
    ensures forall k :: k in m <==> exists i :: 0 <= i < |links| && TwoEnded(links[i]) && KeyOf(links[i]) == k
    ensures forall i :: 0 <= i < |links| && IsLastWithKey(links, i) ==> m[KeyOf(links[i])] == StateOf(links[i])
    decreases |links|
  {
    if |links| == 0 then map[]
    else
      var front := links[..|links| - 1];
      var l := links[|links| - 1];
      var m := Index(front);
      assert forall i :: 0 <= i < |front| ==> front[i] == links[i];
      if TwoEnded(l) then m[KeyOf(l) := StateOf(l)] else m
  }

  /** Every entry of the index is the state of a live two-ended link. */
  lemma {:induction false} IndexFromLive(links: seq<Link>)
    ensures forall k :: k in Index(links) ==>
              exists i :: 0 <= i < |links| && TwoEnded(links[i]) && KeyOf(links[i]) == k && Index(links)[k] == StateOf(links[i])
    decreases |links|
  {
    if |links| > 0 {
      var front := links[..|links| - 1];
      IndexFromLive(front);
      assert forall i :: 0 <= i < |front| ==> front[i] == links[i];
    }
  }

  /** A live link that a later link with the same key overwrote leaves no
      trace in the index unless it has the same state. */
  lemma Overwritten(links: seq<Link>, i: int, j: int)
    requires 0 <= i < j < |links| && TwoEnded(links[i]) && IsLastWithKey(links, j)
    requires KeyOf(links[i]) == KeyOf(links[j])
    ensures Index(links)[KeyOf(links[i])] == StateOf(links[j])
  {
  }

  /** A desired link once both of its end nodes are resolved. */
  datatype Wanted = Wanted(key: LinkKey, info: LinkInfo)

  /** The state of the matching loop: the live links not yet matched (the
      pending-delete index), the links to create, and the ids to resume. */
  datatype Diff = Diff(pending: map<LinkKey, LinkState>, create: map<LinkKey, LinkInfo>, keep: seq<string>)

  /** The live link a desired key matches: under the key itself, else under
      the swapped key. */
  function Matched(pending: map<LinkKey, LinkState>, key: LinkKey): (r: Option<LinkState>)
    ensures r.Some? <==> key in pending || Swap(key) in pending
    ensures key in pending ==> r == Some(pending[key])
    ensures key !in pending && Swap(key) in pending ==> r == Some(pending[Swap(key)])
  {
    if key in pending then Some(pending[key])
    else if Swap(key) in pending then Some(pending[Swap(key)])
    else None
  }

  /** One pass of the matching loop. */
  function MatchOne(d: Diff, w: Wanted): (r: Diff)
    ensures Matched(d.pending, w.key).Some? ==>
              && r.create == d.create
              && (forall k :: k in r.pending <==> k in d.pending && k != w.key && k != Swap(w.key))
              && r.keep == d.keep + (if Matched(d.pending, w.key).value.suspend then [Matched(d.pending, w.key).value.linkId] else [])
    ensures Matched(d.pending, w.key).None? ==>
              && r.pending == d.pending && r.keep == d.keep
              && w.key in r.create && r.create[w.key] == w.info
              && forall k :: k != w.key ==> (k in r.create <==> k in d.create) && (k in d.create ==> r.create[k] == d.create[k])
    ensures forall k :: k in r.pending ==> r.pending[k] == d.pending[k]
  {
    match Matched(d.pending, w.key)
    case Some(state) =>
      Diff(d.pending - {w.key, Swap(w.key)}, d.create, d.keep + if state.suspend then [state.linkId] else [])
    case None =>
      d.(create := d.create[w.key := w.info])
  }

  /** The matching loop over the desired links, in order. */
  function MatchAll(d: Diff, ws: seq<Wanted>): Diff
    decreases |ws|
  {
    if |ws| == 0 then d else MatchAll(MatchOne(d, ws[0]), ws[1..])
  }

  /** No desired link names `k` in either orientation. */
  predicate Untouched(k: LinkKey, ws: seq<Wanted>) {
    forall i :: 0 <= i < |ws| ==> ws[i].key != k && Swap(ws[i].key) != k
  }

  /** After matching, exactly the live links that no desired link names in
      either orientation are left to delete, with their states unchanged. */
  lemma {:induction false} PendingAfterMatch(d: Diff, ws: seq<Wanted>)
    ensures forall k :: k in MatchAll(d, ws).pending <==> k in d.pending && Untouched(k, ws)
    ensures forall k :: k in MatchAll(d, ws).pending ==> MatchAll(d, ws).pending[k] == d.pending[k]
    decreases |ws|
  {
    if |ws| > 0 {
      var d1 := MatchOne(d, ws[0]);
      PendingAfterMatch(d1, ws[1..]);
      forall k
        ensures k in MatchAll(d, ws).pending <==> k in d.pending && Untouched(k, ws)
      {
        if k in d.pending && Untouched(k, ws) {
          assert ws[0].key != k && Swap(ws[0].key) != k;
          assert k in d1.pending;
          assert Untouched(k, ws[1..]) by {
            forall i | 0 <= i < |ws[1..]| ensures ws[1..][i].key != k && Swap(ws[1..][i].key) != k {
              assert ws[1..][i] == ws[i + 1];
            }
          }
        }
        if k in MatchAll(d, ws).pending {
          assert k in d1.pending && Untouched(k, ws[1..]);
          assert k in d.pending;
          if Matched(d.pending, ws[0].key).None? {
            // nothing under either orientation was pending, and `k` is
            assert ws[0].key != k && Swap(ws[0].key) != k;
          }
          forall i | 0 <= i < |ws| ensures ws[i].key != k && Swap(ws[i].key) != k {
            if i > 0 { assert ws[i] == ws[1..][i - 1]; }
          }
        }
      }
    }
  }

  /** Matching only ever adds links to create and ids to resume. */
  lemma {:induction false} MatchGrows(d: Diff, ws: seq<Wanted>)
    ensures d.create.Keys <= MatchAll(d, ws).create.Keys
    ensures |d.keep| <= |MatchAll(d, ws).keep|
    ensures MatchAll(d, ws).keep[..|d.keep|] == d.keep
    ensures forall k :: k in MatchAll(d, ws).pending ==> k in d.pending
    decreases |ws|
  {
    if |ws| > 0 {
      var d1 := MatchOne(d, ws[0]);
      MatchGrows(d1, ws[1..]);
      assert d1.keep[..|d.keep|] == d.keep;
    }
  }

  /** A desired link neither of whose orientations is live is created,
      under the key it was written with. */
  lemma {:induction false} AbsentIsCreated(d: Diff, ws: seq<Wanted>, i: int)
    requires 0 <= i < |ws|
    requires ws[i].key !in d.pending && Swap(ws[i].key) !in d.pending
    ensures ws[i].key in MatchAll(d, ws).create
    decreases |ws|
  {
    var d1 := MatchOne(d, ws[0]);
    MatchGrows(d1, ws[1..]);
    if i > 0 {
      MatchGrows(d, [ws[0]]);
      assert ws[1..][i - 1] == ws[i];
      assert ws[i].key !in d1.pending && Swap(ws[i].key) !in d1.pending;
      AbsentIsCreated(d1, ws[1..], i - 1);
    }
  }

  /** Only desired keys are created. */
  lemma {:induction false} CreatedAreDesired(d: Diff, ws: seq<Wanted>)
    ensures forall k :: k in MatchAll(d, ws).create ==> k in d.create || exists i :: 0 <= i < |ws| && ws[i].key == k
    decreases |ws|
  {
    if |ws| > 0 {
      var d1 := MatchOne(d, ws[0]);
      CreatedAreDesired(d1, ws[1..]);
      forall k | k in MatchAll(d, ws).create
        ensures k in d.create || exists i :: 0 <= i < |ws| && ws[i].key == k
      {
        if k !in d1.create {
        } else if k !in d.create {
          assert ws[0].key == k;
        }
        if exists i :: 0 <= i < |ws[1..]| && ws[1..][i].key == k {
          var i :| 0 <= i < |ws[1..]| && ws[1..][i].key == k;
          assert ws[i + 1].key == k;
        }
      }
    }
  }

  /** Every id queued for resume while matching is that of a pending live
      link that was suspended. */
  lemma {:induction false} KeptAreSuspended(d: Diff, ws: seq<Wanted>)
    ensures forall j :: |d.keep| <= j < |MatchAll(d, ws).keep| ==>
              exists k :: k in d.pending && d.pending[k].suspend && d.pending[k].linkId == MatchAll(d, ws).keep[j]
    decreases |ws|
  {
    MatchGrows(d, ws);
    if |ws| > 0 {
      var d1 := MatchOne(d, ws[0]);
      KeptAreSuspended(d1, ws[1..]);
      MatchGrows(d1, ws[1..]);
      var r := MatchAll(d, ws);
      assert r == MatchAll(d1, ws[1..]);
      forall j | |d.keep| <= j < |r.keep|
        ensures exists k :: k in d.pending && d.pending[k].suspend && d.pending[k].linkId == r.keep[j]
      {
        if j < |d1.keep| {
          var st := Matched(d.pending, ws[0].key).value;
          assert Matched(d.pending, ws[0].key).Some? && st.suspend && j == |d.keep|;
          assert r.keep[j] == d1.keep[j] == st.linkId;
          if ws[0].key in d.pending {
            assert d.pending[ws[0].key].suspend && d.pending[ws[0].key].linkId == r.keep[j];
          } else {
            assert d.pending[Swap(ws[0].key)].suspend && d.pending[Swap(ws[0].key)].linkId == r.keep[j];
          }
        } else {
          var k :| k in d1.pending && d1.pending[k].suspend && d1.pending[k].linkId == r.keep[j];
          assert k in d.pending && d.pending[k] == d1.pending[k];
        }
      }
      assert forall j :: |d.keep| <= j < |r.keep| ==>
              exists k :: k in d.pending && d.pending[k].suspend && d.pending[k].linkId == r.keep[j];
    } else {
      assert MatchAll(d, ws) == d;
    }
  }

  /** A desired key is dealt with by the diff `r` computed from `d`: it is
      to be created, or a live link under it or under its swap was matched
      (it is no longer pending) and, when that link was suspended, its id is
      to be resumed. */
  ghost predicate Covered(d: Diff, r: Diff, key: LinkKey) {
    || key in r.create
    || exists k :: k in d.pending && (k == key || k == Swap(key)) && k !in r.pending
                   && (d.pending[k].suspend ==> d.pending[k].linkId in r.keep)
  }

  /** Once covered, a key stays covered as matching goes on. */
  lemma CoveredGrows(d: Diff, r1: Diff, r: Diff, key: LinkKey)
    requires Covered(d, r1, key)
    requires r1.create.Keys <= r.create.Keys
    requires |r1.keep| <= |r.keep| && r.keep[..|r1.keep|] == r1.keep
    requires forall k :: k in r.pending ==> k in r1.pending
    ensures Covered(d, r, key)
  {
    if key !in r1.create {
      var k :| k in d.pending && (k == key || k == Swap(key)) && k !in r1.pending
               && (d.pending[k].suspend ==> d.pending[k].linkId in r1.keep);
      if d.pending[k].suspend {
        var j :| 0 <= j < |r1.keep| && r1.keep[j] == d.pending[k].linkId;
        assert r.keep[j] == r1.keep[j];
      }
    }
  }

  /** Every desired link is covered by the diff the matching loop computes. */
  lemma {:induction false} DesiredCovered(d: Diff, ws: seq<Wanted>, i: int)
    requires 0 <= i < |ws|
    ensures Covered(d, MatchAll(d, ws), ws[i].key)
    decreases |ws|
  {
    var d1 := MatchOne(d, ws[0]);
    var r := MatchAll(d, ws);
    assert r == MatchAll(d1, ws[1..]);
    MatchGrows(d1, ws[1..]);
    if i == 0 {
      var key := ws[0].key;
      if Matched(d.pending, key).Some? {
        var k := if key in d.pending then key else Swap(key);
        assert k !in d1.pending;
        assert d.pending[k].suspend ==> d1.keep[|d.keep|] == d.pending[k].linkId;
        assert Covered(d, d1, key);
      }
      CoveredGrows(d, d1, r, key);
    } else {
      DesiredCovered(d1, ws[1..], i - 1);
      assert ws[1..][i - 1] == ws[i];
      var key := ws[i].key;
      if key !in r.create {
        var k :| k in d1.pending && (k == key || k == Swap(key)) && k !in r.pending
                 && (d1.pending[k].suspend ==> d1.pending[k].linkId in r.keep);
        assert k in d.pending && d.pending[k] == d1.pending[k];
      }
    }
  }

  /** Two desired links written in opposite orientations, neither of them
      live, are both created: the create map is keyed on the key as written. */
  lemma ReversedDuplicatesBothCreated(d: Diff, k: LinkKey, i1: LinkInfo, i2: LinkInfo)
    requires k != Swap(k)
    requires k !in d.pending && Swap(k) !in d.pending
    ensures var r := MatchAll(d, [Wanted(k, i1), Wanted(Swap(k), i2)]);
            k in r.create && Swap(k) in r.create
  {
    var ws := [Wanted(k, i1), Wanted(Swap(k), i2)];
    assert Swap(Swap(k)) == k;
    AbsentIsCreated(d, ws, 0);
    AbsentIsCreated(d, ws, 1);
  }

  /** A live link named twice by the desired links is matched once; the
      second mention finds nothing pending and is created anew. */
  lemma RepeatedMatchIsCreated(d: Diff, w: Wanted)
    requires w.key in d.pending
    ensures var r := MatchAll(d, [w, w]);
            && w.key in r.create
            && w.key !in r.pending && Swap(w.key) !in r.pending
  {
    var d1 := MatchOne(d, w);
    assert w.key !in d1.pending && Swap(w.key) !in d1.pending;
    assert [w, w][1..] == [w];
    assert MatchAll(d1, [w]) == MatchOne(d1, w);
  }
}

=== FILE: links.dfy ===
/** pkg/gns3/links.go: link fetch by id, creation, and the mutators that
    fetch first and act on the fetched link id, among them the suspend and
    resume patches. */
module Links {
  import opened Wrappers
  import opened Records
  import opened Remote
  import opened Json
  import Resolve

  /** The body of a resume request: exactly `{"suspend": false}`. */
  const ResumePatch: Object := map[Json.Suspend := Bool(false)]

  /** The body of a suspend request: exactly `{"suspend": true}`. */
  const SuspendPatch: Object := map[Json.Suspend := Bool(true)]

  /** What Links.Get hands back: a link value beside the error, the zero
      link when the fetch failed. */
  datatype Fetched = Fetched(sent: seq<Request>, link: Link, err: Option<Error>)

  /** GET v2/projects/<pid>/links. */
  function List(s: Server, pid: string): (r: Result<seq<Link>, Error>)
    ensures r.Success? <==> Answers(s, Read(LinksOf(pid)))
    ensures r.Success? ==> r.value == LinksIn(s, pid)
  {
    if Answers(s, Read(LinksOf(pid))) then Success(LinksIn(s, pid)) else Failure(Refusal)
  }

  /** Links.Get: GET v2/projects/<pid>/links/<id>, by id only. */
  function Get(s: Server, pid: string, id: string): (f: Fetched)
    ensures f.sent == [Read(LinkAt(pid, id))]
    ensures f.err.None? <==>
              Answers(s, f.sent[0]) && exists i :: 0 <= i < |LinksIn(s, pid)| && LinksIn(s, pid)[i].linkId == id
    ensures f.err.None? ==> f.link in LinksIn(s, pid) && f.link.linkId == id
    ensures f.err.Some? ==> f.link == ZeroLink
  {
    if !Answers(s, Read(LinkAt(pid, id))) then Fetched([Read(LinkAt(pid, id))], ZeroLink, Some(Refusal))
    else match Resolve.First(LinksIn(s, pid), (l: Link) => l.linkId == id)
      case None => Fetched([Read(LinkAt(pid, id))], ZeroLink, Some(Missing))
      case Some(l) => Fetched([Read(LinkAt(pid, id))], l, None)
  }

  /** Links.Create: POST v2/projects/<pid>/links; the server's record, or the error. */
  function Create(s: Server, pid: string, l: Link): (st: Step<Link>)
    ensures st.sent == [Request(POST, LinksOf(pid), LinkBody(l))]
    ensures st.result.Failure? <==> !Answers(s, st.sent[0])
    ensures st.result.Failure? ==> st.srv == s && st.result.error == Refusal
    ensures st.result.Success? ==>
              && st.result.value == l.(linkId := NextId(s), projectId := pid)
              && LinksIn(st.srv, pid) == LinksIn(s, pid) + [st.result.value]
              && forall q :: q != pid ==> LinksIn(st.srv, q) == LinksIn(s, q)
    ensures st.srv.projects == s.projects && st.srv.nodes == s.nodes && st.srv.refused == s.refused
  {
    var req := Request(POST, LinksOf(pid), LinkBody(l));
    if !Answers(s, req) then Step(s, [req], Failure(Refusal))
    else
      var created := l.(linkId := NextId(s), projectId := pid);
      Step(Minted(s).(links := s.links[pid := LinksIn(s, pid) + [created]]), [req], Success(created))
  }

  function Without(ls: seq<Link>, id: string): (r: seq<Link>)
    ensures forall l :: l in r <==> l in ls && l.linkId != id
  {
    if |ls| == 0 then []
    else (if ls[0].linkId == id then [] else [ls[0]]) + Without(ls[1..], id)
  }

  /** Links.Delete: fetch, then DELETE the fetched link id. */
  function Delete(s: Server, pid: string, id: string): (r: Reply)
    ensures Get(s, pid, id).err.Some? ==>
              r.srv == s && r.sent == Get(s, pid, id).sent && r.id == "" && r.err == Get(s, pid, id).err
    ensures Get(s, pid, id).err.None? ==>
              && r.id == Get(s, pid, id).link.linkId == id
              && r.sent == Get(s, pid, id).sent + [Request(DELETE, LinkAt(pid, r.id), NoBody)]
              && (r.err.None? <==> Answers(s, Request(DELETE, LinkAt(pid, r.id), NoBody)))
              && (r.err.None? ==> forall l :: l in LinksIn(r.srv, pid) <==> l in LinksIn(s, pid) && l.linkId != id)
              && (r.err.Some? ==> r.srv == s)
    ensures r.srv.nodes == s.nodes && r.srv.projects == s.projects && r.srv.refused == s.refused
    ensures forall q :: q != pid ==> LinksIn(r.srv, q) == LinksIn(s, q)
  {
    var found := Get(s, pid, id);
    if found.err.Some? then Reply(s, found.sent, "", found.err)
    else
      var req := Request(DELETE, LinkAt(pid, found.link.linkId), NoBody);
      if !Answers(s, req) then Reply(s, found.sent + [req], found.link.linkId, Some(Refusal))
      else Reply(s.(links := s.links[pid := Without(LinksIn(s, pid), found.link.linkId)]),
                 found.sent + [req], found.link.linkId, None)
  }

  /** The links of a project with the link `id` given the suspend flag `b`. */
  function WithSuspend(ls: seq<Link>, id: string, b: bool): (r: seq<Link>)
    ensures |r| == |ls|
    ensures forall i :: 0 <= i < |ls| ==>
              r[i] == if ls[i].linkId == id then ls[i].(suspend := b) else ls[i]
  {
    if |ls| == 0 then []
    else [if ls[0].linkId == id then ls[0].(suspend := b) else ls[0]] + WithSuspend(ls[1..], id, b)
  }

  /** The patch body that sets the suspend flag to `b`. */
  function PatchFor(b: bool): (patch: Object)
    ensures Json.Suspend in patch && patch[Json.Suspend] == Bool(b) && |patch| == 1
  {
    if b then SuspendPatch else ResumePatch
  }

  /** Resume and Suspend: fetch, then PUT the patch to the fetched link id. */
  function SetFlag(s: Server, pid: string, id: string, b: bool): (r: Reply)
    ensures Get(s, pid, id).err.Some? ==>
              r.srv == s && r.sent == Get(s, pid, id).sent && r.id == "" && r.err == Get(s, pid, id).err
    ensures Get(s, pid, id).err.None? ==>
              && r.id == id
              && r.sent == Get(s, pid, id).sent + [Request(PUT, LinkAt(pid, id), Body.Patch(PatchFor(b)))]
              && (r.err.None? <==> Answers(s, Request(PUT, LinkAt(pid, id), Body.Patch(PatchFor(b)))))
              && (r.err.None? ==> r.srv == s.(links := s.links[pid := WithSuspend(LinksIn(s, pid), id, b)]))
              && (r.err.Some? ==> r.srv == s)
  {
    var found := Get(s, pid, id);
    if found.err.Some? then Reply(s, found.sent, "", found.err)
    else
      var lid := found.link.linkId;
      var req := Request(PUT, LinkAt(pid, lid), Body.Patch(PatchFor(b)));
      if !Answers(s, req) then Reply(s, found.sent + [req], lid, Some(Refusal))
      else Reply(s.(links := s.links[pid := WithSuspend(LinksIn(s, pid), lid, b)]), found.sent + [req], lid, None)
  }

  /** Links.Resume: the link is fetched, then sent `{"suspend": false}`;
      on success exactly that link of the project is active. */
  function Resume(s: Server, pid: string, id: string): (r: Reply)
    ensures r.err.None? ==> r.id == id && r.sent == [Read(LinkAt(pid, id)), Request(PUT, LinkAt(pid, id), Body.Patch(ResumePatch))]
    ensures r.err.None? ==> LinksIn(r.srv, pid) == WithSuspend(LinksIn(s, pid), id, false)
    ensures r.err.Some? ==> r.srv == s
    ensures r.srv.nodes == s.nodes && r.srv.projects == s.projects && r.srv.refused == s.refused
  {
    SetFlag(s, pid, id, false)
  }

  /** Links.Suspend: the link is fetched, then sent `{"suspend": true}`;
      on success exactly that link of the project is suspended. */
  function Suspend(s: Server, pid: string, id: string): (r: Reply)
    ensures r.err.None? ==> r.id == id && r.sent == [Read(LinkAt(pid, id)), Request(PUT, LinkAt(pid, id), Body.Patch(SuspendPatch))]
    ensures r.err.None? ==> LinksIn(r.srv, pid) == WithSuspend(LinksIn(s, pid), id, true)
    ensures r.err.Some? ==> r.srv == s
    ensures r.srv.nodes == s.nodes && r.srv.projects == s.projects && r.srv.refused == s.refused
  {
    SetFlag(s, pid, id, true)
  }

  /** Setting the flag is absolute: a second patch with the same value changes nothing. */
  lemma {:induction false} WithSuspendIdempotent(ls: seq<Link>, id: string, b: bool)
    ensures WithSuspend(WithSuspend(ls, id, b), id, b) == WithSuspend(ls, id, b)
  {
    var once := WithSuspend(ls, id, b);
    var twice := WithSuspend(once, id, b);
    forall i | 0 <= i < |ls|
      ensures twice[i] == once[i]
    {
    }
  }

  /** Repeating a resume (or a suspend) leaves the server as the first one left it. */
  lemma SetFlagIdempotent(s: Server, pid: string, id: string, b: bool)
    ensures SetFlag(SetFlag(s, pid, id, b).srv, pid, id, b).srv == SetFlag(s, pid, id, b).srv
  {
    var r1 := SetFlag(s, pid, id, b);
    if r1.err.None? {
      WithSuspendIdempotent(LinksIn(s, pid), id, b);
      AlreadySet(r1.srv, pid, id, b);
    }
  }

  /** Patching a link whose flag already has the value leaves the server as it is. */
  lemma AlreadySet(s: Server, pid: string, id: string, b: bool)
    requires WithSuspend(LinksIn(s, pid), id, b) == LinksIn(s, pid)
    ensures SetFlag(s, pid, id, b).srv == s
  {
    if Get(s, pid, id).err.None? {
      assert pid in s.links;
      assert s.links[pid := LinksIn(s, pid)] == s.links;
    }
  }
}

=== FILE: load.dfy ===
/** The load command (cmd/load.go, doLoad): make the server hold the
    desired network. The run gets or creates the project, imports the
    referenced appliances as templates, creates the missing nodes, deletes
    the live links the network does not name, creates the missing links
    suspended, starts every node and resumes the links that should carry
    traffic. Each phase is a function from the run so far to the run after
    it; Go's map iteration is an arbitrary order chosen by `Load`. */
module Load {
  import opened Wrappers
  import opened Records
  import opened Remote
  import Text
  import opened LinkDiff
  import ImageCache
  import Appliances
  import Projects
  import Nodes
  import Links
  import Templates
  import Paths
  import Resolve

  /** The configuration values the command reads: the default compute and,
      through the image cache environment, the base directory. */
  datatype Config = Config(compute: string, images: ImageCache.Env)

  /** The report lines the command prints. */
  datatype Line =
    | ProjectCreated(name: string, id: string)
    | ProjectExists(name: string, id: string)
    | ApplianceImported(name: string)
    | TemplatePresent(name: string)
    | TemplateCreated(name: string, templateType: string)
    | StartupWritten(path: string)
    | NodeCreated(name: string, id: string)
    | NodeExists(name: string, id: string)
    | LinkExists(id: string, suspended: bool)
    | DeletingStale(id: string)
    | DeleteFailed(id: string)
    | LinkCreated(id: string, aEndName: string, zEndName: string)
    | NodeStarted(name: string)
    | NodeStartFailed(name: string)

  /** A run in progress: the server, the requests sent so far, the lines
      printed so far and the local files. */
  datatype Run = Run(srv: Server, sent: seq<Request>, out: seq<Line>, disk: ImageCache.Disk)

  datatype Outcome<T> = Outcome(run: Run, result: Result<T, Error>)

  /** The run after a client call. */
  function Then<T>(run: Run, st: Step<T>): Run {
    run.(srv := st.srv, sent := run.sent + st.sent)
  }

  /** The trace `s` continues the trace `p`. */
  predicate Extends<T(==)>(s: seq<T>, p: seq<T>) {
    |p| <= |s| && s[..|p|] == p
  }

  lemma ExtendsAppend<T>(s: seq<T>, q: seq<T>)
    ensures Extends(s + q, s)
  {
    assert (s + q)[..|s|] == s;
  }

  lemma ExtendsTrans<T>(s: seq<T>, m: seq<T>, p: seq<T>)
    requires Extends(s, m) && Extends(m, p)
    ensures Extends(s, p)
  {
    assert s[..|p|] == m[..|m|][..|p|];
  }

  /** Every request of the trace `s` from position `n` on only reads. */
  predicate ReadsFrom(s: seq<Request>, n: nat) {
    forall i :: n <= i < |s| ==> s[i].verb == GET
  }

  lemma ReadsAppended(s: seq<Request>, q: seq<Request>)
    requires Reads(q)
    ensures Extends(s + q, s) && ReadsFrom(s + q, |s|)
  {
    assert (s + q)[..|s|] == s;
  }

  lemma ReadsTrans(s: seq<Request>, m: seq<Request>, p: seq<Request>)
    requires Extends(s, m) && Extends(m, p)
    requires ReadsFrom(s, |m|) && ReadsFrom(m, |p|)
    ensures ReadsFrom(s, |p|)
  {
    forall i | |p| <= i < |m|
      ensures s[i].verb == GET
    {
      assert s[i] == s[..|m|][i];
    }
  }

  function Say(run: Run, line: Line): Run {
    run.(out := run.out + [line])
  }

  /** The project the command posts when none exists: only the name is set. */
  function NewProject(name: string): Project {
    Project("", name, "")
  }

  /** Get the project named after the network, or create it. */
  function EnsureProject(run: Run, name: string): (r: Outcome<Project>)
    ensures var g := Projects.Get(run.srv, name);
            g.result.Success? ==>
              r.result == g.result && r.run.srv == run.srv && r.run.sent == run.sent + g.sent
    ensures var g := Projects.Get(run.srv, name);
            var create := Request(POST, ProjectsAll, ProjectBody(NewProject(name)));
            g.result.Failure? ==>
              && r.run.sent == run.sent + g.sent + [create]
              && (r.result.Failure? <==> !Answers(run.srv, create))
              && (r.result.Failure? ==> r.result.error == Wrapped("create", Refusal) && r.run.srv == run.srv)
              && (r.result.Success? ==> r.result.value.name == name && r.run.srv.projects == run.srv.projects + [r.result.value])
    ensures r.run.disk == run.disk
    ensures r.run.srv.nodes == run.srv.nodes && r.run.srv.links == run.srv.links && r.run.srv.refused == run.srv.refused
  {
    var g := Projects.Get(run.srv, name);
    var run1 := Then(run, g);
    match g.result
    case Success(p) => Outcome(Say(run1, ProjectExists(p.name, p.projectId)), Success(p))
    case Failure(_) =>
      var c := Projects.Create(run1.srv, NewProject(name));
      var run2 := Then(run1, c);
      match c.result
      case Failure(e) => Outcome(run2, Failure(Wrapped("create", e)))
      case Success(p) => Outcome(Say(run2, ProjectCreated(p.name, p.projectId)), Success(p))
  }

  /** Import one appliance reference and make sure its template exists.
      `read` stands for opening or fetching the reference and decoding it. */
  function ImportOne(run: Run, env: ImageCache.Env, read: string -> Result<Appliances.Appliance, Error>, ref: string)
    : (r: Outcome<()>)
    ensures read(ref).Failure? ==> r == Outcome(run, Failure(read(ref).error))
    ensures read(ref).Success? ==>
              var imp := Appliances.Import(env, run.disk, read(ref).value, Paths.Dir(ref));
              && r.run.disk == imp.disk
              && (imp.result.Failure? ==>
                    r.run.sent == run.sent && r.result == Failure(Wrapped("ERROR: '" + ref + "'", imp.result.error)))
              && (imp.result.Success? ==>
                    var t := imp.result.value;
                    var g := Templates.Get(run.srv, t.name);
                    var create := Request(POST, TemplatesAll, TemplateBody(t));
                    && (g.result.Success? ==> r.result.Success? && r.run.sent == run.sent + g.sent && r.run.srv == run.srv)
                    && (g.result.Failure? ==>
                          && r.run.sent == run.sent + g.sent + [create]
                          && (r.result.Failure? <==> !Answers(run.srv, create) || !Templates.RecordFits(t))
                          && (!Answers(run.srv, create) ==>
                                r.result.error == Wrapped("ERROR: creating template '" + t.name + "'", Refusal))
                          && (Answers(run.srv, create) && !Templates.RecordFits(t) ==>
                                r.result.error == Wrapped("ERROR: creating template '" + t.name + "'",
                                                          Wrapped("decode", BadJson)))))
    ensures r.run.srv.nodes == run.srv.nodes && r.run.srv.links == run.srv.links
    ensures r.run.srv.projects == run.srv.projects && r.run.srv.refused == run.srv.refused
    ensures r.result.Failure? ==> r.result.error.Wrapped? || read(ref) == Failure(r.result.error)
  {
    match read(ref)
    case Failure(e) => Outcome(run, Failure(e))
    case Success(app) =>
      var imp := Appliances.Import(env, run.disk, app, Paths.Dir(ref));
      var run1 := run.(disk := imp.disk);
      match imp.result
      case Failure(e) => Outcome(run1, Failure(Wrapped("ERROR: '" + ref + "'", e)))
      case Success(t) =>
        var run2 := Say(run1, ApplianceImported(app.name));
        var g := Templates.Get(run2.srv, t.name);
        var run3 := Then(run2, g);
        match g.result
        case Success(existing) => Outcome(Say(run3, TemplatePresent(existing.name)), Success(()))
        case Failure(_) =>
          var c := Templates.Create(run3.srv, t);
          var run4 := Then(run3, c);
          match c.result
          case Failure(e) => Outcome(run4, Failure(Wrapped("ERROR: creating template '" + t.name + "'", e)))
          case Success(created) => Outcome(Say(run4, TemplateCreated(created.name, created.templateType)), Success(()))
  }

  /** An import only ever adds requests to the trace. */
  lemma ImportOneExtends(run: Run, env: ImageCache.Env, read: string -> Result<Appliances.Appliance, Error>, ref: string)
    ensures Extends(ImportOne(run, env, read, ref).run.sent, run.sent)
  {
    var r := ImportOne(run, env, read, ref);
    if read(ref).Success? {
      var imp := Appliances.Import(env, run.disk, read(ref).value, Paths.Dir(ref));
      if imp.result.Success? {
        var g := Templates.Get(run.srv, imp.result.value.name);
        ExtendsAppend(run.sent, g.sent);
        if g.result.Failure? {
          ExtendsAppend(run.sent + g.sent, [Request(POST, TemplatesAll, TemplateBody(imp.result.value))]);
          ExtendsTrans(r.run.sent, run.sent + g.sent, run.sent);
        }
      }
    }
  }

  /** The appliance loop ended with the failure of reference `k`, imported
      on the run `before` that the earlier references had left. */
  ghost predicate ImportFailedAt(run: Run, env: ImageCache.Env, read: string -> Result<Appliances.Appliance, Error>,
                                 refs: seq<string>, k: int, before: Run, r: Outcome<()>) {
    0 <= k < |refs| && r == ImportOne(before, env, read, refs[k]) && Extends(before.sent, run.sent)
  }

  /** The appliance loop: references in order, the first failure ends the run. */
  method ImportAll(run: Run, env: ImageCache.Env, read: string -> Result<Appliances.Appliance, Error>, refs: seq<string>)
    returns (r: Outcome<()>)
    ensures Extends(r.run.sent, run.sent)
    ensures r.run.srv.nodes == run.srv.nodes && r.run.srv.links == run.srv.links
    ensures r.run.srv.projects == run.srv.projects && r.run.srv.refused == run.srv.refused
    ensures r.result.Failure? ==>
              r.result.error.Wrapped? || exists ref :: ref in refs && read(ref) == Failure(r.result.error)
    ensures r.result.Failure? ==> exists k, before :: ImportFailedAt(run, env, read, refs, k, before, r)
  {
    r := Outcome(run, Success(()));
    var k := 0;
    while k < |refs|
      invariant 0 <= k <= |refs| && r.result.Success?
      invariant Extends(r.run.sent, run.sent)
      invariant r.run.srv.nodes == run.srv.nodes && r.run.srv.links == run.srv.links
      invariant r.run.srv.projects == run.srv.projects && r.run.srv.refused == run.srv.refused
    {
      var one := ImportOne(r.run, env, read, refs[k]);
      ImportOneExtends(r.run, env, read, refs[k]);
      ExtendsTrans(one.run.sent, r.run.sent, run.sent);
      if one.result.Failure? {
        assert ImportFailedAt(run, env, read, refs, k, r.run, one);
        return one;
      }
      r, k := one, k + 1;
    }
  }

  /** The symbol of a node created without a template, by its type,
      ignoring case; unknown types get a path built from the type. */
  function SymbolFor(nodeType: string): (r: string)
    ensures Text.HasPrefix(r, ":/symbols/")
    ensures var t := Text.ToLower(nodeType);
            t !in {TypeVpcs, TypeNat, TypeRouter, TypeEthernetSwitch, TypeMultilayerSwitch, TypeFirewall} ==>
              r == ":/symbols/classic/" + t + ".svg"
  {
    var t := Text.ToLower(nodeType);
    if t == TypeVpcs then SymbolVpcs
    else if t == TypeNat then SymbolCloud
    else if t == TypeRouter then SymbolRouter
    else if t == TypeEthernetSwitch then SymbolEthernetSwitch
    else if t == TypeMultilayerSwitch then SymbolMultilayerSwitch
    else if t == TypeFirewall then SymbolFirewall
    else
      assert (":/symbols/classic/" + t + ".svg")[..10] == ":/symbols/";
      ":/symbols/classic/" + t + ".svg"
  }

  /** The table is case-insensitive. */
  lemma SymbolForIgnoresCase(nodeType: string)
    ensures SymbolFor(Text.ToLower(nodeType)) == SymbolFor(nodeType)
  {
    Text.ToLowerIdempotent(nodeType);
  }

  /** The switch type constant is misspelled ("eithernet"), so a node of
      the correctly spelled type, in any case, misses the switch entry and
      reaches the default branch, which happens to build the same symbol
      path. */
  lemma EthernetSwitchTakesDefault(nodeType: string)
    requires Text.ToLower(nodeType) == "ethernet_switch"
    ensures Text.ToLower(nodeType) != TypeEthernetSwitch
    ensures SymbolFor(nodeType) == SymbolEthernetSwitch
  {
    SwitchSymbolIsDefaultShaped();
  }

  /** The startup file of a VPCS node. */
  function StartupPath(base: string, pid: string, nodeId: string): string {
    base + "/projects/" + pid + "/project-files/vpcs/" + nodeId + "/startup.vpc"
  }

  /** The startup file of a VPCS node, as the command's text template
      renders it: a comment line, the PC name, and the address line. */
  function StartupText(c: VpcsConfig): string {
    "# Startup Configuration\nset pcname " + c.name + "\nip " + c.address + " " + c.netmask + " " + c.gateway + "\n"
  }

  /** The node the command creates without a template. */
  function Plain(n: NetworkNode, computeId: string): Node {
    NewNode(n.name, n.nodeType, computeId, SymbolFor(n.nodeType), n.x, n.y, n.z)
  }

  /** The node the command hands to CreateUsingTemplate. */
  function FromTemplate(n: NetworkNode, computeId: string): Node {
    NewNode(n.name, n.nodeType, computeId, "", n.x, n.y, n.z)
  }

  /** The compute a node goes to: its own, else the configured default. */
  function ComputeOf(cfg: Config, n: NetworkNode): (c: string)
    ensures n.computeId != "" ==> c == n.computeId
    ensures n.computeId == "" ==> c == cfg.compute
  {
    if n.computeId == "" then cfg.compute else n.computeId
  }

  /** Create a node from the template it names or from its type. */
  function CreateNode(run: Run, cfg: Config, pid: string, n: NetworkNode): (r: Outcome<Node>)
    ensures n.template == "" ==>
              var c := Nodes.Create(run.srv, pid, Plain(n, ComputeOf(cfg, n)));
              r.run == Then(run, c) && (c.result.Failure? ==> r.result == Failure(Wrapped("node create", Refusal)))
              && (c.result.Success? ==> r.result == c.result)
    ensures n.template != "" ==>
              var t := Templates.Get(run.srv, n.template);
              && (t.result.Failure? ==> r == Outcome(Then(run, t), Failure(Wrapped("unknown template", t.result.error))))
              && (t.result.Success? ==>
                    var c := Nodes.CreateUsingTemplate(run.srv, pid, FromTemplate(n, ComputeOf(cfg, n)), t.result.value);
                    && r.run.sent == run.sent + t.sent + c.sent
                    && (c.result.Failure? ==> r.result == Failure(Wrapped("node create", Refusal)))
                    && (c.result.Success? ==> r.result == c.result))
    ensures r.run.disk == run.disk && r.run.out == run.out
    ensures r.result.Failure? ==> r.run.srv == run.srv
    ensures r.result.Success? ==>
              NodesIn(r.run.srv, pid) == NodesIn(run.srv, pid) + [r.result.value]
              && r.result.value.name == n.name && r.result.value.computeId == ComputeOf(cfg, n)
              && r.result.value.x == n.x && r.result.value.y == n.y && r.result.value.z == n.z
    ensures r.run.srv.links == run.srv.links && r.run.srv.projects == run.srv.projects
    ensures r.run.srv.refused == run.srv.refused
  {
    if n.template != "" then
      var t := Templates.Get(run.srv, n.template);
      var run1 := Then(run, t);
      match t.result
      case Failure(e) => Outcome(run1, Failure(Wrapped("unknown template", e)))
      case Success(tmpl) =>
        var c := Nodes.CreateUsingTemplate(run1.srv, pid, FromTemplate(n, ComputeOf(cfg, n)), tmpl);
        var run2 := Then(run1, c);
        match c.result
        case Failure(e) => Outcome(run2, Failure(Wrapped("node create", e)))
        case Success(node) => Outcome(run2, Success(node))
    else
      var c := Nodes.Create(run.srv, pid, Plain(n, ComputeOf(cfg, n)));
      var run1 := Then(run, c);
      match c.result
      case Failure(e) => Outcome(run1, Failure(Wrapped("node create", e)))
      case Success(node) => Outcome(run1, Success(node))
  }

  /** A freshly created VPCS node with a configuration gets a startup file. */
  function WithStartup(run: Run, cfg: Config, pid: string, n: NetworkNode, node: Node): (r: Run)
    ensures Text.ToLower(n.nodeType) == TypeVpcs && n.config.Some? ==>
              var path := StartupPath(cfg.images.baseDirectory, pid, node.nodeId);
              r.disk == run.disk[path := StartupText(n.config.value)]
    ensures !(Text.ToLower(n.nodeType) == TypeVpcs && n.config.Some?) ==> r == run
    ensures r.srv == run.srv && r.sent == run.sent
  {
    if Text.ToLower(n.nodeType) == TypeVpcs && n.config.Some? then
      var path := StartupPath(cfg.images.baseDirectory, pid, node.nodeId);
      Say(run.(disk := run.disk[path := StartupText(n.config.value)]), StartupWritten(path))
    else run
  }

  /** One desired node: kept when it resolves, else created (fatally on
      failure), with its startup file when it is a configured VPCS node. */
  function EnsureNode(run: Run, cfg: Config, pid: string, n: NetworkNode): (r: Outcome<()>)
    ensures var g := Nodes.Get(run.srv, pid, n.name);
            g.result.Success? ==>
              r.result.Success? && r.run.srv == run.srv && r.run.sent == run.sent + g.sent && r.run.disk == run.disk
    ensures var g := Nodes.Get(run.srv, pid, n.name);
            g.result.Failure? ==>
              var c := CreateNode(Then(run, g), cfg, pid, n);
              && r.run.srv == c.run.srv && r.run.sent == c.run.sent
              && (c.result.Failure? ==> r.result == Failure(c.result.error) && r.run.disk == run.disk)
              && (c.result.Success? ==> r.result.Success? && r.run.disk == WithStartup(c.run, cfg, pid, n, c.result.value).disk)
    ensures r.run.srv.links == run.srv.links && r.run.srv.projects == run.srv.projects
    ensures r.run.srv.refused == run.srv.refused
    ensures r.result.Failure? ==> r.result.error.Wrapped?
    ensures NodesGrow(run.srv, r.run.srv, pid)
    ensures r.result.Success? ==> Placed(r.run.srv, pid, n.name)
  {
    var g := Nodes.Get(run.srv, pid, n.name);
    GetFinds(run.srv, pid, n.name);
    var run1 := Then(run, g);
    match g.result
    case Success(node) => Outcome(Say(run1, NodeExists(node.name, node.nodeId)), Success(()))
    case Failure(_) =>
      var c := CreateNode(run1, cfg, pid, n);
      match c.result
      case Failure(e) => Outcome(c.run, Failure(e))
      case Success(node) =>
        Outcome(Say(WithStartup(c.run, cfg, pid, n, node), NodeCreated(node.name, node.nodeId)), Success(()))
  }

  /** The node a lookup finds has the name or the id it was looked up by. */
  lemma GetFinds(srv: Server, pid: string, name: string)
    ensures var g := Nodes.Get(srv, pid, name);
            g.result.Success? ==> g.result.value in NodesIn(srv, pid) && (g.result.value.name == name || g.result.value.nodeId == name)
  {
    var g := Nodes.Get(srv, pid, name);
    if g.result.Success? && !(Text.IsUuid(name) && Nodes.Fetch(srv, pid, name).Success?) && Answers(srv, Read(NodesOf(pid))) {
      var x := g.result.value;
      assert Resolve.IsFirstNamed(NodesIn(srv, pid), Nodes.NodeName, name, x);
      var i :| 0 <= i < |NodesIn(srv, pid)| && NodesIn(srv, pid)[i] == x && Nodes.NodeName(NodesIn(srv, pid)[i]) == name;
    }
  }

  /** Node `name` is in project `pid`: a node has that name or that id. */
  ghost predicate Placed(srv: Server, pid: string, name: string) {
    exists x :: x in NodesIn(srv, pid) && (x.name == name || x.nodeId == name)
  }

  /** Every node of project `pid` on `s1` is still there on `s2`. */
  ghost predicate NodesGrow(s1: Server, s2: Server, pid: string) {
    forall x :: x in NodesIn(s1, pid) ==> x in NodesIn(s2, pid)
  }

  lemma PlacedGrows(s1: Server, s2: Server, pid: string, name: string)
    requires NodesGrow(s1, s2, pid) && Placed(s1, pid, name)
    ensures Placed(s2, pid, name)
  {
    var x :| x in NodesIn(s1, pid) && (x.name == name || x.nodeId == name);
    assert x in NodesIn(s2, pid);
  }

  /** Ensuring a node only ever adds requests to the trace. */
  lemma EnsureNodeExtends(run: Run, cfg: Config, pid: string, n: NetworkNode)
    ensures Extends(EnsureNode(run, cfg, pid, n).run.sent, run.sent)
  {
    var g := Nodes.Get(run.srv, pid, n.name);
    ExtendsAppend(run.sent, g.sent);
    if g.result.Failure? {
      var run1 := Then(run, g);
      CreateNodeExtends(run1, cfg, pid, n);
      ExtendsTrans(CreateNode(run1, cfg, pid, n).run.sent, run1.sent, run.sent);
    }
  }

  lemma CreateNodeExtends(run: Run, cfg: Config, pid: string, n: NetworkNode)
    ensures Extends(CreateNode(run, cfg, pid, n).run.sent, run.sent)
  {
    if n.template == "" {
      ExtendsAppend(run.sent, Nodes.Create(run.srv, pid, Plain(n, ComputeOf(cfg, n))).sent);
    } else {
      var t := Templates.Get(run.srv, n.template);
      ExtendsAppend(run.sent, t.sent);
      if t.result.Success? {
        var c := Nodes.CreateUsingTemplate(run.srv, pid, FromTemplate(n, ComputeOf(cfg, n)), t.result.value);
        ExtendsAppend(run.sent + t.sent, c.sent);
        ExtendsTrans(run.sent + t.sent + c.sent, run.sent + t.sent, run.sent);
      }
    }
  }

  /** The node loop has kept every node it found and placed the first `k`
      desired nodes. */
  ghost predicate NodesSoFar(s0: Server, s: Server, pid: string, nodes: seq<NetworkNode>, k: int) {
    NodesGrow(s0, s, pid) && forall j :: 0 <= j < k && j < |nodes| ==> Placed(s, pid, nodes[j].name)
  }

  lemma NodesSoFarStep(s0: Server, s: Server, s1: Server, pid: string, nodes: seq<NetworkNode>, k: int)
    requires 0 <= k < |nodes| && NodesSoFar(s0, s, pid, nodes, k)
    requires NodesGrow(s, s1, pid) && Placed(s1, pid, nodes[k].name)
    ensures NodesSoFar(s0, s1, pid, nodes, k + 1)
  {
    forall j | 0 <= j < k
      ensures Placed(s1, pid, nodes[j].name)
    {
      PlacedGrows(s, s1, pid, nodes[j].name);
    }
  }

  /** The node loop ended with the failure of node `k`, ensured on the run
      `before` that it had reached with every earlier node in place. */
  ghost predicate NodeFailedAt(run: Run, cfg: Config, pid: string, nodes: seq<NetworkNode>, k: int, before: Run, r: Outcome<()>) {
    && 0 <= k < |nodes| && r == EnsureNode(before, cfg, pid, nodes[k])
    && Extends(before.sent, run.sent)
    && forall j :: 0 <= j < k ==> Placed(before.srv, pid, nodes[j].name)
  }

  /** The node loop: nodes in order, the first failure ends the run. */
  method EnsureNodes(run: Run, cfg: Config, pid: string, nodes: seq<NetworkNode>) returns (r: Outcome<()>)
    ensures Extends(r.run.sent, run.sent)
    ensures r.run.srv.links == run.srv.links && r.run.srv.projects == run.srv.projects
    ensures r.run.srv.refused == run.srv.refused
    ensures r.result.Failure? ==> r.result.error.Wrapped?
    ensures NodesGrow(run.srv, r.run.srv, pid)
    ensures r.result.Success? ==> forall i :: 0 <= i < |nodes| ==> Placed(r.run.srv, pid, nodes[i].name)
    ensures r.result.Failure? ==> exists k, before :: NodeFailedAt(run, cfg, pid, nodes, k, before, r)
  {
    r := Outcome(run, Success(()));
    var k := 0;
    while k < |nodes|
      invariant 0 <= k <= |nodes| && r.result.Success?
      invariant Extends(r.run.sent, run.sent)
      invariant r.run.srv.links == run.srv.links && r.run.srv.projects == run.srv.projects
      invariant r.run.srv.refused == run.srv.refused
      invariant NodesSoFar(run.srv, r.run.srv, pid, nodes, k)
    {
      var one := EnsureNode(r.run, cfg, pid, nodes[k]);
      EnsureNodeExtends(r.run, cfg, pid, nodes[k]);
      ExtendsTrans(one.run.sent, r.run.sent, run.sent);
      if one.result.Failure? {
        assert NodeFailedAt(run, cfg, pid, nodes, k, r.run, one);
        return one;
      }
      NodesSoFarStep(run.srv, r.run.srv, one.run.srv, pid, nodes, k);
      r, k := one, k + 1;
    }
  }

  /** List the project's links and index them. */
  function IndexLinks(run: Run, pid: string): (r: Outcome<map<LinkKey, LinkState>>)
    ensures r.run.srv == run.srv && r.run.out == run.out && r.run.disk == run.disk
    ensures r.run.sent == run.sent + [Read(LinksOf(pid))]
    ensures Answers(run.srv, Read(LinksOf(pid))) ==> r.result == Success(Index(LinksIn(run.srv, pid)))
    ensures !Answers(run.srv, Read(LinksOf(pid))) ==> r.result == Failure(Annotated(Refusal, "error listing links"))
  {
    var run1 := run.(sent := run.sent + [Read(LinksOf(pid))]);
    match Links.List(run.srv, pid)
    case Failure(e) => Outcome(run1, Failure(Annotated(e, "error listing links")))
    case Success(ls) => Outcome(run1, Success(Index(ls)))
  }

  /** Node names resolved on the server as Nodes.Get resolves them. */
  function Lookup(srv: Server, pid: string): string -> Result<Node, Error> {
    name => Nodes.Get(srv, pid, name).result
  }

  /** Where the desired link `l` attaches: the key built from its two ends
      resolved by name, or the error of the first end that does not
      resolve. */
  function WantOf(lookup: string -> Result<Node, Error>, l: NetworkLink): (r: Result<Wanted, Error>)
    ensures r.Success? <==> lookup(l.aEnd.name).Success? && lookup(l.zEnd.name).Success?
    ensures r.Success? ==>
              && r.value.info == LinkInfo(l.aEnd.name, l.zEnd.name)
              && r.value.key.aEnd == LinkRef(lookup(l.aEnd.name).value.nodeId, l.aEnd.port, l.aEnd.adapter)
              && r.value.key.zEnd == LinkRef(lookup(l.zEnd.name).value.nodeId, l.zEnd.port, l.zEnd.adapter)
    ensures r.Failure? ==>
              r.error.Wrapped? && r.error.context in {"unable to find a-end", "unable to find z-end"}
  {
    match lookup(l.aEnd.name)
    case Failure(e) => Failure(Wrapped("unable to find a-end", e))
    case Success(a) =>
      match lookup(l.zEnd.name)
      case Failure(e) => Failure(Wrapped("unable to find z-end", e))
      case Success(z) =>
        Success(Wanted(LinkKey(LinkRef(a.nodeId, l.aEnd.port, l.aEnd.adapter), LinkRef(z.nodeId, l.zEnd.port, l.zEnd.adapter)),
                       LinkInfo(l.aEnd.name, l.zEnd.name)))
  }

  /** The desired links resolved in order, or the error of the first one
      that does not resolve. */
  function Wants(lookup: string -> Result<Node, Error>, links: seq<NetworkLink>): (r: Result<seq<Wanted>, Error>)
    ensures r.Success? ==> |r.value| == |links| && forall i :: 0 <= i < |links| ==> WantOf(lookup, links[i]) == Success(r.value[i])
    ensures r.Failure? ==> r.error.Wrapped? && r.error.context in {"unable to find a-end", "unable to find z-end"}
    decreases |links|
  {
    if |links| == 0 then Success([])
    else
      match WantOf(lookup, links[0])
      case Failure(e) => Failure(e)
      case Success(w) =>
        match Wants(lookup, links[1..])
        case Failure(e) => Failure(e)
        case Success(ws) =>
          assert forall i :: 0 < i < |links| ==> links[i] == links[1..][i - 1];
          Success([w] + ws)
  }

  /** The error is the one of the first desired link that does not resolve. */
  lemma {:induction false} WantsFailsAtFirst(lookup: string -> Result<Node, Error>, links: seq<NetworkLink>, i: int)
    requires 0 <= i < |links| && WantOf(lookup, links[i]).Failure?
    requires forall j :: 0 <= j < i ==> WantOf(lookup, links[j]).Success?
    ensures Wants(lookup, links) == Failure(WantOf(lookup, links[i]).error)
    decreases |links|
  {
    if i > 0 {
      assert forall j :: 0 <= j < i - 1 ==> links[1..][j] == links[j + 1];
      WantsFailsAtFirst(lookup, links[1..], i - 1);
      assert links[1..][i - 1] == links[i];
    }
  }

  /** Both ends of every desired link name nodes of the project. */
  lemma MatchedEndsResolve(srv: Server, pid: string, links: seq<NetworkLink>, i: int)
    requires Wants(Lookup(srv, pid), links).Success? && 0 <= i < |links|
    ensures exists n :: n in NodesIn(srv, pid) && n.nodeId == Wants(Lookup(srv, pid), links).value[i].key.aEnd.nodeId
    ensures exists n :: n in NodesIn(srv, pid) && n.nodeId == Wants(Lookup(srv, pid), links).value[i].key.zEnd.nodeId
  {
    assert WantOf(Lookup(srv, pid), links[i]).Success?;
    var a := Nodes.Get(srv, pid, links[i].aEnd.name).result.value;
    var z := Nodes.Get(srv, pid, links[i].zEnd.name).result.value;
    assert a in NodesIn(srv, pid) && z in NodesIn(srv, pid);
  }

  /** The requests of resolving one desired link: the a-end lookup, then
      the z-end lookup when the a-end resolved. */
  function ResolveEnds(run: Run, pid: string, l: NetworkLink): (r: Outcome<Wanted>)
    ensures r.result == WantOf(Lookup(run.srv, pid), l)
    ensures r.run.srv == run.srv && r.run.out == run.out && r.run.disk == run.disk
    ensures Extends(r.run.sent, run.sent)
    ensures ReadsFrom(r.run.sent, |run.sent|)
  {
    var a := Nodes.Get(run.srv, pid, l.aEnd.name);
    var run1 := Then(run, a);
    ReadsAppended(run.sent, a.sent);
    if a.result.Failure? then Outcome(run1, WantOf(Lookup(run.srv, pid), l))
    else
      var z := Nodes.Get(run.srv, pid, l.zEnd.name);
      var run2 := Then(run1, z);
      ReadsAppended(run1.sent, z.sent);
      ReadsTrans(run2.sent, run1.sent, run.sent);
      ExtendsTrans(run2.sent, run1.sent, run.sent);
      Outcome(run2, WantOf(Lookup(run.srv, pid), l))
  }

  /** The report of a desired link found in the index. */
  function Noted(run: Run, pending: map<LinkKey, LinkState>, key: LinkKey): (r: Run)
    ensures r.srv == run.srv && r.sent == run.sent && r.disk == run.disk
  {
    match Matched(pending, key)
    case Some(state) => Say(run, LinkExists(state.linkId, state.suspend))
    case None => run
  }

  /** The matching loop of the command: resolve both ends of each desired
      link (fatally), then match it against the pending index. It reads
      from the server and changes nothing there. */
  function MatchLinks(run: Run, pid: string, links: seq<NetworkLink>, d: Diff): (r: Outcome<Diff>)
    ensures r.run.srv == run.srv && r.run.disk == run.disk
    ensures Extends(r.run.sent, run.sent)
    ensures ReadsFrom(r.run.sent, |run.sent|)
    decreases |links|
  {
    if |links| == 0 then Outcome(run, Success(d))
    else
      var e := ResolveEnds(run, pid, links[0]);
      match e.result
      case Failure(err) => Outcome(e.run, Failure(err))
      case Success(w) =>
        var run1 := Noted(e.run, d.pending, w.key);
        var rest := MatchLinks(run1, pid, links[1..], MatchOne(d, w));
        ExtendsTrans(rest.run.sent, run1.sent, run.sent);
        ReadsTrans(rest.run.sent, run1.sent, run.sent);
        rest
  }

  /** The matching loop computes the diff of the desired links, resolved
      on the server, against the index, or fails on the first desired link
      whose ends do not resolve. */
  lemma {:induction false} MatchLinksFollowsWants(run: Run, pid: string, links: seq<NetworkLink>, d: Diff)
    ensures Wants(Lookup(run.srv, pid), links).Failure? ==>
              MatchLinks(run, pid, links, d).result == Failure(Wants(Lookup(run.srv, pid), links).error)
    ensures Wants(Lookup(run.srv, pid), links).Success? ==>
              MatchLinks(run, pid, links, d).result == Success(MatchAll(d, Wants(Lookup(run.srv, pid), links).value))
    decreases |links|
  {
    if |links| > 0 {
      var e := ResolveEnds(run, pid, links[0]);
      if e.result.Success? {
        var w := e.result.value;
        var run1 := Noted(e.run, d.pending, w.key);
        MatchLinksFollowsWants(run1, pid, links[1..], MatchOne(d, w));
        if Wants(Lookup(run.srv, pid), links).Success? {
          var ws := Wants(Lookup(run.srv, pid), links[1..]).value;
          assert Wants(Lookup(run.srv, pid), links).value == [w] + ws;
          assert ([w] + ws)[1..] == ws;
        }
      }
    }
  }

  /** The request that deletes link `id` of project `pid`. */
  function DeleteOf(pid: string, id: string): Request {
    Request(DELETE, LinkAt(pid, id), NoBody)
  }

  /** From position `n` on, every DELETE of the trace deletes a link of
      project `pid` whose id is in `ids`. */
  predicate DeletesOnly(s: seq<Request>, n: nat, pid: string, ids: set<string>) {
    forall i :: n <= i < |s| && s[i].verb == DELETE ==>
      s[i].path.LinkAt? && s[i].path.pid == pid && s[i].path.id in ids
  }

  /** From position `n` on, the trace holds no DELETE. */
  predicate NoDeletesFrom(s: seq<Request>, n: nat) {
    forall i :: n <= i < |s| ==> s[i].verb != DELETE
  }

  /** Request `q` was sent at position `n` or later. */
  ghost predicate SentSince(s: seq<Request>, n: nat, q: Request) {
    exists i :: n <= i < |s| && s[i] == q
  }

  lemma DeletesOnlyTrans(s: seq<Request>, m: seq<Request>, p: seq<Request>, pid: string, ids: set<string>)
    requires Extends(s, m) && Extends(m, p)
    requires DeletesOnly(s, |m|, pid, ids) && DeletesOnly(m, |p|, pid, ids)
    ensures DeletesOnly(s, |p|, pid, ids)
  {
    forall i | |p| <= i < |m|
      ensures s[i] == m[i]
    {
      assert s[i] == s[..|m|][i];
    }
  }

  lemma NoDeletesTrans(s: seq<Request>, m: seq<Request>, p: seq<Request>)
    requires Extends(s, m) && Extends(m, p)
    requires NoDeletesFrom(s, |m|) && NoDeletesFrom(m, |p|)
    ensures NoDeletesFrom(s, |p|)
  {
    forall i | |p| <= i < |m|
      ensures s[i] == m[i]
    {
      assert s[i] == s[..|m|][i];
    }
  }

  lemma SentSinceKept(s: seq<Request>, m: seq<Request>, n: nat, q: Request)
    requires Extends(s, m) && SentSince(m, n, q)
    ensures SentSince(s, n, q)
  {
    var i :| n <= i < |m| && m[i] == q;
    assert s[i] == s[..|m|][i];
  }

  /** The ids a list holds. */
  function Listed(ids: seq<string>): set<string> {
    set id | id in ids
  }

  /** The ids of the links a diff leaves pending: the stale links. */
  function StaleSet(pending: map<LinkKey, LinkState>): set<string> {
    set k | k in pending :: pending[k].linkId
  }

  /** The ids of the stale links, in deletion order. */
  function StaleIds(pending: map<LinkKey, LinkState>, order: seq<LinkKey>): (ids: seq<string>)
    requires forall i :: 0 <= i < |order| ==> order[i] in pending
    ensures |ids| == |order| && forall i :: 0 <= i < |order| ==> ids[i] == pending[order[i]].linkId
  {
    seq(|order|, i requires 0 <= i < |order| => pending[order[i]].linkId)
  }

  /** The server answers both the fetch and the delete of link `id`. */
  predicate DeleteAnswered(s: Server, pid: string, id: string) {
    Answers(s, Read(LinkAt(pid, id))) && Answers(s, Request(DELETE, LinkAt(pid, id), NoBody))
  }

  /** Delete one stale link and report it, and report a failed delete. */
  function DeleteOne(run: Run, pid: string, id: string): (r: Run)
    ensures r.disk == run.disk && Extends(r.sent, run.sent)
    ensures r.srv.nodes == run.srv.nodes && r.srv.projects == run.srv.projects && r.srv.refused == run.srv.refused
    ensures forall q :: q != pid ==> LinksIn(r.srv, q) == LinksIn(run.srv, q)
    ensures forall l :: l in LinksIn(r.srv, pid) ==> l in LinksIn(run.srv, pid)
    ensures forall l :: l in LinksIn(run.srv, pid) && l.linkId != id ==> l in LinksIn(r.srv, pid)
    ensures DeleteAnswered(run.srv, pid, id) ==> forall l :: l in LinksIn(r.srv, pid) ==> l.linkId != id
    ensures DeletesOnly(r.sent, |run.sent|, pid, {id})
    ensures Answers(run.srv, Read(LinkAt(pid, id))) && (exists l :: l in LinksIn(run.srv, pid) && l.linkId == id) ==>
              SentSince(r.sent, |run.sent|, DeleteOf(pid, id))
  {
    var del := Links.Delete(run.srv, pid, id);
    var run1 := Say(run, DeletingStale(id)).(srv := del.srv, sent := run.sent + del.sent);
    ExtendsAppend(run.sent, del.sent);
    assert Links.Get(run.srv, pid, id).err.None? ==> run1.sent[|run.sent| + 1] == DeleteOf(pid, id);
    if del.err.Some? then Say(run1, DeleteFailed(id)) else run1
  }

  /** The stale-link loop over the ids in deletion order: every stale link
      is reported and deleted; a failed delete is reported and the loop
      goes on. */
  function DeleteStale(run: Run, pid: string, ids: seq<string>): (r: Run)
    ensures r.disk == run.disk && Extends(r.sent, run.sent)
    ensures r.srv.nodes == run.srv.nodes && r.srv.projects == run.srv.projects && r.srv.refused == run.srv.refused
    ensures forall q :: q != pid ==> LinksIn(r.srv, q) == LinksIn(run.srv, q)
    ensures DeletesOnly(r.sent, |run.sent|, pid, Listed(ids))
    decreases |ids|
  {
    if |ids| == 0 then run
    else
      var run1 := DeleteOne(run, pid, ids[0]);
      var rest := DeleteStale(run1, pid, ids[1..]);
      ExtendsTrans(rest.sent, run1.sent, run.sent);
      DeletesOnlyTrans(rest.sent, run1.sent, run.sent, pid, Listed(ids));
      rest
  }

  /** Deleting stale links removes only links with stale ids: a link
      survives when its id is not stale, and nothing is added. */
  lemma {:induction false} DeleteStaleEffect(run: Run, pid: string, ids: seq<string>)
    ensures var after := LinksIn(DeleteStale(run, pid, ids).srv, pid);
            && (forall l :: l in after ==> l in LinksIn(run.srv, pid))
            && (forall l :: l in LinksIn(run.srv, pid) && l.linkId !in ids ==> l in after)
    decreases |ids|
  {
    if |ids| > 0 {
      var run1 := DeleteOne(run, pid, ids[0]);
      DeleteStaleEffect(run1, pid, ids[1..]);
      assert forall l :: l in LinksIn(run.srv, pid) && l.linkId !in ids ==> l.linkId !in ids[1..] && l.linkId != ids[0];
    }
  }

  /** A stale link whose fetch and delete the server answers is deleted,
      and the loop never brings it back. */
  lemma {:induction false} AnsweredStaleIsDeleted(run: Run, pid: string, ids: seq<string>, i: int)
    requires 0 <= i < |ids| && DeleteAnswered(run.srv, pid, ids[i])
    ensures forall l :: l in LinksIn(DeleteStale(run, pid, ids).srv, pid) ==> l.linkId != ids[i]
    decreases |ids|
  {
    var run1 := DeleteOne(run, pid, ids[0]);
    if i == 0 {
      DeleteStaleEffect(run1, pid, ids[1..]);
    } else {
      assert ids[1..][i - 1] == ids[i];
      AnsweredStaleIsDeleted(run1, pid, ids[1..], i - 1);
    }
  }

  /** Every stale id whose link exists and whose fetch the server answers
      gets its DELETE, whatever the earlier deletes did. */
  lemma {:induction false} StaleDeleteSent(run: Run, pid: string, ids: seq<string>, i: int)
    requires 0 <= i < |ids| && Answers(run.srv, Read(LinkAt(pid, ids[i])))
    requires exists l :: l in LinksIn(run.srv, pid) && l.linkId == ids[i]
    ensures SentSince(DeleteStale(run, pid, ids).sent, |run.sent|, DeleteOf(pid, ids[i]))
    decreases |ids|
  {
    var run1 := DeleteOne(run, pid, ids[0]);
    var rest := DeleteStale(run1, pid, ids[1..]);
    if ids[0] == ids[i] {
      SentSinceKept(rest.sent, run1.sent, |run.sent|, DeleteOf(pid, ids[i]));
    } else {
      var l :| l in LinksIn(run.srv, pid) && l.linkId == ids[i];
      assert l in LinksIn(run1.srv, pid);
      assert ids[1..][i - 1] == ids[i];
      StaleDeleteSent(run1, pid, ids[1..], i - 1);
      var j :| |run1.sent| <= j < |rest.sent| && rest.sent[j] == DeleteOf(pid, ids[i]);
    }
  }

  /** The link the command posts for an index key: type ethernet,
      suspended, in the project. */
  function NewLink(pid: string, k: LinkKey): (l: Link)
    ensures TwoEnded(l) && KeyOf(l) == k
    ensures l.linkType == "ethernet" && l.suspend && l.projectId == pid
  {
    Link("", "ethernet",
         [NodeRef(k.aEnd.nodeId, k.aEnd.adapter, k.aEnd.port), NodeRef(k.zEnd.nodeId, k.zEnd.adapter, k.zEnd.port)],
         pid, true)
  }

  /** The request that creates the link of an index key. */
  function PostLink(pid: string, k: LinkKey): Request {
    Request(POST, LinksOf(pid), LinkBody(NewLink(pid, k)))
  }

  /** Create the link of one key and report it; a failure is wrapped. */
  function CreateOne(run: Run, pid: string, k: LinkKey, info: LinkInfo): (r: Outcome<Link>)
    ensures r.run.disk == run.disk && r.run.sent == run.sent + [PostLink(pid, k)]
    ensures r.run.srv.nodes == run.srv.nodes && r.run.srv.projects == run.srv.projects && r.run.srv.refused == run.srv.refused
    ensures r.result.Failure? <==> !Answers(run.srv, PostLink(pid, k))
    ensures r.result.Failure? ==> r.result.error == Wrapped("link create", Refusal)
    ensures r.result.Success? ==>
              && LinksIn(r.run.srv, pid) == LinksIn(run.srv, pid) + [r.result.value]
              && r.result.value.suspend && TwoEnded(r.result.value) && KeyOf(r.result.value) == k
  {
    var c := Links.Create(run.srv, pid, NewLink(pid, k));
    var run1 := Then(run, c);
    match c.result
    case Failure(e) => Outcome(run1, Failure(Wrapped("link create", e)))
    case Success(l) => Outcome(Say(run1, LinkCreated(l.linkId, info.aEndName, info.zEndName)), Success(l))
  }

  /** Some link of the project with this id is suspended. */
  ghost predicate SuspendedIn(srv: Server, pid: string, id: string) {
    exists l :: l in LinksIn(srv, pid) && l.linkId == id && l.suspend
  }

  lemma SuspendedKept(s1: Server, s2: Server, pid: string, id: string)
    requires forall l :: l in LinksIn(s1, pid) ==> l in LinksIn(s2, pid)
    requires SuspendedIn(s1, pid, id)
    ensures SuspendedIn(s2, pid, id)
  {
    var l :| l in LinksIn(s1, pid) && l.linkId == id && l.suspend;
    assert l in LinksIn(s2, pid);
  }

  /** Some two-ended link of `links` has this id and this key. */
  ghost predicate LinkedAs(links: seq<Link>, id: string, key: LinkKey) {
    exists l :: l in links && l.linkId == id && TwoEnded(l) && KeyOf(l) == key
  }

  /** The first `k` keys to create have links in `links`, with the ids
      listed after the first `n` of `ids`. */
  ghost predicate LinkedSoFar(links: seq<Link>, ids: seq<string>, n: nat, todo: seq<(LinkKey, LinkInfo)>, k: nat) {
    && k <= |todo| && |ids| == n + k
    && forall j :: 0 <= j < k ==> LinkedAs(links, ids[n + j], todo[j].0)
  }

  lemma LinkedSoFarStep(links: seq<Link>, l: Link, ids: seq<string>, n: nat, todo: seq<(LinkKey, LinkInfo)>, k: nat)
    requires LinkedSoFar(links, ids, n, todo, k) && k < |todo|
    requires TwoEnded(l) && KeyOf(l) == todo[k].0
    ensures LinkedSoFar(links + [l], ids + [l.linkId], n, todo, k + 1)
  {
    var ids' := ids + [l.linkId];
    forall j | 0 <= j < k + 1
      ensures LinkedAs(links + [l], ids'[n + j], todo[j].0)
    {
      if j < k {
        assert ids'[n + j] == ids[n + j];
        assert LinkedAs(links, ids[n + j], todo[j].0);
        var m :| m in links && m.linkId == ids[n + j] && TwoEnded(m) && KeyOf(m) == todo[j].0;
        assert m in links + [l];
      } else {
        assert ids'[n + j] == l.linkId;
        assert l in links + [l];
      }
    }
  }

  /** The link-creation loop over the keys to create, each with its
      endpoint names, in the order the map iteration produced: the k-th
      request posts the suspended ethernet link of the k-th key, each
      created link's id joins the resume list, no earlier link is lost,
      and the first failure ends the run. */
  method CreateLinks(run: Run, pid: string, todo: seq<(LinkKey, LinkInfo)>, keep: seq<string>)
    returns (r: Outcome<seq<string>>)
    ensures r.run.disk == run.disk
    ensures r.run.srv.nodes == run.srv.nodes && r.run.srv.projects == run.srv.projects && r.run.srv.refused == run.srv.refused
    ensures Extends(r.run.sent, run.sent) && |r.run.sent| <= |run.sent| + |todo|
    ensures forall j :: |run.sent| <= j < |r.run.sent| ==> r.run.sent[j] == PostLink(pid, todo[j - |run.sent|].0)
    ensures forall l :: l in LinksIn(run.srv, pid) ==> l in LinksIn(r.run.srv, pid)
    ensures r.result.Failure? ==> r.result.error == Wrapped("link create", Refusal)
    ensures r.result.Success? ==> |r.run.sent| == |run.sent| + |todo|
    ensures r.result.Success? ==> |r.result.value| == |keep| + |todo| && Extends(r.result.value, keep)
    ensures r.result.Success? ==> forall j :: |keep| <= j < |r.result.value| ==> SuspendedIn(r.run.srv, pid, r.result.value[j])
    ensures r.result.Success? ==> LinkedSoFar(LinksIn(r.run.srv, pid), r.result.value, |keep|, todo, |todo|)
    ensures NoDeletesFrom(r.run.sent, |run.sent|)
  {
    var cur := run;
    var ids := keep;
    var k := 0;
    while k < |todo|
      invariant 0 <= k <= |todo|
      invariant CreatedSoFar(run, cur, pid, todo, keep, ids, k)
    {
      var one := CreateOne(cur, pid, todo[k].0, todo[k].1);
      if one.result.Failure? {
        CreateStopped(run, cur, pid, todo, keep, ids, k);
        return Outcome(one.run, Failure(one.result.error));
      }
      CreateStep(run, cur, pid, todo, keep, ids, k);
      cur, ids, k := one.run, ids + [one.result.value.linkId], k + 1;
    }
    return Outcome(cur, Success(ids));
  }

  /** What the link-creation loop keeps true after `k` keys: the k posts
      sent, no earlier link lost, and the k created links listed, live and
      suspended, after the ids to keep. */
  ghost predicate CreatedSoFar(run: Run, cur: Run, pid: string, todo: seq<(LinkKey, LinkInfo)>, keep: seq<string>,
                               ids: seq<string>, k: nat) {
    && k <= |todo|
    && cur.disk == run.disk
    && cur.srv.nodes == run.srv.nodes && cur.srv.projects == run.srv.projects && cur.srv.refused == run.srv.refused
    && PostedSoFar(run.sent, cur.sent, pid, todo, k)
    && (forall l :: l in LinksIn(run.srv, pid) ==> l in LinksIn(cur.srv, pid))
    && |ids| == |keep| + k && Extends(ids, keep)
    && (forall j :: |keep| <= j < |ids| ==> SuspendedIn(cur.srv, pid, ids[j]))
    && LinkedSoFar(LinksIn(cur.srv, pid), ids, |keep|, todo, k)
  }

  /** The trace `sent` continues `before` with the posts of the first `k`
      keys to create, and nothing else. */
  ghost predicate PostedSoFar(before: seq<Request>, sent: seq<Request>, pid: string, todo: seq<(LinkKey, LinkInfo)>, k: nat) {
    && k <= |todo|
    && Extends(sent, before) && |sent| == |before| + k
    && (forall j :: |before| <= j < |sent| ==> sent[j] == PostLink(pid, todo[j - |before|].0))
    && NoDeletesFrom(sent, |before|)
  }

  lemma PostedStep(before: seq<Request>, sent: seq<Request>, pid: string, todo: seq<(LinkKey, LinkInfo)>, k: nat)
    requires k < |todo| && PostedSoFar(before, sent, pid, todo, k)
    ensures PostedSoFar(before, sent + [PostLink(pid, todo[k].0)], pid, todo, k + 1)
  {
    ExtendsAppend(sent, [PostLink(pid, todo[k].0)]);
    ExtendsTrans(sent + [PostLink(pid, todo[k].0)], sent, before);
  }

  lemma CreateStep(run: Run, cur: Run, pid: string, todo: seq<(LinkKey, LinkInfo)>, keep: seq<string>,
                   ids: seq<string>, k: nat)
    requires k < |todo| && CreatedSoFar(run, cur, pid, todo, keep, ids, k)
    requires CreateOne(cur, pid, todo[k].0, todo[k].1).result.Success?
    ensures var one := CreateOne(cur, pid, todo[k].0, todo[k].1);
            CreatedSoFar(run, one.run, pid, todo, keep, ids + [one.result.value.linkId], k + 1)
  {
    var one := CreateOne(cur, pid, todo[k].0, todo[k].1);
    PostedStep(run.sent, cur.sent, pid, todo, k);
    var l := one.result.value;
    assert l in LinksIn(one.run.srv, pid);
    forall j | |keep| <= j < |ids|
      ensures SuspendedIn(one.run.srv, pid, ids[j])
    {
      SuspendedKept(cur.srv, one.run.srv, pid, ids[j]);
    }
    ExtendsAppend(ids, [l.linkId]);
    ExtendsTrans(ids + [l.linkId], ids, keep);
    LinkedSoFarStep(LinksIn(cur.srv, pid), l, ids, |keep|, todo, k);
  }

  /** A failed create leaves the trace and the links as the loop's
      promises say. */
  lemma CreateStopped(run: Run, cur: Run, pid: string, todo: seq<(LinkKey, LinkInfo)>, keep: seq<string>,
                      ids: seq<string>, k: nat)
    requires k < |todo| && CreatedSoFar(run, cur, pid, todo, keep, ids, k)
    requires CreateOne(cur, pid, todo[k].0, todo[k].1).result.Failure?
    ensures var one := CreateOne(cur, pid, todo[k].0, todo[k].1);
            && one.run.disk == run.disk
            && one.run.srv.nodes == run.srv.nodes && one.run.srv.projects == run.srv.projects
            && one.run.srv.refused == run.srv.refused
            && Extends(one.run.sent, run.sent) && |one.run.sent| <= |run.sent| + |todo|
            && (forall j :: |run.sent| <= j < |one.run.sent| ==> one.run.sent[j] == PostLink(pid, todo[j - |run.sent|].0))
            && (forall l :: l in LinksIn(run.srv, pid) ==> l in LinksIn(one.run.srv, pid))
            && NoDeletesFrom(one.run.sent, |run.sent|)
  {
    var one := CreateOne(cur, pid, todo[k].0, todo[k].1);
    PostedStep(run.sent, cur.sent, pid, todo, k);
  }

  /** Every node of project `pid` on `s1` is still there on `s2` under the
      same name and id, whatever its status became. */
  ghost predicate NamesKept(s1: Server, s2: Server, pid: string) {
    forall x :: x in NodesIn(s1, pid) ==> exists y :: y in NodesIn(s2, pid) && y.name == x.name && y.nodeId == x.nodeId
  }

  lemma NamesKeptTrans(s1: Server, s2: Server, s3: Server, pid: string)
    requires NamesKept(s1, s2, pid) && NamesKept(s2, s3, pid)
    ensures NamesKept(s1, s3, pid)
  {
    forall x | x in NodesIn(s1, pid)
      ensures exists z :: z in NodesIn(s3, pid) && z.name == x.name && z.nodeId == x.nodeId
    {
      var y :| y in NodesIn(s2, pid) && y.name == x.name && y.nodeId == x.nodeId;
      var z :| z in NodesIn(s3, pid) && z.name == y.name && z.nodeId == y.nodeId;
    }
  }

  lemma PlacedKept(s1: Server, s2: Server, pid: string, name: string)
    requires NamesKept(s1, s2, pid) && Placed(s1, pid, name)
    ensures Placed(s2, pid, name)
  {
    var x :| x in NodesIn(s1, pid) && (x.name == name || x.nodeId == name);
    var y :| y in NodesIn(s2, pid) && y.name == x.name && y.nodeId == x.nodeId;
  }

  /** Starting a node keeps every node's name and id. */
  lemma StartKeepsNames(srv: Server, pid: string, name: string)
    ensures NamesKept(srv, Nodes.Start(srv, pid, name).srv, pid)
  {
    var g := Nodes.Get(srv, pid, name);
    var st := Nodes.Start(srv, pid, name);
    if g.result.Success? && st.result.Success? {
      StatusKeepsNames(srv, st.srv, pid, g.result.value.nodeId);
    }
  }

  /** Starting a node sends reads and at most one POST: no DELETE. */
  lemma StartSendsNoDelete(srv: Server, pid: string, name: string)
    ensures NoDeletesFrom(Nodes.Start(srv, pid, name).sent, 0)
  {
    var g := Nodes.Get(srv, pid, name);
    ReadsThenPost(g.sent, Request(POST, NodeStart(pid, ""), NoBody));
    if g.result.Success? {
      ReadsThenPost(g.sent, Request(POST, NodeStart(pid, g.result.value.nodeId), NoBody));
    }
  }

  lemma ReadsThenPost(gets: seq<Request>, post: Request)
    requires Reads(gets) && post.verb == POST
    ensures NoDeletesFrom(gets, 0) && NoDeletesFrom(gets + [post], 0)
  {
    assert forall i :: 0 <= i < |gets| ==> (gets + [post])[i] == gets[i];
  }

  /** Setting a node's status keeps every node's name and id. */
  lemma StatusKeepsNames(s1: Server, s2: Server, pid: string, nid: string)
    requires NodesIn(s2, pid) == Nodes.WithStatus(NodesIn(s1, pid), nid, "started")
    ensures NamesKept(s1, s2, pid)
  {
    forall x | x in NodesIn(s1, pid)
      ensures exists y :: y in NodesIn(s2, pid) && y.name == x.name && y.nodeId == x.nodeId
    {
      var i :| 0 <= i < |NodesIn(s1, pid)| && NodesIn(s1, pid)[i] == x;
      assert NodesIn(s2, pid)[i] in NodesIn(s2, pid);
    }
  }

  /** Start one node and report the outcome. */
  function StartOne(run: Run, pid: string, name: string): (r: Run)
    ensures r.out == run.out + [NodeStarted(name)] || r.out == run.out + [NodeStartFailed(name)]
    ensures r.disk == run.disk && Extends(r.sent, run.sent)
    ensures r.srv.links == run.srv.links && r.srv.projects == run.srv.projects && r.srv.refused == run.srv.refused
    ensures NoDeletesFrom(r.sent, |run.sent|)
    ensures NamesKept(run.srv, r.srv, pid)
  {
    var st := Nodes.Start(run.srv, pid, name);
    StartKeepsNames(run.srv, pid, name);
    StartSendsNoDelete(run.srv, pid, name);
    Say(Then(run, st), if st.result.Success? then NodeStarted(name) else NodeStartFailed(name))
  }

  /** The line reporting the start of node `name`. */
  predicate StartReport(line: Line, name: string) {
    line == NodeStarted(name) || line == NodeStartFailed(name)
  }

  /** The start loop: every desired node is started in order and reported
      at its position, whether its start failed or not; a failure does not
      end the loop. */
  method StartNodes(run: Run, pid: string, nodes: seq<NetworkNode>) returns (r: Run)
    ensures |r.out| == |run.out| + |nodes| && Extends(r.out, run.out)
    ensures forall i :: 0 <= i < |nodes| ==> StartReport(r.out[|run.out| + i], nodes[i].name)
    ensures r.disk == run.disk && Extends(r.sent, run.sent)
    ensures r.srv.links == run.srv.links && r.srv.projects == run.srv.projects && r.srv.refused == run.srv.refused
    ensures NoDeletesFrom(r.sent, |run.sent|)
    ensures NamesKept(run.srv, r.srv, pid)
  {
    r := run;
    var k := 0;
    while k < |nodes|
      invariant 0 <= k <= |nodes|
      invariant |r.out| == |run.out| + k && Extends(r.out, run.out)
      invariant forall j :: |run.out| <= j < |r.out| ==> StartReport(r.out[j], nodes[j - |run.out|].name)
      invariant r.disk == run.disk && Extends(r.sent, run.sent)
      invariant r.srv.links == run.srv.links && r.srv.projects == run.srv.projects && r.srv.refused == run.srv.refused
      invariant NoDeletesFrom(r.sent, |run.sent|) && NamesKept(run.srv, r.srv, pid)
    {
      var next := StartOne(r, pid, nodes[k].name);
      ExtendsTrans(next.sent, r.sent, run.sent);
      ExtendsTrans(next.out, r.out, run.out);
      NoDeletesTrans(next.sent, r.sent, run.sent);
      NamesKeptTrans(run.srv, r.srv, next.srv, pid);
      r, k := next, k + 1;
    }
  }

  /** Each link of `after` is the same-position link of `before`, or that
      link resumed when its id is in `ids`. */
  ghost predicate OnlyResumed(before: seq<Link>, after: seq<Link>, ids: seq<string>) {
    && |after| == |before|
    && forall i :: 0 <= i < |before| ==>
         after[i] == before[i] || (after[i] == before[i].(suspend := false) && before[i].linkId in ids)
  }

  /** Resume one link; a failure is wrapped. */
  function ResumeOne(run: Run, pid: string, id: string): (r: Outcome<()>)
    ensures r.run.disk == run.disk && r.run.out == run.out && Extends(r.run.sent, run.sent)
    ensures r.run.srv.nodes == run.srv.nodes && r.run.srv.projects == run.srv.projects && r.run.srv.refused == run.srv.refused
    ensures r.result.Success? ==> LinksIn(r.run.srv, pid) == Links.WithSuspend(LinksIn(run.srv, pid), id, false)
    ensures r.result.Failure? ==> r.run.srv == run.srv && r.result.error.Wrapped? && r.result.error.context == "resume failed"
    ensures NoDeletesFrom(r.run.sent, |run.sent|)
  {
    var rs := Links.Resume(run.srv, pid, id);
    assert forall i :: 0 <= i < |rs.sent| ==> rs.sent[i].verb != DELETE;
    ExtendsAppend(run.sent, rs.sent);
    var run1 := run.(srv := rs.srv, sent := run.sent + rs.sent);
    match rs.err
    case Some(e) => Outcome(run1, Failure(Wrapped("resume failed", e)))
    case None => Outcome(run1, Success(()))
  }

  /** The resume loop: ids in order, the first failure ends the run. */
  function ResumeAll(run: Run, pid: string, keep: seq<string>): (r: Outcome<()>)
    ensures r.run.disk == run.disk && r.run.out == run.out
    ensures Extends(r.run.sent, run.sent)
    ensures r.run.srv.nodes == run.srv.nodes && r.run.srv.projects == run.srv.projects && r.run.srv.refused == run.srv.refused
    ensures r.result.Failure? ==> r.result.error.Wrapped? && r.result.error.context == "resume failed"
    ensures NoDeletesFrom(r.run.sent, |run.sent|)
    decreases |keep|
  {
    if |keep| == 0 then Outcome(run, Success(()))
    else
      var one := ResumeOne(run, pid, keep[0]);
      if one.result.Failure? then one
      else
        var rest := ResumeAll(one.run, pid, keep[1..]);
        ExtendsTrans(rest.run.sent, one.run.sent, run.sent);
        NoDeletesTrans(rest.run.sent, one.run.sent, run.sent);
        rest
  }

  /** The resume loop only clears suspend flags, and only of listed ids. */
  lemma {:induction false} ResumeAllOnlyResumes(run: Run, pid: string, keep: seq<string>)
    ensures OnlyResumed(LinksIn(run.srv, pid), LinksIn(ResumeAll(run, pid, keep).run.srv, pid), keep)
    decreases |keep|
  {
    if |keep| > 0 {
      var one := ResumeOne(run, pid, keep[0]);
      if one.result.Success? {
        ResumeAllOnlyResumes(one.run, pid, keep[1..]);
        ResumeStep(LinksIn(run.srv, pid), LinksIn(one.run.srv, pid), LinksIn(ResumeAll(one.run, pid, keep[1..]).run.srv, pid), keep);
      }
    }
  }

  /** When the resume loop succeeds every listed link is active. */
  lemma {:induction false} ResumeAllActivates(run: Run, pid: string, keep: seq<string>, i: int)
    requires 0 <= i < |keep| && ResumeAll(run, pid, keep).result.Success?
    ensures forall l :: l in LinksIn(ResumeAll(run, pid, keep).run.srv, pid) && l.linkId == keep[i] ==> !l.suspend
    decreases |keep|
  {
    var one := ResumeOne(run, pid, keep[0]);
    var after := LinksIn(ResumeAll(one.run, pid, keep[1..]).run.srv, pid);
    if i == 0 {
      ResumeAllOnlyResumes(one.run, pid, keep[1..]);
      ResumeStep(LinksIn(run.srv, pid), LinksIn(one.run.srv, pid), after, keep);
    } else {
      ResumeAllActivates(one.run, pid, keep[1..], i - 1);
      assert keep[1..][i - 1] == keep[i];
    }
  }

  /** Composing one resume with the rest of the loop. */
  lemma ResumeStep(before: seq<Link>, mid: seq<Link>, after: seq<Link>, keep: seq<string>)
    requires |keep| > 0
    requires mid == Links.WithSuspend(before, keep[0], false)
    requires OnlyResumed(mid, after, keep[1..])
    ensures OnlyResumed(before, after, keep)
    ensures forall l :: l in after && l.linkId == keep[0] ==> !l.suspend
  {
    forall i | 0 <= i < |before|
      ensures after[i] == before[i] || (after[i] == before[i].(suspend := false) && before[i].linkId in keep)
    {
      if after[i] != mid[i] {
        assert mid[i].linkId in keep[1..];
      }
    }
    forall l | l in after && l.linkId == keep[0]
      ensures !l.suspend
    {
      var i :| 0 <= i < |after| && after[i] == l;
    }
  }

  /** A failing resume stops the loop: no later id is touched. */
  lemma ResumeStopsAtFirstFailure(run: Run, pid: string, keep: seq<string>)
    requires |keep| > 0 && Links.Resume(run.srv, pid, keep[0]).err.Some?
    ensures ResumeAll(run, pid, keep).run.sent == run.sent + Links.Resume(run.srv, pid, keep[0]).sent
    ensures ResumeAll(run, pid, keep).run.srv == run.srv
  {
  }

  /** An arbitrary enumeration of a set without repetition: the order of a
      Go map iteration. */
  method Arrange<K(==)>(s: set<K>) returns (order: seq<K>)
    ensures forall k :: k in s <==> k in order
    ensures forall i, j :: 0 <= i < j < |order| ==> order[i] != order[j]
  {
    order := [];
    var rest := s;
    while rest != {}
      invariant forall k :: k in s <==> k in order || k in rest
      invariant forall k :: k in rest ==> k !in order
      invariant forall i, j :: 0 <= i < j < |order| ==> order[i] != order[j]
      decreases |rest|
    {
      var k :| k in rest;
      order := order + [k];
      rest := rest - {k};
    }
  }

  /** doLoad on a decoded network: the run from an empty trace, and the
      project or the error that ended it. */
  method Load(cfg: Config, read: string -> Result<Appliances.Appliance, Error>, net: Network,
              srv: Server, disk: ImageCache.Disk) returns (r: Outcome<Project>)
    ensures var p := EnsureProject(Run(srv, [], [], disk), net.name);
            && (p.result.Failure? ==> r == Outcome(p.run, p.result))
            && (r.result.Success? ==> r.result == p.result)
            && r.run.srv.projects == p.run.srv.projects
    ensures r.result.Failure? ==>
              r.result.error.Wrapped? || r.result.error.Annotated?
              || exists ref :: ref in net.appliances && read(ref) == Failure(r.result.error)
    ensures r.result.Success? ==>
              forall i :: 0 <= i < |net.nodes| ==> Placed(r.run.srv, r.result.value.projectId, net.nodes[i].name)
    ensures var p := EnsureProject(Run(srv, [], [], disk), net.name);
            r.result.Success? ==>
              exists mid: Run :: && mid.srv.links == p.run.srv.links && mid.srv.projects == p.run.srv.projects
                                 && LinkPromises(net, r.result.value.projectId, mid, r.run)
  {
    var p := EnsureProject(Run(srv, [], [], disk), net.name);
    if p.result.Failure? {
      return p;
    }
    var populated := Populate(cfg, read, net, p.result.value.projectId, p.run);
    if populated.result.Failure? {
      return Outcome(populated.run, Failure(populated.result.error));
    }
    var connected := Connect(net, p.result.value.projectId, populated.run);
    if connected.result.Failure? {
      return Outcome(connected.run, Failure(connected.result.error));
    }
    r := Outcome(connected.run, p.result);
    assert LinkPromises(net, p.result.value.projectId, populated.run, connected.run);
    forall i | 0 <= i < |net.nodes|
      ensures Placed(r.run.srv, r.result.value.projectId, net.nodes[i].name)
    {
      PlacedKept(populated.run.srv, connected.run.srv, p.result.value.projectId, net.nodes[i].name);
    }
  }

  /** Connect's promises, from the run `before` the link phases start on to
      the run `after` they leave: DELETEs only of stale links, one for each
      stale link whose fetch is answered, every other live link kept or
      resumed, and, when the server's link ids are distinct, every desired
      link active. */
  ghost predicate LinkPromises(net: Network, pid: string, before: Run, after: Run) {
    && DeletesOnly(after.sent, |before.sent|, pid, StaleOn(before.srv, pid, net.links))
    && (Answers(before.srv, Read(LinksOf(pid))) ==>
          forall id :: id in StaleOn(before.srv, pid, net.links) && Answers(before.srv, Read(LinkAt(pid, id))) ==>
            SentSince(after.sent, |before.sent|, DeleteOf(pid, id)))
    && (forall l :: l in LinksIn(before.srv, pid) && l.linkId !in StaleOn(before.srv, pid, net.links) ==>
          l in LinksIn(after.srv, pid) || l.(suspend := false) in LinksIn(after.srv, pid))
    && DiffOn(before.srv, pid, net.links).Success?
    && (DistinctIds(LinksIn(before.srv, pid)) ==>
          forall i :: 0 <= i < |net.links| ==>
            Active(LinksIn(after.srv, pid), Wants(Lookup(before.srv, pid), net.links).value[i].key))
  }

  /** The appliance and node phases of the load command. */
  method Populate(cfg: Config, read: string -> Result<Appliances.Appliance, Error>, net: Network, pid: string, run: Run)
    returns (r: Outcome<()>)
    ensures r.run.srv.projects == run.srv.projects && r.run.srv.links == run.srv.links
    ensures r.result.Failure? ==>
              r.result.error.Wrapped? || exists ref :: ref in net.appliances && read(ref) == Failure(r.result.error)
    ensures NodesGrow(run.srv, r.run.srv, pid)
    ensures r.result.Success? ==> forall i :: 0 <= i < |net.nodes| ==> Placed(r.run.srv, pid, net.nodes[i].name)
  {
    var apps := ImportAll(run, cfg.images, read, net.appliances);
    if apps.result.Failure? {
      return apps;
    }
    r := EnsureNodes(apps.run, cfg, pid, net.nodes);
  }

  /** The diff the link phase computes against server `srv`: the project's
      live links, indexed, matched against the desired links resolved
      there; or the error of the first desired link that does not resolve. */
  function DiffOn(srv: Server, pid: string, links: seq<NetworkLink>): Result<Diff, Error> {
    match Wants(Lookup(srv, pid), links)
    case Failure(e) => Failure(e)
    case Success(ws) => Success(MatchAll(Diff(Index(LinksIn(srv, pid)), map[], []), ws))
  }

  /** The ids of the links the link phase finds stale on `srv`; none when
      the desired links do not resolve. */
  function StaleOn(srv: Server, pid: string, links: seq<NetworkLink>): set<string> {
    match DiffOn(srv, pid, links)
    case Failure(_) => {}
    case Success(d) => StaleSet(d.pending)
  }

  /** No two links of the list share an id, as on a real controller. */
  predicate DistinctIds(links: seq<Link>) {
    forall l, m :: l in links && m in links && l.linkId == m.linkId ==> l == m
  }

  /** Some two-ended link joins the ends of `key`, in either orientation,
      and is not suspended. */
  ghost predicate Active(links: seq<Link>, key: LinkKey) {
    exists m :: m in links && TwoEnded(m) && (KeyOf(m) == key || KeyOf(m) == Swap(key)) && !m.suspend
  }

  /** The link, start and resume phases of the load command. The only
      links deleted are the stale ones: live two-ended links that no
      desired link names in either orientation; each of those whose fetch
      the server answers gets its DELETE. Every other live link survives,
      at most resumed. On success every desired link is live, in one
      orientation or the other, and not suspended. Nodes keep their names
      and ids. */
  method Connect(net: Network, pid: string, run: Run) returns (r: Outcome<()>)
    ensures r.run.srv.projects == run.srv.projects
    ensures r.result.Failure? ==> r.result.error.Wrapped? || r.result.error.Annotated?
    ensures Extends(r.run.sent, run.sent)
    ensures NamesKept(run.srv, r.run.srv, pid)
    ensures DeletesOnly(r.run.sent, |run.sent|, pid, StaleOn(run.srv, pid, net.links))
    ensures Answers(run.srv, Read(LinksOf(pid))) ==>
              forall id :: id in StaleOn(run.srv, pid, net.links) && Answers(run.srv, Read(LinkAt(pid, id))) ==>
                SentSince(r.run.sent, |run.sent|, DeleteOf(pid, id))
    ensures forall l :: l in LinksIn(run.srv, pid) && l.linkId !in StaleOn(run.srv, pid, net.links) ==>
              l in LinksIn(r.run.srv, pid) || l.(suspend := false) in LinksIn(r.run.srv, pid)
    ensures r.result.Success? ==> DiffOn(run.srv, pid, net.links).Success?
    ensures r.result.Success? && DistinctIds(LinksIn(run.srv, pid)) ==>
              forall i :: 0 <= i < |net.links| ==>
                Active(LinksIn(r.run.srv, pid), Wants(Lookup(run.srv, pid), net.links).value[i].key)
  {
    var indexed := IndexLinks(run, pid);
    ReadsAppended(run.sent, [Read(LinksOf(pid))]);
    if indexed.result.Failure? {
      r := Outcome(indexed.run, Failure(indexed.result.error));
      ReadOnlyStop(run, r.run, pid, net.links);
      return;
    }
    r := ConnectIndexed(net, pid, run, indexed.run);
  }

  /** The link phases after a successful list of the project's links,
      which left the trace `mid`: resolve and match the desired links, then
      apply the diff. */
  method ConnectIndexed(net: Network, pid: string, run: Run, mid: Run) returns (r: Outcome<()>)
    requires mid.srv == run.srv && Extends(mid.sent, run.sent) && ReadsFrom(mid.sent, |run.sent|)
    requires Answers(run.srv, Read(LinksOf(pid)))
    ensures r.run.srv.projects == run.srv.projects
    ensures r.result.Failure? ==> r.result.error.Wrapped?
    ensures Extends(r.run.sent, run.sent)
    ensures NamesKept(run.srv, r.run.srv, pid)
    ensures DeletesOnly(r.run.sent, |run.sent|, pid, StaleOn(run.srv, pid, net.links))
    ensures Answers(run.srv, Read(LinksOf(pid))) ==>
              forall id :: id in StaleOn(run.srv, pid, net.links) && Answers(run.srv, Read(LinkAt(pid, id))) ==>
                SentSince(r.run.sent, |run.sent|, DeleteOf(pid, id))
    ensures forall l :: l in LinksIn(run.srv, pid) && l.linkId !in StaleOn(run.srv, pid, net.links) ==>
              l in LinksIn(r.run.srv, pid) || l.(suspend := false) in LinksIn(r.run.srv, pid)
    ensures r.result.Success? ==> DiffOn(run.srv, pid, net.links).Success?
    ensures r.result.Success? && DistinctIds(LinksIn(run.srv, pid)) ==>
              forall i :: 0 <= i < |net.links| ==>
                Active(LinksIn(r.run.srv, pid), Wants(Lookup(run.srv, pid), net.links).value[i].key)
  {
    var d0 := Diff(Index(LinksIn(run.srv, pid)), map[], []);
    var matched := MatchLinks(mid, pid, net.links, d0);
    MatchLinksFollowsWants(mid, pid, net.links, d0);
    ReadsTrans(matched.run.sent, mid.sent, run.sent);
    ExtendsTrans(matched.run.sent, mid.sent, run.sent);
    if matched.result.Failure? {
      r := Outcome(matched.run, Failure(matched.result.error));
      ReadOnlyStop(run, r.run, pid, net.links);
      return;
    }
    assert matched.result.value == DiffOn(run.srv, pid, net.links).value;
    r := ApplyDiff(net, pid, matched.run, Wants(Lookup(run.srv, pid), net.links).value, matched.result.value);
    ReadsThenDeletes(r.run.sent, matched.run.sent, run.sent, pid, StaleOn(run.srv, pid, net.links));
    ExtendsTrans(r.run.sent, matched.run.sent, run.sent);
    forall id | id in StaleOn(run.srv, pid, net.links) && Answers(run.srv, Read(LinkAt(pid, id)))
      ensures SentSince(r.run.sent, |run.sent|, DeleteOf(pid, id))
    {
      SentSinceEarlier(r.run.sent, |matched.run.sent|, |run.sent|, DeleteOf(pid, id));
    }
  }

  /** The delete, create, start and resume phases, given the desired
      links resolved and their diff against the project's live links. */
  method ApplyDiff(net: Network, pid: string, run: Run, ws: seq<Wanted>, d: Diff) returns (r: Outcome<()>)
    requires d == MatchAll(Diff(Index(LinksIn(run.srv, pid)), map[], []), ws)
    ensures r.run.srv.projects == run.srv.projects
    ensures r.result.Failure? ==> r.result.error.Wrapped?
    ensures Extends(r.run.sent, run.sent)
    ensures NamesKept(run.srv, r.run.srv, pid)
    ensures DeletesOnly(r.run.sent, |run.sent|, pid, StaleSet(d.pending))
    ensures forall id :: id in StaleSet(d.pending) && Answers(run.srv, Read(LinkAt(pid, id))) ==>
              SentSince(r.run.sent, |run.sent|, DeleteOf(pid, id))
    ensures forall l :: l in LinksIn(run.srv, pid) && l.linkId !in StaleSet(d.pending) ==>
              l in LinksIn(r.run.srv, pid) || l.(suspend := false) in LinksIn(r.run.srv, pid)
    ensures r.result.Success? && DistinctIds(LinksIn(run.srv, pid)) ==>
              forall i :: 0 <= i < |ws| ==> Active(LinksIn(r.run.srv, pid), ws[i].key)
  {
    var live := LinksIn(run.srv, pid);
    var prepared := Prepare(pid, run, ws, d);
    if prepared.result.Failure? {
      r := Outcome(prepared.run, Failure(prepared.result.error));
      NamesSame(run.srv, r.run.srv, pid);
      return;
    }
    var ids := prepared.result.value;
    var started := StartNodes(prepared.run, pid, net.nodes);
    r := ResumeAll(started, pid, ids);
    ExtendsTrans(r.run.sent, started.sent, prepared.run.sent);
    NoDeletesTrans(r.run.sent, started.sent, prepared.run.sent);
    ExtendsTrans(r.run.sent, prepared.run.sent, run.sent);
    DeletesThenNone(r.run.sent, prepared.run.sent, |run.sent|, pid, StaleSet(d.pending));
    forall id | id in StaleSet(d.pending) && Answers(run.srv, Read(LinkAt(pid, id)))
      ensures SentSince(r.run.sent, |run.sent|, DeleteOf(pid, id))
    {
      SentSinceKept(r.run.sent, prepared.run.sent, |run.sent|, DeleteOf(pid, id));
    }
    NamesSame(run.srv, prepared.run.srv, pid);
    NamesSame(started.srv, r.run.srv, pid);
    NamesKeptTrans(run.srv, prepared.run.srv, started.srv, pid);
    NamesKeptTrans(run.srv, started.srv, r.run.srv, pid);
    ResumeAllOnlyResumes(started, pid, ids);
    ResumedSurvive(live, LinksIn(started.srv, pid), LinksIn(r.run.srv, pid), ids, StaleSet(d.pending));
    if r.result.Success? && DistinctIds(live) {
      ResumeAllActivatesAll(started, pid, ids);
      DesiredActive(live, ws, LinksIn(started.srv, pid), LinksIn(r.run.srv, pid), ids);
    }
  }

  /** The delete and create phases: the stale links deleted in some order,
      then the links to create posted in some order, suspended. */
  method Prepare(pid: string, run: Run, ws: seq<Wanted>, d: Diff) returns (r: Outcome<seq<string>>)
    requires d == MatchAll(Diff(Index(LinksIn(run.srv, pid)), map[], []), ws)
    ensures r.run.srv.nodes == run.srv.nodes && r.run.srv.projects == run.srv.projects
    ensures r.result.Failure? ==> r.result.error == Wrapped("link create", Refusal)
    ensures Extends(r.run.sent, run.sent)
    ensures DeletesOnly(r.run.sent, |run.sent|, pid, StaleSet(d.pending))
    ensures forall id :: id in StaleSet(d.pending) && Answers(run.srv, Read(LinkAt(pid, id))) ==>
              SentSince(r.run.sent, |run.sent|, DeleteOf(pid, id))
    ensures forall l :: l in LinksIn(run.srv, pid) && l.linkId !in StaleSet(d.pending) ==> l in LinksIn(r.run.srv, pid)
    ensures r.result.Success? ==> Prepared(LinksIn(run.srv, pid), ws, LinksIn(r.run.srv, pid), r.result.value)
  {
    var live := LinksIn(run.srv, pid);
    PendingFromIndex(live, ws);
    var cleaned := DeleteStaleLinks(pid, run, d.pending);
    var createOrder := Arrange(d.create.Keys);
    var todo := seq(|createOrder|, i requires 0 <= i < |createOrder| => (createOrder[i], d.create[createOrder[i]]));
    r := CreateLinks(cleaned, pid, todo, d.keep);
    DeletesThenNone(r.run.sent, cleaned.sent, |run.sent|, pid, StaleSet(d.pending));
    ExtendsTrans(r.run.sent, cleaned.sent, run.sent);
    forall id | id in StaleSet(d.pending) && Answers(run.srv, Read(LinkAt(pid, id)))
      ensures SentSince(r.run.sent, |run.sent|, DeleteOf(pid, id))
    {
      SentSinceKept(r.run.sent, cleaned.sent, |run.sent|, DeleteOf(pid, id));
    }
    if r.result.Success? {
      CreatedLinked(LinksIn(r.run.srv, pid), r.result.value, |d.keep|, todo, createOrder, d.create.Keys);
    }
  }

  /** The delete phase: every stale link, in some order. Only stale ids are
      deleted, each stale link whose fetch the server answers gets its
      DELETE, and every other link stays. */
  method DeleteStaleLinks(pid: string, run: Run, pending: map<LinkKey, LinkState>) returns (r: Run)
    requires FromIndex(pending, LinksIn(run.srv, pid))
    ensures r.srv.nodes == run.srv.nodes && r.srv.projects == run.srv.projects
    ensures Extends(r.sent, run.sent)
    ensures DeletesOnly(r.sent, |run.sent|, pid, StaleSet(pending))
    ensures forall id :: id in StaleSet(pending) && Answers(run.srv, Read(LinkAt(pid, id))) ==>
              SentSince(r.sent, |run.sent|, DeleteOf(pid, id))
    ensures forall l :: l in LinksIn(run.srv, pid) && l.linkId !in StaleSet(pending) ==> l in LinksIn(r.srv, pid)
  {
    var order := Arrange(pending.Keys);
    DeletePhase(run, pid, pending, order);
    r := DeleteStale(run, pid, StaleIds(pending, order));
  }

  /** The delete loop over the stale ids in any order that lists every
      pending key: what DeleteStaleLinks promises. */
  lemma DeletePhase(run: Run, pid: string, pending: map<LinkKey, LinkState>, order: seq<LinkKey>)
    requires FromIndex(pending, LinksIn(run.srv, pid))
    requires forall k :: k in pending.Keys <==> k in order
    ensures var r := DeleteStale(run, pid, StaleIds(pending, order));
            && DeletesOnly(r.sent, |run.sent|, pid, StaleSet(pending))
            && (forall id :: id in StaleSet(pending) && Answers(run.srv, Read(LinkAt(pid, id))) ==>
                  SentSince(r.sent, |run.sent|, DeleteOf(pid, id)))
            && (forall l :: l in LinksIn(run.srv, pid) && l.linkId !in StaleSet(pending) ==> l in LinksIn(r.srv, pid))
  {
    var r := DeleteStale(run, pid, StaleIds(pending, order));
    assert Extends(r.sent, r.sent);
    StaleDeletesSent(run, pid, pending, order, r.sent, |run.sent|);
    DeletePhaseTrace(run, pid, pending, order);
    DeletePhaseKeeps(run, pid, pending, order);
  }

  lemma DeletePhaseTrace(run: Run, pid: string, pending: map<LinkKey, LinkState>, order: seq<LinkKey>)
    requires forall k :: k in pending.Keys <==> k in order
    ensures DeletesOnly(DeleteStale(run, pid, StaleIds(pending, order)).sent, |run.sent|, pid, StaleSet(pending))
  {
    var r := DeleteStale(run, pid, StaleIds(pending, order));
    assert Extends(run.sent, run.sent) && ReadsFrom(run.sent, |run.sent|);
    assert Extends(r.sent, r.sent) && NoDeletesFrom(r.sent, |r.sent|);
    TraceThrough(run.sent, run.sent, r.sent, r.sent, pid, pending, order);
  }

  lemma DeletePhaseKeeps(run: Run, pid: string, pending: map<LinkKey, LinkState>, order: seq<LinkKey>)
    requires forall k :: k in pending.Keys <==> k in order
    ensures forall l :: l in LinksIn(run.srv, pid) && l.linkId !in StaleSet(pending) ==>
              l in LinksIn(DeleteStale(run, pid, StaleIds(pending, order)).srv, pid)
  {
    var r := DeleteStale(run, pid, StaleIds(pending, order));
    DeleteStaleEffect(run, pid, StaleIds(pending, order));
    StaleThrough(LinksIn(run.srv, pid), LinksIn(r.srv, pid), LinksIn(r.srv, pid), pending, order);
  }

  /** What the delete and create phases leave for the resume loop: every
      live link that is not stale is still there; the ids to resume start
      with those of the matched suspended links; and each key to create
      has a link, listed for resuming. */
  ghost predicate Prepared(live: seq<Link>, ws: seq<Wanted>, kept: seq<Link>, ids: seq<string>) {
    var d := MatchAll(Diff(Index(live), map[], []), ws);
    && (forall l :: l in live && l.linkId !in StaleSet(d.pending) ==> l in kept)
    && Extends(ids, d.keep)
    && (forall k :: k in d.create ==> exists id :: id in ids && LinkedAs(kept, id, k))
  }

  /** Each key the creation loop was given has a link with a listed id. */
  lemma CreatedLinked(kept: seq<Link>, ids: seq<string>, n: nat, todo: seq<(LinkKey, LinkInfo)>,
                      order: seq<LinkKey>, keys: set<LinkKey>)
    requires forall k :: k in keys <==> k in order
    requires |todo| == |order| && forall j :: 0 <= j < |todo| ==> todo[j].0 == order[j]
    requires LinkedSoFar(kept, ids, n, todo, |todo|)
    ensures forall k :: k in keys ==> exists id :: id in ids && LinkedAs(kept, id, k)
  {
    forall k | k in keys
      ensures exists id :: id in ids && LinkedAs(kept, id, k)
    {
      var j :| 0 <= j < |order| && order[j] == k;
      assert LinkedAs(kept, ids[n + j], todo[j].0);
    }
  }

  /** Deletes of listed ids only, then no delete at all. */
  lemma DeletesThenNone(s: seq<Request>, m: seq<Request>, n: nat, pid: string, ids: set<string>)
    requires Extends(s, m) && DeletesOnly(m, n, pid, ids) && NoDeletesFrom(s, |m|)
    ensures DeletesOnly(s, n, pid, ids)
  {
    forall i | n <= i < |m|
      ensures s[i] == m[i]
    {
      assert s[i] == s[..|m|][i];
    }
  }

  /** Reads, then deletes of listed ids only. */
  lemma ReadsThenDeletes(s: seq<Request>, m: seq<Request>, p: seq<Request>, pid: string, ids: set<string>)
    requires Extends(s, m) && Extends(m, p) && ReadsFrom(m, |p|)
    requires DeletesOnly(s, |m|, pid, ids)
    ensures DeletesOnly(s, |p|, pid, ids)
  {
    forall i | |p| <= i < |m|
      ensures s[i].verb == GET
    {
      assert s[i] == s[..|m|][i];
    }
  }

  lemma SentSinceEarlier(s: seq<Request>, n: nat, n0: nat, q: Request)
    requires SentSince(s, n, q) && n0 <= n
    ensures SentSince(s, n0, q)
  {
    var i :| n <= i < |s| && s[i] == q;
    assert n0 <= i;
  }

  /** A link phase that stopped before deleting anything: the server is
      unchanged and only reads were sent. */
  lemma ReadOnlyStop(run: Run, s: Run, pid: string, links: seq<NetworkLink>)
    requires s.srv == run.srv && Extends(s.sent, run.sent) && ReadsFrom(s.sent, |run.sent|)
    requires Answers(run.srv, Read(LinksOf(pid))) ==> DiffOn(run.srv, pid, links).Failure?
    ensures NamesKept(run.srv, s.srv, pid)
    ensures DeletesOnly(s.sent, |run.sent|, pid, StaleOn(run.srv, pid, links))
    ensures Answers(run.srv, Read(LinksOf(pid))) ==> StaleOn(run.srv, pid, links) == {}
  {
    NamesSame(run.srv, s.srv, pid);
  }

  lemma NamesSame(s1: Server, s2: Server, pid: string)
    requires s1.nodes == s2.nodes
    ensures NamesKept(s1, s2, pid)
  {
    forall x | x in NodesIn(s1, pid)
      ensures exists y :: y in NodesIn(s2, pid) && y.name == x.name && y.nodeId == x.nodeId
    {
      assert x in NodesIn(s2, pid);
    }
  }

  /** Every pending entry is the index entry of its key. */
  ghost predicate FromIndex(pending: map<LinkKey, LinkState>, live: seq<Link>) {
    forall k :: k in pending ==> k in Index(live) && pending[k] == Index(live)[k]
  }

  lemma PendingFromIndex(live: seq<Link>, ws: seq<Wanted>)
    ensures FromIndex(MatchAll(Diff(Index(live), map[], []), ws).pending, live)
  {
    PendingAfterMatch(Diff(Index(live), map[], []), ws);
  }

  /** Every stale id is in the deletion order, and is that of a live
      two-ended link. */
  lemma StaleIdsListed(pending: map<LinkKey, LinkState>, live: seq<Link>, order: seq<LinkKey>, id: string)
    returns (i: int)
    requires FromIndex(pending, live)
    requires forall k :: k in pending.Keys <==> k in order
    requires id in StaleSet(pending)
    ensures 0 <= i < |order| && StaleIds(pending, order)[i] == id
    ensures exists l :: l in live && l.linkId == id && TwoEnded(l)
  {
    var k :| k in pending && pending[k].linkId == id;
    i :| 0 <= i < |order| && order[i] == k;
    IndexFromLive(live);
    var j :| 0 <= j < |live| && TwoEnded(live[j]) && KeyOf(live[j]) == k && Index(live)[k] == StateOf(live[j]);
    assert live[j] in live && live[j].linkId == id;
  }

  /** Links whose ids are not stale are neither deleted nor lost while
      links are created. */
  lemma StaleThrough(live: seq<Link>, cleaned: seq<Link>, created: seq<Link>,
                     pending: map<LinkKey, LinkState>, order: seq<LinkKey>)
    requires forall k :: k in pending.Keys <==> k in order
    requires forall l :: l in live && l.linkId !in StaleIds(pending, order) ==> l in cleaned
    requires forall l :: l in cleaned ==> l in created
    ensures forall l :: l in live && l.linkId !in StaleSet(pending) ==> l in created
  {
    var stale := StaleIds(pending, order);
    forall i | 0 <= i < |stale|
      ensures stale[i] in StaleSet(pending)
    {
      assert pending[order[i]].linkId in StaleSet(pending);
    }
  }

  /** The link phase's trace: reads, then deletes of stale ids only, then
      no delete at all. */
  lemma TraceThrough(before: seq<Request>, matched: seq<Request>, cleaned: seq<Request>, after: seq<Request>,
                     pid: string, pending: map<LinkKey, LinkState>, order: seq<LinkKey>)
    requires forall k :: k in pending.Keys <==> k in order
    requires Extends(matched, before) && ReadsFrom(matched, |before|)
    requires Extends(cleaned, matched)
    requires DeletesOnly(cleaned, |matched|, pid, Listed(StaleIds(pending, order)))
    requires Extends(after, cleaned) && NoDeletesFrom(after, |cleaned|)
    ensures Extends(after, before)
    ensures DeletesOnly(after, |before|, pid, StaleSet(pending))
  {
    ExtendsTrans(cleaned, matched, before);
    ExtendsTrans(after, cleaned, before);
    var stale := StaleIds(pending, order);
    forall i | |before| <= i < |matched|
      ensures after[i].verb == GET
    {
      assert after[i] == after[..|matched|][i];
    }
    forall i | |matched| <= i < |after| && after[i].verb == DELETE
      ensures after[i].path.LinkAt? && after[i].path.pid == pid && after[i].path.id in StaleSet(pending)
    {
      assert i < |cleaned| && after[i] == cleaned[i] by {
        assert after[i] == after[..|cleaned|][i];
      }
      var j :| 0 <= j < |stale| && stale[j] == after[i].path.id;
      assert pending[order[j]].linkId in StaleSet(pending);
    }
  }

  /** Each stale link that exists and whose fetch the server answers gets
      its DELETE during the delete loop, which later phases keep in the
      trace. */
  lemma StaleDeletesSent(m: Run, pid: string, pending: map<LinkKey, LinkState>, order: seq<LinkKey>,
                         after: seq<Request>, n: nat)
    requires FromIndex(pending, LinksIn(m.srv, pid))
    requires forall k :: k in pending.Keys <==> k in order
    requires Extends(after, DeleteStale(m, pid, StaleIds(pending, order)).sent) && n <= |m.sent|
    ensures forall id :: id in StaleSet(pending) && Answers(m.srv, Read(LinkAt(pid, id))) ==>
              SentSince(after, n, DeleteOf(pid, id))
  {
    var stale := StaleIds(pending, order);
    var cleaned := DeleteStale(m, pid, stale);
    forall id | id in StaleSet(pending) && Answers(m.srv, Read(LinkAt(pid, id)))
      ensures SentSince(after, n, DeleteOf(pid, id))
    {
      var i := StaleIdsListed(pending, LinksIn(m.srv, pid), order, id);
      StaleDeleteSent(m, pid, stale, i);
      SentSinceKept(after, cleaned.sent, |m.sent|, DeleteOf(pid, id));
      var j :| |m.sent| <= j < |after| && after[j] == DeleteOf(pid, id);
      assert n <= j;
    }
  }

  /** A link kept through the delete and create loops is, after the resume
      loop, itself or itself resumed. */
  lemma ResumedSurvive(live: seq<Link>, kept: seq<Link>, final: seq<Link>, ids: seq<string>, stale: set<string>)
    requires forall l :: l in live && l.linkId !in stale ==> l in kept
    requires OnlyResumed(kept, final, ids)
    ensures forall l :: l in live && l.linkId !in stale ==> l in final || l.(suspend := false) in final
  {
    forall l | l in live && l.linkId !in stale
      ensures l in final || l.(suspend := false) in final
    {
      var i :| 0 <= i < |kept| && kept[i] == l;
      assert final[i] in final;
    }
  }

  /** When the resume loop succeeds, every listed link is active. */
  lemma ResumeAllActivatesAll(run: Run, pid: string, keep: seq<string>)
    requires ResumeAll(run, pid, keep).result.Success?
    ensures forall l :: l in LinksIn(ResumeAll(run, pid, keep).run.srv, pid) && l.linkId in keep ==> !l.suspend
  {
    forall l | l in LinksIn(ResumeAll(run, pid, keep).run.srv, pid) && l.linkId in keep
      ensures !l.suspend
    {
      var j :| 0 <= j < |keep| && keep[j] == l.linkId;
      ResumeAllActivates(run, pid, keep, j);
    }
  }

  /** A live link is stale only when it is two-ended and its key is still
      pending, given that link ids are unique. */
  lemma NotStale(live: seq<Link>, pending: map<LinkKey, LinkState>, l: Link)
    requires DistinctIds(live) && FromIndex(pending, live) && l in live
    requires TwoEnded(l) ==> KeyOf(l) !in pending
    ensures l.linkId !in StaleSet(pending)
  {
    IndexFromLive(live);
    forall k | k in pending
      ensures pending[k].linkId != l.linkId
    {
      var q :| 0 <= q < |live| && TwoEnded(live[q]) && KeyOf(live[q]) == k && Index(live)[k] == StateOf(live[q]);
      assert live[q] != l;
    }
  }

  /** Links that do not join exactly two node ports are never stale: the
      link phase neither deletes nor loses them. */
  lemma OddLinksNotStale(srv: Server, pid: string, links: seq<NetworkLink>)
    requires DistinctIds(LinksIn(srv, pid))
    ensures forall l :: l in LinksIn(srv, pid) && !TwoEnded(l) ==> l.linkId !in StaleOn(srv, pid, links)
  {
    if DiffOn(srv, pid, links).Success? {
      var live := LinksIn(srv, pid);
      PendingFromIndex(live, Wants(Lookup(srv, pid), links).value);
      forall l | l in live && !TwoEnded(l)
        ensures l.linkId !in StaleOn(srv, pid, links)
      {
        NotStale(live, DiffOn(srv, pid, links).value.pending, l);
      }
    }
  }

  /** A two-ended link that survives to the resume loop, and is listed
      for it when suspended, ends up active. */
  lemma ActiveAfterResume(kept: seq<Link>, final: seq<Link>, ids: seq<string>, m: Link)
    requires m in kept && TwoEnded(m) && (m.suspend ==> m.linkId in ids)
    requires OnlyResumed(kept, final, ids)
    requires forall x :: x in final && x.linkId in ids ==> !x.suspend
    ensures exists x :: x in final && TwoEnded(x) && KeyOf(x) == KeyOf(m) && !x.suspend
  {
    var q :| 0 <= q < |kept| && kept[q] == m;
    assert final[q] in final;
  }

  /** One desired link is active after a successful link phase. */
  lemma DesiredActiveOne(live: seq<Link>, ws: seq<Wanted>, kept: seq<Link>, final: seq<Link>, ids: seq<string>, i: int)
    requires DistinctIds(live) && Prepared(live, ws, kept, ids) && 0 <= i < |ws|
    requires OnlyResumed(kept, final, ids)
    requires forall x :: x in final && x.linkId in ids ==> !x.suspend
    ensures Active(final, ws[i].key)
  {
    var d0 := Diff(Index(live), map[], []);
    var d := MatchAll(d0, ws);
    var key := ws[i].key;
    DesiredCovered(d0, ws, i);
    if key in d.create {
      var id :| id in ids && LinkedAs(kept, id, key);
      var m :| m in kept && m.linkId == id && TwoEnded(m) && KeyOf(m) == key;
      ActiveAfterResume(kept, final, ids, m);
    } else {
      var k :| k in d0.pending && (k == key || k == Swap(key)) && k !in d.pending
               && (d0.pending[k].suspend ==> d0.pending[k].linkId in d.keep);
      PendingFromIndex(live, ws);
      MatchedActive(live, d.pending, d.keep, kept, final, ids, k);
    }
  }

  /** A live link matched under key `k`, and listed for resuming when it
      was suspended, is active once the resume loop succeeds. */
  lemma MatchedActive(live: seq<Link>, pending: map<LinkKey, LinkState>, keep: seq<string>,
                      kept: seq<Link>, final: seq<Link>, ids: seq<string>, k: LinkKey)
    requires DistinctIds(live) && FromIndex(pending, live)
    requires k in Index(live) && k !in pending && (Index(live)[k].suspend ==> Index(live)[k].linkId in keep)
    requires forall l :: l in live && l.linkId !in StaleSet(pending) ==> l in kept
    requires Extends(ids, keep)
    requires OnlyResumed(kept, final, ids)
    requires forall x :: x in final && x.linkId in ids ==> !x.suspend
    ensures exists x :: x in final && TwoEnded(x) && KeyOf(x) == k && !x.suspend
  {
    IndexFromLive(live);
    var p :| 0 <= p < |live| && TwoEnded(live[p]) && KeyOf(live[p]) == k && Index(live)[k] == StateOf(live[p]);
    var l := live[p];
    NotStale(live, pending, l);
    assert l in kept;
    assert l.suspend == Index(live)[k].suspend && l.linkId == Index(live)[k].linkId;
    if l.suspend {
      ExtendsHolds(ids, keep, l.linkId);
    }
    ActiveAfterResume(kept, final, ids, l);
  }

  lemma ExtendsHolds<T>(s: seq<T>, p: seq<T>, x: T)
    requires Extends(s, p) && x in p
    ensures x in s
  {
    var j :| 0 <= j < |p| && p[j] == x;
    assert s[j] == s[..|p|][j];
  }

  /** Every desired link is active after a successful link phase. */
  lemma DesiredActive(live: seq<Link>, ws: seq<Wanted>, kept: seq<Link>, final: seq<Link>, ids: seq<string>)
    requires DistinctIds(live) && Prepared(live, ws, kept, ids)
    requires OnlyResumed(kept, final, ids)
    requires forall x :: x in final && x.linkId in ids ==> !x.suspend
    ensures forall i :: 0 <= i < |ws| ==> Active(final, ws[i].key)
  {
    forall i | 0 <= i < |ws|
      ensures Active(final, ws[i].key)
    {
      DesiredActiveOne(live, ws, kept, final, ids, i);
    }
  }

}

=== FILE: nodes.dfy ===
/** pkg/gns3/node.go: node lookup within a project, creation (plain and from
    a template), and start/stop of the resolved node. */
module Nodes {
  import opened Wrappers
  import opened Records
  import opened Remote
  import opened Json
  import Text
  import Resolve
  import Templates

  function NodeName(n: Node): string { n.name }

  /** GET v2/projects/<pid>/nodes/<id>. */
  function Fetch(s: Server, pid: string, id: string): (r: Result<Node, Error>)
    ensures r.Success? <==>
              Answers(s, Read(NodeAt(pid, id))) && exists i :: 0 <= i < |NodesIn(s, pid)| && NodesIn(s, pid)[i].nodeId == id
    ensures r.Success? ==> r.value in NodesIn(s, pid) && r.value.nodeId == id
  {
    if !Answers(s, Read(NodeAt(pid, id))) then Failure(Refusal)
    else match Resolve.First(NodesIn(s, pid), (n: Node) => n.nodeId == id)
      case None => Failure(Missing)
      case Some(n) => Success(n)
  }

  /** GET v2/projects/<pid>/nodes. */
  function List(s: Server, pid: string): (r: Result<seq<Node>, Error>)
    ensures r.Success? <==> Answers(s, Read(NodesOf(pid)))
    ensures r.Success? ==> r.value == NodesIn(s, pid)
  {
    if Answers(s, Read(NodesOf(pid))) then Success(NodesIn(s, pid)) else Failure(Refusal)
  }

  /** Nodes.Get: a UUID-shaped id is fetched directly first; otherwise, or
      when that fetch fails, the first listed node named `id` is returned. */
  function Get(s: Server, pid: string, id: string): (st: Step<Node>)
    ensures st.srv == s
    ensures Text.IsUuid(id) && Fetch(s, pid, id).Success? ==>
              st.result == Fetch(s, pid, id) && st.sent == [Read(NodeAt(pid, id))]
    ensures !(Text.IsUuid(id) && Fetch(s, pid, id).Success?) ==>
              st.sent == (if Text.IsUuid(id) then [Read(NodeAt(pid, id))] else []) + [Read(NodesOf(pid))]
    ensures !(Text.IsUuid(id) && Fetch(s, pid, id).Success?) && !Answers(s, Read(NodesOf(pid))) ==>
              st.result == Failure(Refusal)
    ensures !(Text.IsUuid(id) && Fetch(s, pid, id).Success?) && Answers(s, Read(NodesOf(pid))) ==>
              && (st.result.Success? <==> exists i :: 0 <= i < |NodesIn(s, pid)| && NodesIn(s, pid)[i].name == id)
              && (st.result.Success? ==> Resolve.IsFirstNamed(NodesIn(s, pid), NodeName, id, st.result.value))
              && (st.result.Failure? ==> st.result.error == NotFound)
    ensures st.result.Success? ==> st.result.value in NodesIn(s, pid)
    ensures Reads(st.sent)
  {
    var direct := if Text.IsUuid(id) then Some(Fetch(s, pid, id)) else None;
    var r := Resolve.ByIdOrName(id, direct, List(s, pid), NodeName);
    Step(s, LookupSent(NodeAt(pid, id), NodesOf(pid), Text.IsUuid(id), direct.Some? && direct.value.Success?), r)
  }

  /** The record the server keeps for a node it creates: the posted fields
      under a fresh id, not yet running. */
  function Created(s: Server, n: Node): (c: Node)
    ensures c.nodeId == NextId(s) && c.status == "stopped"
    ensures c.(nodeId := n.nodeId, status := n.status) == n
  {
    n.(nodeId := NextId(s), status := "stopped")
  }

  /** Nodes.Create: POST v2/projects/<pid>/nodes; the server's record, or the error. */
  function Create(s: Server, pid: string, n: Node): (st: Step<Node>)
    ensures st.sent == [Request(POST, NodesOf(pid), NodeBody(n))]
    ensures st.result.Failure? <==> !Answers(s, st.sent[0])
    ensures st.result.Failure? ==> st.srv == s && st.result.error == Refusal
    ensures st.result.Success? ==>
              && st.result.value == Created(s, n)
              && NodesIn(st.srv, pid) == NodesIn(s, pid) + [st.result.value]
              && forall q :: q != pid ==> NodesIn(st.srv, q) == NodesIn(s, q)
    ensures st.srv.projects == s.projects && st.srv.links == s.links && st.srv.templates == s.templates
  {
    var req := Request(POST, NodesOf(pid), NodeBody(n));
    if !Answers(s, req) then Step(s, [req], Failure(Refusal))
    else
      var created := Created(s, n);
      Step(Minted(s).(nodes := s.nodes[pid := NodesIn(s, pid) + [created]]), [req], Success(created))
  }

  /** The emulator settings CreateUsingTemplate copies into the node's
      properties: the encoded Qemu record of a "qemu" template, the Docker
      record of a "docker" one, nothing otherwise or when the record is nil. */
  function Settings(t: Template): (m: Object)
    ensures t.templateType == TemplateTypeQemu && t.qemu.Some? ==> m == Templates.QemuObject(t.qemu.value)
    ensures t.templateType == TemplateTypeDocker && t.docker.Some? ==> m == Templates.DockerObject(t.docker.value)
    ensures !(t.templateType == TemplateTypeQemu && t.qemu.Some?) && !(t.templateType == TemplateTypeDocker && t.docker.Some?) ==>
              m == map[]
  {
    Templates.TypeData(t)
  }

  /** The node CreateUsingTemplate posts: a copy of `n` whose type and symbol
      come from the template and whose properties gain the template's
      settings (json.Unmarshal into a map adds and overwrites entries). */
  function Prepared(n: Node, t: Template): (r: Node)
    ensures r.nodeType == t.templateType && r.symbol == t.symbol
    ensures r.name == n.name && r.computeId == n.computeId && r.x == n.x && r.y == n.y && r.z == n.z
    ensures r.nodeId == n.nodeId && r.ports == n.ports && r.status == n.status
    ensures forall k :: k in r.properties <==> k in n.properties || k in Settings(t)
    ensures forall k :: k in Settings(t) ==> r.properties[k] == Settings(t)[k]
    ensures forall k :: k in n.properties && k !in Settings(t) ==> r.properties[k] == n.properties[k]
  {
    n.(nodeType := t.templateType, symbol := t.symbol, properties := n.properties + Settings(t))
  }

  /** Nodes.CreateUsingTemplate. */
  function CreateUsingTemplate(s: Server, pid: string, n: Node, t: Template): (st: Step<Node>)
    ensures st.sent == [Request(POST, NodesOf(pid), NodeBody(Prepared(n, t)))]
    ensures st.result.Failure? <==> !Answers(s, st.sent[0])
    ensures st.result.Success? ==>
              && st.result.value.nodeType == t.templateType && st.result.value.symbol == t.symbol
              && st.result.value.name == n.name && st.result.value.computeId == n.computeId
              && st.result.value.x == n.x && st.result.value.y == n.y && st.result.value.z == n.z
              && NodesIn(st.srv, pid) == NodesIn(s, pid) + [st.result.value]
  {
    Create(s, pid, Prepared(n, t))
  }

  /** The nodes of a project with the node `id` put into `status`. */
  function WithStatus(ns: seq<Node>, id: string, status: string): (r: seq<Node>)
    ensures |r| == |ns|
    ensures forall i :: 0 <= i < |ns| ==>
              r[i] == if ns[i].nodeId == id then ns[i].(status := status) else ns[i]
  {
    if |ns| == 0 then []
    else [if ns[0].nodeId == id then ns[0].(status := status) else ns[0]] + WithStatus(ns[1..], id, status)
  }

  /** A POST to a node action path (start or stop) on an already resolved node. */
  function Act(s: Server, pid: string, path: Path, status: string): (r: Step<()>)
    requires path.NodeStart? || path.NodeStop?
    requires path.pid == pid
    ensures r.sent == [Request(POST, path, NoBody)]
    ensures r.result.Success? <==> Answers(s, r.sent[0])
    ensures r.result.Success? ==> r.srv == s.(nodes := s.nodes[pid := WithStatus(NodesIn(s, pid), path.id, status)])
    ensures r.result.Failure? ==> r.srv == s
  {
    var req := Request(POST, path, NoBody);
    if Answers(s, req) then Step(s.(nodes := s.nodes[pid := WithStatus(NodesIn(s, pid), path.id, status)]), [req], Success(()))
    else Step(s, [req], Failure(Refusal))
  }

  /** Nodes.Start: resolve, then POST .../start on the resolved node id. */
  function Start(s: Server, pid: string, id: string): (r: Step<()>)
    ensures Get(s, pid, id).result.Failure? ==>
              r.srv == s && r.sent == Get(s, pid, id).sent && r.result == Failure(Get(s, pid, id).result.error)
    ensures Get(s, pid, id).result.Success? ==>
              var nid := Get(s, pid, id).result.value.nodeId;
              && r.sent == Get(s, pid, id).sent + [Request(POST, NodeStart(pid, nid), NoBody)]
              && (r.result.Success? <==> Answers(s, Request(POST, NodeStart(pid, nid), NoBody)))
              && (r.result.Success? ==> NodesIn(r.srv, pid) == WithStatus(NodesIn(s, pid), nid, "started"))
              && (r.result.Failure? ==> r.srv == s)
    ensures r.srv.links == s.links && r.srv.projects == s.projects && r.srv.refused == s.refused
  {
    var found := Get(s, pid, id);
    match found.result
    case Failure(e) => Step(s, found.sent, Failure(e))
    case Success(n) =>
      var act := Act(s, pid, NodeStart(pid, n.nodeId), "started");
      Step(act.srv, found.sent + act.sent, act.result)
  }

  /** Nodes.Stop: resolve, then POST .../stop on the resolved node id. */
  function Stop(s: Server, pid: string, id: string): (r: Step<()>)
    ensures Get(s, pid, id).result.Failure? ==>
              r.srv == s && r.sent == Get(s, pid, id).sent && r.result == Failure(Get(s, pid, id).result.error)
    ensures Get(s, pid, id).result.Success? ==>
              var nid := Get(s, pid, id).result.value.nodeId;
              && r.sent == Get(s, pid, id).sent + [Request(POST, NodeStop(pid, nid), NoBody)]
              && (r.result.Success? <==> Answers(s, Request(POST, NodeStop(pid, nid), NoBody)))
              && (r.result.Success? ==> NodesIn(r.srv, pid) == WithStatus(NodesIn(s, pid), nid, "stopped"))
              && (r.result.Failure? ==> r.srv == s)
    ensures r.srv.links == s.links && r.srv.projects == s.projects && r.srv.refused == s.refused
  {
    var found := Get(s, pid, id);
    match found.result
    case Failure(e) => Step(s, found.sent, Failure(e))
    case Success(n) =>
      var act := Act(s, pid, NodeStop(pid, n.nodeId), "stopped");
      Step(act.srv, found.sent + act.sent, act.result)
  }

  /** Starting a node twice leaves the same node states as starting it once. */
  lemma {:induction false} WithStatusIdempotent(ns: seq<Node>, id: string, status: string)
    ensures WithStatus(WithStatus(ns, id, status), id, status) == WithStatus(ns, id, status)
  {
    var once := WithStatus(ns, id, status);
    var twice := WithStatus(once, id, status);
    assert |twice| == |once|;
    forall i | 0 <= i < |ns|
      ensures twice[i] == once[i]
    {
    }
  }
}

=== FILE: paths.dfy ===
/** Go's package path, the part the load command uses: Clean and Dir on
    slash-separated paths. A path is read as its '/'-separated elements;
    Clean drops empty and "." elements, lets ".." remove the element
    before it, and joins what is left. */
module Paths {
  import opened Wrappers
  import Text

  /** The '/'-separated elements of a path, empty ones included: a path
      with n slashes has n + 1 elements. */
  function Elements(p: string): (es: seq<string>)
    ensures |es| >= 1
    ensures forall i :: 0 <= i < |es| ==> '/' !in es[i]
    decreases |p|
  {
    match Text.IndexOf(p, '/')
    case None => [p]
    case Some(i) => [p[..i]] + Elements(p[i + 1..])
  }

  /** The elements joined back with '/'. */
  function Join(es: seq<string>): string
  {
    if |es| == 0 then ""
    else if |es| == 1 then es[0]
    else es[0] + "/" + Join(es[1..])
  }

  /** Splitting and joining gives the path back. */
  lemma {:induction false} JoinElements(p: string)
    ensures Join(Elements(p)) == p
    decreases |p|
  {
    match Text.IndexOf(p, '/')
    case None =>
    case Some(i) =>
      JoinElements(p[i + 1..]);
      var es := Elements(p[i + 1..]);
      assert Elements(p)[1..] == es;
      assert p == p[..i] + "/" + p[i + 1..];
  }

  /** The elements of `a + "/" + b` are those of `a`, then those of `b`. */
  lemma {:induction false} ElementsConcat(a: string, b: string)
    ensures Elements(a + "/" + b) == Elements(a) + Elements(b)
    decreases |a|
  {
    var p := a + "/" + b;
    match Text.IndexOf(a, '/')
    case None =>
      assert p[|a|] == '/' && p[..|a|] == a;
      Text.IndexOfAt(p, '/', |a|);
      assert p[|a| + 1..] == b;
    case Some(i) =>
      assert p[i] == '/' && p[..i] == a[..i];
      Text.IndexOfAt(p, '/', i);
      assert p[i + 1..] == a[i + 1..] + "/" + b;
      ElementsConcat(a[i + 1..], b);
  }

  /** Joining elements without '/' and splitting again gives them back. */
  lemma {:induction false} ElementsJoin(es: seq<string>)
    requires |es| >= 1
    requires forall i :: 0 <= i < |es| ==> '/' !in es[i]
    ensures Elements(Join(es)) == es
    decreases |es|
  {
    if |es| == 1 {
      assert Elements(es[0]) == [es[0]];
    } else {
      ElementsJoin(es[1..]);
      ElementsConcat(es[0], Join(es[1..]));
      assert Elements(es[0]) == [es[0]];
    }
  }

  /** One element of Clean's scan: "" and "." are dropped; ".." removes the
      last kept name, and when there is none it is dropped from a rooted
      path and kept in a relative one; a name is kept. */
  function Step(kept: seq<string>, e: string, rooted: bool): seq<string>
  {
    if e == "" || e == "." then kept
    else if e == ".." then
      if |kept| > 0 && kept[|kept| - 1] != ".." then kept[..|kept| - 1]
      else if rooted then kept
      else kept + [".."]
    else kept + [e]
  }

  /** Clean's scan over the elements, left to right. */
  function Walk(kept: seq<string>, es: seq<string>, rooted: bool): seq<string>
    decreases |es|
  {
    if |es| == 0 then kept else Walk(Step(kept, es[0], rooted), es[1..], rooted)
  }

  /** The kept elements of a clean path: no empty or "." element, and
      ".." only at the front of a relative path. */
  predicate Tidy(kept: seq<string>, rooted: bool)
  {
    && (forall i :: 0 <= i < |kept| ==> kept[i] != "" && kept[i] != "." && '/' !in kept[i])
    && (forall i :: 0 <= i < |kept| && kept[i] == ".." ==> !rooted && forall j :: 0 <= j < i ==> kept[j] == "..")
  }

  /** The scan keeps its kept elements tidy. */
  lemma {:induction false} WalkTidy(kept: seq<string>, es: seq<string>, rooted: bool)
    requires Tidy(kept, rooted)
    requires forall i :: 0 <= i < |es| ==> '/' !in es[i]
    ensures Tidy(Walk(kept, es, rooted), rooted)
    decreases |es|
  {
    if |es| > 0 {
      var next := Step(kept, es[0], rooted);
      assert Tidy(next, rooted) by {
        if es[0] == ".." && |kept| > 0 && kept[|kept| - 1] == ".." {
          assert forall j :: 0 <= j < |kept| ==> kept[j] == "..";
        }
      }
      WalkTidy(next, es[1..], rooted);
    }
  }

  /** A scan over tidy elements appended to tidy kept ones keeps them all. */
  lemma {:induction false} WalkTidyIsIdentity(kept: seq<string>, es: seq<string>, rooted: bool)
    requires Tidy(kept + es, rooted)
    ensures Walk(kept, es, rooted) == kept + es
    decreases |es|
  {
    if |es| > 0 {
      assert (kept + es)[|kept|] == es[0];
      if es[0] == ".." {
        assert forall j :: 0 <= j < |kept| ==> kept[j] == (kept + es)[j];
      }
      assert Step(kept, es[0], rooted) == kept + [es[0]];
      assert kept + [es[0]] + es[1..] == kept + es;
      WalkTidyIsIdentity(kept + [es[0]], es[1..], rooted);
    }
  }

  /** A scan over two lists is a scan over the first, then the second. */
  lemma {:induction false} WalkAppend(kept: seq<string>, a: seq<string>, b: seq<string>, rooted: bool)
    ensures Walk(kept, a + b, rooted) == Walk(Walk(kept, a, rooted), b, rooted)
    decreases |a|
  {
    if |a| > 0 {
      assert (a + b)[0] == a[0] && (a + b)[1..] == a[1..] + b;
      WalkAppend(Step(kept, a[0], rooted), a[1..], b, rooted);
    } else {
      assert a + b == b;
    }
  }

  /** The path a tidy list of kept elements spells. */
  function Spell(kept: seq<string>, rooted: bool): string
  {
    if rooted then "/" + Join(kept)
    else if |kept| == 0 then "."
    else Join(kept)
  }

  /** path.Clean: the shortest path naming the same file by lexical
      processing alone. "" becomes "."; a rooted path stays rooted. */
  function Clean(p: string): (r: string)
    ensures r != ""
    ensures Text.HasPrefix(r, "/") <==> Text.HasPrefix(p, "/")
  {
    if p == "" then
      assert "."[..1][0] == '.';
      "."
    else
      var rooted := p[0] == '/';
      assert rooted <==> Text.HasPrefix(p, "/") by {
        assert p[..1] == [p[0]];
      }
      var kept := Walk([], Elements(p), rooted);
      var r := Spell(kept, rooted);
      assert !rooted ==> r[0] != '/' by {
        if !rooted && |kept| > 0 {
          WalkTidy([], Elements(p), rooted);
          JoinStart(kept);
        }
      }
      assert r[..1] == [r[0]];
      r
  }

  /** A join of elements that are neither empty nor contain '/' does not
      start with '/'. */
  lemma JoinStart(kept: seq<string>)
    requires |kept| > 0 && kept[0] != "" && '/' !in kept[0]
    ensures Join(kept) != "" && Join(kept)[0] == kept[0][0]
  {
    if |kept| > 1 {
      assert Join(kept) == kept[0] + ("/" + Join(kept[1..]));
    }
  }

  /** The elements of a spelled tidy list scan back to the list. */
  lemma SpellRescans(kept: seq<string>, rooted: bool)
    requires Tidy(kept, rooted)
    ensures Clean(Spell(kept, rooted)) == Spell(kept, rooted)
  {
    if rooted && |kept| == 0 {
      RootRescans();
    } else if rooted {
      RootedRescans(kept);
    } else if |kept| == 0 {
      assert Elements(".") == ["."];
    } else {
      RelativeRescans(kept);
    }
  }

  lemma RootRescans()
    ensures Clean("/") == "/"
  {
    ElementsConcat("", "");
    assert "" + "/" + "" == "/";
    assert Elements("") == [""];
    assert Walk([], ["", ""], true) == [];
  }

  /** Clean on a nonempty path, spelled out. */
  lemma CleanUnfold(p: string)
    requires p != ""
    ensures Clean(p) == Spell(Walk([], Elements(p), p[0] == '/'), p[0] == '/')
  {
  }

  lemma RootedRescans(kept: seq<string>)
    requires Tidy(kept, true) && |kept| > 0
    ensures Clean("/" + Join(kept)) == "/" + Join(kept)
  {
    var s := "/" + Join(kept);
    assert s == "" + "/" + Join(kept);
    ElementsConcat("", Join(kept));
    ElementsJoin(kept);
    assert Elements("") == [""];
    var kept' := Walk([], Elements(s), true);
    assert kept' == Walk([], kept, true) by {
      assert Elements(s) == [""] + kept;
      assert ([""] + kept)[1..] == kept;
    }
    WalkTidyIsIdentity([], kept, true);
    assert [] + kept == kept;
    CleanUnfold(s);
  }

  lemma RelativeRescans(kept: seq<string>)
    requires Tidy(kept, false) && |kept| > 0
    ensures Clean(Join(kept)) == Join(kept)
  {
    ElementsJoin(kept);
    JoinStart(kept);
    WalkTidyIsIdentity([], kept, false);
    assert [] + kept == kept;
    CleanUnfold(Join(kept));
  }

  /** Cleaning a clean path changes nothing. */
  lemma CleanIsIdempotent(p: string)
    ensures Clean(Clean(p)) == Clean(p)
  {
    if p == "" {
      assert Elements(".") == ["."];
    } else {
      var rooted := p[0] == '/';
      WalkTidy([], Elements(p), rooted);
      SpellRescans(Walk([], Elements(p), rooted), rooted);
    }
  }

  /** path.Dir: everything up to the last '/', cleaned; "." when there is
      no '/'. The result is itself clean. */
  function Dir(p: string): (r: string)
    ensures '/' !in p ==> r == "."
    ensures Clean(r) == r
  {
    match Text.LastIndexOf(p, '/')
    case None =>
      CleanIsIdempotent("");
      Clean("")
    case Some(i) =>
      CleanIsIdempotent(p[..i + 1]);
      Clean(p[..i + 1])
  }

  /** A trailing '/' does not change what a path cleans to. */
  lemma CleanTrailingSlash(d: string)
    requires d != ""
    ensures Clean(d + "/") == Clean(d)
  {
    ElementsConcat(d, "");
    assert Elements("") == [""];
    assert d + "/" == d + "/" + "";
    var rooted := d[0] == '/';
    assert (d + "/")[0] == d[0];
    WalkAppend([], Elements(d), [""], rooted);
    var kept := Walk([], Elements(d), rooted);
    assert Walk(kept, [""], rooted) == Walk(kept, [], rooted) == kept;
    assert Walk([], Elements(d + "/"), rooted) == kept;
    CleanUnfold(d);
    CleanUnfold(d + "/");
  }

  /** Dir undoes appending a file name to a clean directory. */
  lemma DirOfJoin(d: string, name: string)
    requires Clean(d) == d && '/' !in name
    ensures Dir(d + "/" + name) == d
  {
    var p := d + "/" + name;
    assert p[|d|] == '/';
    assert p[|d| + 1..] == name;
    Text.LastIndexOfAt(p, '/', |d|);
    assert p[..|d| + 1] == d + "/";
    CleanTrailingSlash(d);
  }
}

=== FILE: projects.dfy ===
/** pkg/gns3/projects.go: project lookup by id or name, creation, and the
    mutators that resolve first and act on the resolved project id. */
module Projects {
  import opened Wrappers
  import opened Records
  import opened Remote
  import Text
  import Resolve

  function ProjectName(p: Project): string { p.name }

  /** GET v2/projects/<id>. */
  function Fetch(s: Server, id: string): (r: Result<Project, Error>)
    ensures r.Success? <==> Answers(s, Read(ProjectAt(id))) && exists i :: 0 <= i < |s.projects| && s.projects[i].projectId == id
    ensures r.Success? ==> r.value in s.projects && r.value.projectId == id
  {
    if !Answers(s, Read(ProjectAt(id))) then Failure(Refusal)
    else match Resolve.First(s.projects, (p: Project) => p.projectId == id)
      case None => Failure(Missing)
      case Some(p) => Success(p)
  }

  /** GET v2/projects. */
  function List(s: Server): (r: Result<seq<Project>, Error>)
    ensures r.Success? <==> Answers(s, Read(ProjectsAll))
    ensures r.Success? ==> r.value == s.projects
  {
    if Answers(s, Read(ProjectsAll)) then Success(s.projects) else Failure(Refusal)
  }

  /** Projects.Get: a UUID-shaped id is fetched directly first; otherwise, or
      when that fetch fails, the first listed project named `id` is returned. */
  function Get(s: Server, id: string): (st: Step<Project>)
    ensures st.srv == s
    ensures Text.IsUuid(id) && Fetch(s, id).Success? ==>
              st.result == Fetch(s, id) && st.sent == [Read(ProjectAt(id))]
    ensures !(Text.IsUuid(id) && Fetch(s, id).Success?) ==>
              st.sent == (if Text.IsUuid(id) then [Read(ProjectAt(id))] else []) + [Read(ProjectsAll)]
    ensures !(Text.IsUuid(id) && Fetch(s, id).Success?) && !Answers(s, Read(ProjectsAll)) ==>
              st.result == Failure(Refusal)
    ensures !(Text.IsUuid(id) && Fetch(s, id).Success?) && Answers(s, Read(ProjectsAll)) ==>
              && (st.result.Success? <==> exists i :: 0 <= i < |s.projects| && s.projects[i].name == id)
              && (st.result.Success? ==> Resolve.IsFirstNamed(s.projects, ProjectName, id, st.result.value))
              && (st.result.Failure? ==> st.result.error == NotFound)
    ensures st.result.Success? ==> st.result.value in s.projects
  {
    var direct := if Text.IsUuid(id) then Some(Fetch(s, id)) else None;
    var r := Resolve.ByIdOrName(id, direct, List(s), ProjectName);
    Step(s, LookupSent(ProjectAt(id), ProjectsAll, Text.IsUuid(id), direct.Some? && direct.value.Success?), r)
  }

  /** Projects.Create: POST v2/projects; the server's record, or the error. */
  function Create(s: Server, p: Project): (st: Step<Project>)
    ensures st.sent == [Request(POST, ProjectsAll, ProjectBody(p))]
    ensures st.result.Failure? <==> !Answers(s, st.sent[0])
    ensures st.result.Failure? ==> st.srv == s && st.result.error == Refusal
    ensures st.result.Success? ==>
              && st.result.value.name == p.name
              && st.srv.projects == s.projects + [st.result.value]
              && st.srv.nodes == s.nodes && st.srv.links == s.links
  {
    var req := Request(POST, ProjectsAll, ProjectBody(p));
    if !Answers(s, req) then Step(s, [req], Failure(Refusal))
    else
      var created := Project(NextId(s), p.name, "opened");
      Step(Minted(s).(projects := s.projects + [created]), [req], Success(created))
  }

  function WithStatus(ps: seq<Project>, id: string, status: string): (r: seq<Project>)
    ensures |r| == |ps|
    ensures forall i :: 0 <= i < |ps| ==>
              r[i] == if ps[i].projectId == id then ps[i].(status := status) else ps[i]
  {
    if |ps| == 0 then []
    else [if ps[0].projectId == id then ps[0].(status := status) else ps[0]] + WithStatus(ps[1..], id, status)
  }

  function Without(ps: seq<Project>, id: string): (r: seq<Project>)
    ensures forall p :: p in r <==> p in ps && p.projectId != id
  {
    if |ps| == 0 then []
    else (if ps[0].projectId == id then [] else [ps[0]]) + Without(ps[1..], id)
  }

  /** Projects.Delete: resolve, then DELETE the resolved project. */
  function Delete(s: Server, id: string): (r: Reply)
    ensures Get(s, id).result.Failure? ==>
              r.srv == s && r.sent == Get(s, id).sent && r.id == "" && r.err == Some(Get(s, id).result.error)
    ensures Get(s, id).result.Success? ==>
              && r.id == Get(s, id).result.value.projectId
              && r.sent == Get(s, id).sent + [Request(DELETE, ProjectAt(r.id), NoBody)]
              && (r.err.None? <==> Answers(s, Request(DELETE, ProjectAt(r.id), NoBody)))
              && (r.err.None? ==> forall p :: p in r.srv.projects <==> p in s.projects && p.projectId != r.id)
              && (r.err.Some? ==> r.srv == s)
  {
    var found := Get(s, id);
    match found.result
    case Failure(e) => Reply(s, found.sent, "", Some(e))
    case Success(p) =>
      var req := Request(DELETE, ProjectAt(p.projectId), NoBody);
      if !Answers(s, req) then Reply(s, found.sent + [req], p.projectId, Some(Refusal))
      else Reply(s.(projects := Without(s.projects, p.projectId)), found.sent + [req], p.projectId, None)
  }

  /** A POST to a project action path (close or open) on an already resolved project. */
  function Act(s: Server, pid: string, path: Path, status: string): (r: Step<()>)
    requires path == ProjectClose(pid) || path == ProjectOpen(pid)
    ensures r.sent == [Request(POST, path, NoBody)]
    ensures r.result.Success? <==> Answers(s, r.sent[0])
    ensures r.result.Success? ==> r.srv == s.(projects := WithStatus(s.projects, pid, status))
    ensures r.result.Failure? ==> r.srv == s
  {
    var req := Request(POST, path, NoBody);
    if Answers(s, req) then Step(s.(projects := WithStatus(s.projects, pid, status)), [req], Success(()))
    else Step(s, [req], Failure(Refusal))
  }

  /** Projects.Close: resolve, then POST .../close on the resolved id. */
  function Close(s: Server, id: string): (r: Reply)
    ensures Get(s, id).result.Failure? ==>
              r.srv == s && r.sent == Get(s, id).sent && r.id == "" && r.err == Some(Get(s, id).result.error)
    ensures Get(s, id).result.Success? ==>
              && r.id == Get(s, id).result.value.projectId
              && r.sent == Get(s, id).sent + [Request(POST, ProjectClose(r.id), NoBody)]
              && (r.err.None? ==> r.srv.projects == WithStatus(s.projects, r.id, "closed"))
  {
    var found := Get(s, id);
    match found.result
    case Failure(e) => Reply(s, found.sent, "", Some(e))
    case Success(p) =>
      var act := Act(s, p.projectId, ProjectClose(p.projectId), "closed");
      Reply(act.srv, found.sent + act.sent, p.projectId, if act.result.Success? then None else Some(act.result.error))
  }

  /** Projects.Open: resolve, then POST .../open on the resolved id; only the error is returned. */
  function Open(s: Server, id: string): (r: Step<()>)
    ensures Get(s, id).result.Failure? ==>
              r.srv == s && r.sent == Get(s, id).sent && r.result == Failure(Get(s, id).result.error)
    ensures Get(s, id).result.Success? ==>
              && r.sent == Get(s, id).sent + [Request(POST, ProjectOpen(Get(s, id).result.value.projectId), NoBody)]
              && (r.result.Success? ==>
                    r.srv.projects == WithStatus(s.projects, Get(s, id).result.value.projectId, "opened"))
  {
    var found := Get(s, id);
    match found.result
    case Failure(e) => Step(s, found.sent, Failure(e))
    case Success(p) =>
      var act := Act(s, p.projectId, ProjectOpen(p.projectId), "opened");
      Step(act.srv, found.sent + act.sent, act.result)
  }
}

=== FILE: records.dfy ===
/** The records the client exchanges with the server (pkg/gns3), reduced to
    the fields the modelled code reads or writes, and the constants of
    pkg/gns3/const.go. */
module Records {
  import opened Wrappers
  import Json

  const TypeNat := "nat"
  /** Spelled this way in the source; see Load.SymbolFor. */
  const TypeEthernetSwitch := "eithernet_switch"
  const TypeVpcs := "vpcs"
  const TypeRouter := "router"
  const TypeFirewall := "firewall"
  const TypeMultilayerSwitch := "multilayer_switch"

  const CategoryMultilayerSwitch := "multilayer_switch"
  const CategorySwitch := "switch"
  const CategoryGuest := "guest"
  const CategoryRouter := "router"
  const CategoryFirewall := "firewall"

  const SymbolDockerGuest := ":/symbols/classic/docker_guest.svg"
  const SymbolQemuGuest := ":/symbols/classic/qemu_guest.svg"
  const SymbolRouter := ":/symbols/classic/router.svg"
  const SymbolEthernetSwitch := ":/symbols/classic/ethernet_switch.svg"

  /** The switch symbol has the shape of the default symbol path of the
      correctly spelled type name. */
  lemma SwitchSymbolIsDefaultShaped()
    ensures SymbolEthernetSwitch == ":/symbols/classic/" + "ethernet_switch" + ".svg"
  {
  }
  const SymbolMultilayerSwitch := ":/symbols/classic/multilayer_switch.svg"
  const SymbolFirewall := ":/symbols/classic_firewall.svg"
  const SymbolCloud := ":/symbols/classic/cloud.svg"
  const SymbolVpcs := ":/symbols/classic/vpcs_guest.svg"

  const TemplateTypeQemu := "qemu"
  const TemplateTypeIou := "iou"
  const TemplateTypeDynamips := "dynamips"
  const TemplateTypeDocker := "docker"

  datatype Project = Project(projectId: string, name: string, status: string)

  datatype Compute = Compute(computeId: string, name: string)

  datatype Port = Port(adapterNumber: int, portNumber: int, name: string)

  datatype Node = Node(
    nodeId: string,
    name: string,
    nodeType: string,
    computeId: string,
    symbol: string,
    x: int, y: int, z: int,
    properties: Json.Object,
    ports: seq<Port>,
    status: string)

  /** A node value with only the fields the load command fills in. */
  function NewNode(name: string, nodeType: string, computeId: string, symbol: string,
                   x: int, y: int, z: int): Node {
    Node("", name, nodeType, computeId, symbol, x, y, z, map[], [], "")
  }

  datatype NodeRef = NodeRef(nodeId: string, adapterNumber: int, portNumber: int)

  datatype Link = Link(linkId: string, linkType: string, nodes: seq<NodeRef>, projectId: string, suspend: bool)

  /** The zero Link that links.go hands back beside a failed fetch. */
  const ZeroLink := Link("", "", [], "", false)

  datatype TemplateQemu = TemplateQemu(
    options: string,
    kernelCommandLine: string,
    adapterType: string,
    adapters: int,
    bootPriority: string,
    consoleType: string,
    hdaDiskInterface: string,
    ram: int,
    path: string,
    portNameFormat: string,
    biosImage: string,
    hdaDiskImage: string,
    cdromImage: string)

  const ZeroQemu := TemplateQemu("", "", "", 0, "", "", "", 0, "", "", "", "", "")

  datatype TemplateDocker = TemplateDocker(
    image: string,
    usage: string,
    adapters: int,
    startCommand: string,
    environment: string,
    consoleType: string,
    consoleAutoStart: bool,
    consoleHttpPort: int,
    consoleHttpPath: string,
    consoleResolution: string,
    extraHosts: string,
    extraVolumes: seq<string>)

  const ZeroDocker := TemplateDocker("", "", 0, "", "", "", false, 0, "", "", "", [])

  datatype Template = Template(
    builtin: bool,
    category: string,
    computeId: string,
    defaultNameFormat: string,
    firstPortName: string,
    name: string,
    symbol: string,
    templateId: string,
    templateType: string,
    usage: string,
    qemu: Option<TemplateQemu>,
    docker: Option<TemplateDocker>)

  /** The desired network of pkg/gns3/network.go, as the load command
      reads it from its YAML document. */
  datatype VpcsConfig = VpcsConfig(name: string, address: string, netmask: string, gateway: string)

  datatype NetworkNode = NetworkNode(
    name: string,
    nodeType: string,
    template: string,
    computeId: string,
    x: int, y: int, z: int,
    config: Option<VpcsConfig>)

  datatype Endpoint = Endpoint(name: string, adapter: int, port: int)

  datatype NetworkLink = NetworkLink(aEnd: Endpoint, zEnd: Endpoint)

  datatype Network = Network(
    name: string,                 // metadata.name: the project
    appliances: seq<string>,      // appliance references
    nodes: seq<NetworkNode>,
    links: seq<NetworkLink>)
}

=== FILE: remote.dfy ===
/** The GNS3 server as the client sees it (pkg/gns3/gns3.go): an in-memory
    snapshot answering the REST requests the client sends. HTTP transport,
    authentication and timeouts are not modelled; a request either gets the
    server's answer or, when it is in `refused`, an error status. */
module Remote {
  import opened Wrappers
  import opened Records
  import Json
  import Text

  datatype Verb = GET | POST | PUT | DELETE

  /** The REST resources, one constructor per path format in the source. */
  datatype Path =
    | ProjectsAll                          // v2/projects
    | ProjectAt(id: string)                // v2/projects/%s
    | ProjectOpen(id: string)              // v2/projects/%s/open
    | ProjectClose(id: string)             // v2/projects/%s/close
    | NodesOf(pid: string)                 // v2/projects/%s/nodes
    | NodeAt(pid: string, id: string)      // v2/projects/%s/nodes/%s
    | NodeStart(pid: string, id: string)   // v2/projects/%s/nodes/%s/start
    | NodeStop(pid: string, id: string)    // v2/projects/%s/nodes/%s/stop
    | LinksOf(pid: string)                 // v2/projects/%s/links
    | LinkAt(pid: string, id: string)      // v2/projects/%s/links/%s
    | TemplatesAll                         // v2/templates
    | TemplateAt(id: string)               // v2/templates/%s
    | ComputesAll                          // v2/computes
    | ComputeAt(id: string)                // v2/computes/%s

  /** The URL path each resource is sent to. */
  function Url(p: Path): string {
    match p
    case ProjectsAll => "v2/projects"
    case ProjectAt(id) => "v2/projects/" + id
    case ProjectOpen(id) => "v2/projects/" + id + "/open"
    case ProjectClose(id) => "v2/projects/" + id + "/close"
    case NodesOf(pid) => "v2/projects/" + pid + "/nodes"
    case NodeAt(pid, id) => "v2/projects/" + pid + "/nodes/" + id
    case NodeStart(pid, id) => "v2/projects/" + pid + "/nodes/" + id + "/start"
    case NodeStop(pid, id) => "v2/projects/" + pid + "/nodes/" + id + "/stop"
    case LinksOf(pid) => "v2/projects/" + pid + "/links"
    case LinkAt(pid, id) => "v2/projects/" + pid + "/links/" + id
    case TemplatesAll => "v2/templates"
    case TemplateAt(id) => "v2/templates/" + id
    case ComputesAll => "v2/computes"
    case ComputeAt(id) => "v2/computes/" + id
  }

  /** Request bodies, before JSON encoding. */
  datatype Body =
    | NoBody
    | ProjectBody(project: Project)
    | NodeBody(node: Node)
    | LinkBody(link: Link)
    | TemplateBody(template: Template)
    | Patch(fields: Json.Object)

  datatype Request = Request(verb: Verb, path: Path, body: Body)

  function Read(p: Path): Request {
    Request(GET, p, NoBody)
  }

  datatype Server = Server(
    projects: seq<Project>,
    nodes: map<string, seq<Node>>,       // by project id
    links: map<string, seq<Link>>,       // by project id
    templates: seq<Template>,
    computes: seq<Compute>,
    minted: nat,                         // how many ids the server has handed out
    refused: set<Request>)               // requests the server answers with an error

  /** What a call returns, the server afterwards and the requests it sent. */
  datatype Step<T> = Step(srv: Server, sent: seq<Request>, result: Result<T, Error>)

  function NodesIn(s: Server, pid: string): seq<Node> {
    if pid in s.nodes then s.nodes[pid] else []
  }

  function LinksIn(s: Server, pid: string): seq<Link> {
    if pid in s.links then s.links[pid] else []
  }

  /** The id the server gives the next object it creates. */
  function NextId(s: Server): string {
    "id-" + Text.NatStr(s.minted)
  }

  /** The server after handing out one id. */
  function Minted(s: Server): Server {
    s.(minted := s.minted + 1)
  }

  /** Whether the server answers a request. */
  predicate Answers(s: Server, r: Request) {
    r !in s.refused
  }

  /** What a mutator that returns `(id string, err error)` gives back. */
  datatype Reply = Reply(srv: Server, sent: seq<Request>, id: string, err: Option<Error>)

  /** Requests that only read from the server. */
  predicate Reads(reqs: seq<Request>) {
    forall i :: 0 <= i < |reqs| ==> reqs[i].verb == GET
  }

  /** The requests a by-id-or-name lookup sends: the direct fetch when the id
      is fetched directly, then the list when that fetch did not succeed. */
  function LookupSent(byId: Path, all: Path, fetched: bool, fetchOk: bool): (r: seq<Request>)
    ensures Reads(r)
  {
    (if fetched then [Read(byId)] else []) + (if fetched && fetchOk then [] else [Read(all)])
  }
}

=== FILE: resolve.dfy ===
/** The "first match in a list" scan and the by-id-or-name resolution shared by
    Projects.Get, Nodes.Get, Templates.Get and Computes.Get. */
module Resolve {
  import opened Wrappers

  /** The index of the first element satisfying `p`. */
  function Find<T>(xs: seq<T>, p: T -> bool): (r: Option<nat>)
    ensures r.Some? ==> r.value < |xs| && p(xs[r.value])
    ensures r.Some? ==> forall j :: 0 <= j < r.value ==> !p(xs[j])
    ensures r.None? <==> forall j :: 0 <= j < |xs| ==> !p(xs[j])
  {
    if |xs| == 0 then None
    else if p(xs[0]) then Some(0)
    else match Find(xs[1..], p)
      case None => None
      case Some(i) => Some(i + 1)
  }

  /** The first element satisfying `p`, if any. */
  function First<T>(xs: seq<T>, p: T -> bool): (r: Option<T>)
    ensures r.Some? <==> exists i :: 0 <= i < |xs| && p(xs[i])
    ensures r.Some? ==> exists i :: 0 <= i < |xs| && xs[i] == r.value && p(xs[i])
                          && forall j :: 0 <= j < i ==> !p(xs[j])
  {
    match Find(xs, p)
    case None => None
    case Some(i) => Some(xs[i])
  }

  /** `x` is the first element of `xs` whose name is `id`. */
  ghost predicate IsFirstNamed<T>(xs: seq<T>, name: T -> string, id: string, x: T) {
    exists i :: 0 <= i < |xs| && xs[i] == x && name(xs[i]) == id && forall j :: 0 <= j < i ==> name(xs[j]) != id
  }

  /** Resolution of a name or id. `direct` is the direct fetch by id when one
      was made (None when it was skipped); `listed` is the list the scan runs
      over, consulted only when there is no successful direct fetch. */
  function ByIdOrName<T>(id: string, direct: Option<Result<T, Error>>, listed: Result<seq<T>, Error>,
                         name: T -> string): (r: Result<T, Error>)
    ensures direct.Some? && direct.value.Success? ==> r == direct.value
    ensures !(direct.Some? && direct.value.Success?) && listed.Failure? ==> r == Failure(listed.error)
    ensures !(direct.Some? && direct.value.Success?) && listed.Success? ==>
              (r.Success? <==> exists i :: 0 <= i < |listed.value| && name(listed.value[i]) == id)
    ensures !(direct.Some? && direct.value.Success?) && listed.Success? && r.Success? ==>
              IsFirstNamed(listed.value, name, id, r.value)
    ensures !(direct.Some? && direct.value.Success?) && listed.Success? && r.Failure? ==>
              r.error == NotFound
  {
    if direct.Some? && direct.value.Success? then direct.value
    else match listed
      case Failure(e) => Failure(e)
      case Success(xs) =>
        match First(xs, (x: T) => name(x) == id)
        case None => Failure(NotFound)
        case Some(x) => Success(x)
  }

  /** Whether a resolution made no successful direct fetch and fell back to the list. */
  predicate Scanned<T>(direct: Option<Result<T, Error>>) {
    !(direct.Some? && direct.value.Success?)
  }
}

=== FILE: templates.dfy ===
/** pkg/gns3/templates.go: the flattened JSON form of a template (its
    emulator-specific record merged into the top-level object), its decoding,
    and lookup, creation and deletion on the server. */
module Templates {
  import opened Wrappers
  import opened Records
  import opened Remote
  import opened Json
  import Text
  import Resolve
  import opened Floats

  /** The JSON tags of Template's own fields (Qemu and Docker carry `json:"-"`). */
  const BaseKeys: set<Key> := {
    Builtin, Category, ComputeId, DefaultNameFormat, FirstPortName, Name,
    Symbol, TemplateId, TemplateType, Usage}

  const QemuKeys: set<Key> := {
    Options, KernelCommandLine, AdapterType, Adapters, BootPriority, ConsoleType,
    HdaDiskInterface, Ram, QemuPath, PortNameFormat, BiosImage, HdaDiskImage,
    CdromImage}

  const DockerKeys: set<Key> := {
    Image, Usage, Adapters, StartCommand, Environment, ConsoleType,
    ConsoleAutoStart, ConsoleHttpPort, ConsoleHttpPath, ConsoleResolution,
    ExtraHosts, ExtraVolumes}

  /** Every field of a template under its tag, before `omitempty`. */
  function BaseFields(t: Template): Object {
    map[Builtin := Bool(t.builtin), Category := Str(t.category), ComputeId := Str(t.computeId),
        DefaultNameFormat := Str(t.defaultNameFormat), FirstPortName := Str(t.firstPortName),
        Name := Str(t.name), Symbol := Str(t.symbol), TemplateId := Str(t.templateId),
        TemplateType := Str(t.templateType), Usage := Str(t.usage)]
  }

  /** The Qemu record's fields under their tags, as json.Marshal writes
      the record. */
  function QemuFields(q: TemplateQemu): Object {
    map[Options := Str(q.options), KernelCommandLine := Str(q.kernelCommandLine),
        AdapterType := Str(q.adapterType), Adapters := Int(q.adapters),
        BootPriority := Str(q.bootPriority), ConsoleType := Str(q.consoleType),
        HdaDiskInterface := Str(q.hdaDiskInterface), Ram := Int(q.ram), QemuPath := Str(q.path),
        PortNameFormat := Str(q.portNameFormat), BiosImage := Str(q.biosImage),
        HdaDiskImage := Str(q.hdaDiskImage), CdromImage := Str(q.cdromImage)]
  }

  /** The Docker record's fields under their tags. */
  function DockerFields(d: TemplateDocker): Object {
    map[Image := Str(d.image), Usage := Str(d.usage), Adapters := Int(d.adapters),
        StartCommand := Str(d.startCommand), Environment := Str(d.environment),
        ConsoleType := Str(d.consoleType), ConsoleAutoStart := Bool(d.consoleAutoStart),
        ConsoleHttpPort := Int(d.consoleHttpPort), ConsoleHttpPath := Str(d.consoleHttpPath),
        ConsoleResolution := Str(d.consoleResolution), ExtraHosts := Str(d.extraHosts),
        ExtraVolumes := Strs(d.extraVolumes)]
  }

  /** The template's own fields, each left out when it holds its zero value. */
  function BaseObject(t: Template): (m: Object)
    ensures m.Keys <= BaseKeys
    ensures WellKinded(m)
  {
    BaseFieldsShape(t);
    Omit(BaseFields(t))
  }

  lemma BaseFieldsShape(t: Template)
    ensures BaseFields(t).Keys == BaseKeys
    ensures WellKinded(BaseFields(t))
  {
    BaseFieldsKinds(t);
  }

  lemma BaseFieldsKinds(t: Template)
    ensures WellKinded(BaseFields(t))
  {
  }

  /** The Qemu record as MarshalJSON merges it: encoded with `omitempty`,
      decoded into an `interface{}` map and encoded again, so that its
      whole numbers come out through float64. */
  function QemuObject(q: TemplateQemu): (m: Object)
    ensures m.Keys <= QemuKeys
    ensures WellKinded(m)
  {
    QemuFieldsShape(q);
    Reprinted(Omit(QemuFields(q)))
  }

  lemma QemuFieldsShape(q: TemplateQemu)
    ensures QemuFields(q).Keys == QemuKeys
    ensures WellKinded(QemuFields(q))
  {
    QemuFieldsKinds(q);
  }

  lemma QemuFieldsKinds(q: TemplateQemu)
    ensures WellKinded(QemuFields(q))
  {
  }

  function DockerObject(d: TemplateDocker): (m: Object)
    ensures m.Keys <= DockerKeys
    ensures WellKinded(m)
  {
    DockerFieldsShape(d);
    Reprinted(Omit(DockerFields(d)))
  }

  lemma DockerFieldsShape(d: TemplateDocker)
    ensures DockerFields(d).Keys == DockerKeys
    ensures WellKinded(DockerFields(d))
  {
    DockerFieldsKinds(d);
  }

  lemma DockerFieldsKinds(d: TemplateDocker)
    ensures WellKinded(DockerFields(d))
  {
    var m := DockerFields(d);
    forall k | k in m
      ensures KindOf(m[k]) == KeyKind(k)
    {
      if k == Adapters || k == ConsoleHttpPort {
        assert m[k].Int?;
      } else if k == ConsoleAutoStart {
        assert m[k].Bool?;
      } else if k == ExtraVolumes {
        assert m[k].Strs?;
      } else {
        assert m[k].Str? && KeyKind(k) == KStr;
      }
    }
  }

  /** The emulator-specific object MarshalJSON merges in: the Qemu record for
      a "qemu" template, the Docker record for a "docker" one, and nothing
      when the type is another or the record is nil (which encodes as null). */
  function TypeData(t: Template): (m: Object)
    ensures WellKinded(m)
  {
    if t.templateType == TemplateTypeQemu && t.qemu.Some? then QemuObject(t.qemu.value)
    else if t.templateType == TemplateTypeDocker && t.docker.Some? then DockerObject(t.docker.value)
    else map[]
  }

  /** Template.MarshalJSON: the base object with the type data merged over it. */
  function Marshal(t: Template): (m: Object)
    ensures forall k :: k in m ==> k in BaseKeys || k in TypeData(t)
    ensures forall k :: k in TypeData(t) ==> k in m && m[k] == TypeData(t)[k]
    ensures forall k :: k in BaseObject(t) && k !in TypeData(t) ==> k in m && m[k] == BaseObject(t)[k]
    ensures t.templateType != TemplateTypeQemu && t.templateType != TemplateTypeDocker ==> m == BaseObject(t)
    ensures WellKinded(m)
  {
    BaseObject(t) + TypeData(t)
  }

  function BaseFrom(m: Object): Template {
    Template(GetBool(m, Builtin), GetStr(m, Category), GetStr(m, ComputeId),
             GetStr(m, DefaultNameFormat), GetStr(m, FirstPortName), GetStr(m, Name),
             GetStr(m, Symbol), GetStr(m, TemplateId), GetStr(m, TemplateType),
             GetStr(m, Usage), None, None)
  }

  function QemuFrom(m: Object): TemplateQemu {
    TemplateQemu(GetStr(m, Options), GetStr(m, KernelCommandLine), GetStr(m, AdapterType),
                 GetInt(m, Adapters), GetStr(m, BootPriority), GetStr(m, ConsoleType),
                 GetStr(m, HdaDiskInterface), GetInt(m, Ram), GetStr(m, QemuPath),
                 GetStr(m, PortNameFormat), GetStr(m, BiosImage), GetStr(m, HdaDiskImage),
                 GetStr(m, CdromImage))
  }

  function DockerFrom(m: Object): TemplateDocker {
    TemplateDocker(GetStr(m, Image), GetStr(m, Usage), GetInt(m, Adapters),
                   GetStr(m, StartCommand), GetStr(m, Environment), GetStr(m, ConsoleType),
                   GetBool(m, ConsoleAutoStart), GetInt(m, ConsoleHttpPort),
                   GetStr(m, ConsoleHttpPath), GetStr(m, ConsoleResolution),
                   GetStr(m, ExtraHosts), GetStrs(m, ExtraVolumes))
  }

  /** Template.UnmarshalJSON: the base fields, then the Qemu record decoded
      from the same object only for a "qemu" template and the Docker record
      only for a "docker" one. */
  function Unmarshal(m: Object): (r: Result<Template, Error>)
    ensures r.Success? ==> (r.value.qemu.Some? <==> r.value.templateType == TemplateTypeQemu)
    ensures r.Success? ==> (r.value.docker.Some? <==> r.value.templateType == TemplateTypeDocker)
    ensures r.Success? ==> r.value.templateType == GetStr(m, TemplateType) && r.value.name == GetStr(m, Name)
    ensures r.Failure? <==>
              || !Conforms(m, BaseKeys)
              || (GetStr(m, TemplateType) == TemplateTypeQemu && !Conforms(m, QemuKeys))
              || (GetStr(m, TemplateType) == TemplateTypeDocker && !Conforms(m, DockerKeys))
    ensures r.Failure? ==> r.error == BadJson
    ensures GetStr(m, TemplateType) == TemplateTypeQemu && Ram in m && m[Ram].Int? && !FitsInt64(m[Ram].i) ==> r.Failure?
    ensures GetStr(m, TemplateType) == TemplateTypeDocker && ConsoleHttpPort in m && m[ConsoleHttpPort].Int? && !FitsInt64(m[ConsoleHttpPort].i) ==> r.Failure?
    ensures GetStr(m, TemplateType) in {TemplateTypeQemu, TemplateTypeDocker} && Adapters in m && m[Adapters].Int? && !FitsInt64(m[Adapters].i) ==> r.Failure?
  {
    if !Conforms(m, BaseKeys) then Failure(BadJson)
    else
      var t := BaseFrom(m);
      if t.templateType == TemplateTypeQemu then
        if Conforms(m, QemuKeys) then Success(t.(qemu := Some(QemuFrom(m)))) else Failure(BadJson)
      else if t.templateType == TemplateTypeDocker then
        if Conforms(m, DockerKeys) then Success(t.(docker := Some(DockerFrom(m)))) else Failure(BadJson)
      else Success(t)
  }

  /** What a template looks like after a trip through its JSON form: a nil
      record of the template's own type decodes as the zero record, the
      record of the other type is dropped, the record's whole numbers come
      back as strconv prints their float64, and for "docker" the shared
      `usage` key carries the Docker usage when it is set, the base usage
      otherwise, into both fields. */
  function Normalized(t: Template): Template {
    if t.templateType == TemplateTypeQemu then
      t.(qemu := Some(QemuThroughFloat(t.qemu.GetOr(ZeroQemu))), docker := None)
    else if t.templateType == TemplateTypeDocker then
      var d := DockerThroughFloat(t.docker.GetOr(ZeroDocker));
      var u := if d.usage != "" then d.usage else t.usage;
      t.(usage := u, qemu := None, docker := Some(d.(usage := u)))
    else t.(qemu := None, docker := None)
  }

  /** Each record decodes from its own encoding, zero fields included:
      decoding never notices the zero fields `omitempty` left out. */
  lemma BaseDecodes(t: Template)
    ensures BaseFrom(BaseObject(t)) == t.(qemu := None, docker := None)
  {
    BaseFromOmitted(BaseFields(t));
    BaseFieldsDecode(t);
  }

  lemma BaseFieldsDecode(t: Template)
    ensures BaseFrom(BaseFields(t)) == t.(qemu := None, docker := None)
  {
  }

  /** The Qemu record as it comes back from its encoding: its whole
      numbers through float64 and strconv's shortest form. */
  function QemuThroughFloat(q: TemplateQemu): TemplateQemu {
    q.(adapters := Reprint(q.adapters), ram := Reprint(q.ram))
  }

  function DockerThroughFloat(d: TemplateDocker): TemplateDocker {
    d.(adapters := Reprint(d.adapters), consoleHttpPort := Reprint(d.consoleHttpPort))
  }

  /** The record's whole numbers still fit their Go fields (`int` and
      `int64`) once they have been through float64: 2^63 - 1 and the
      numbers near it round up to 2^63, which does not. */
  predicate QemuFits(q: TemplateQemu) {
    FitsInt64(Reprint(q.adapters)) && FitsInt64(Reprint(q.ram))
  }

  predicate DockerFits(d: TemplateDocker) {
    FitsInt64(Reprint(d.adapters)) && FitsInt64(Reprint(d.consoleHttpPort))
  }

  /** The record of the template's own type fits, so its JSON form decodes. */
  predicate RecordFits(t: Template) {
    && (t.templateType == TemplateTypeQemu ==> QemuFits(t.qemu.GetOr(ZeroQemu)))
    && (t.templateType == TemplateTypeDocker ==> DockerFits(t.docker.GetOr(ZeroDocker)))
  }

  lemma QemuDecodes(q: TemplateQemu)
    ensures QemuFrom(QemuObject(q)) == QemuThroughFloat(q)
  {
    OmitReprinted(QemuFields(q));
    QemuFromOmitted(Reprinted(QemuFields(q)));
    QemuFieldsDecode(q);
  }

  lemma QemuFieldsDecode(q: TemplateQemu)
    ensures QemuFrom(Reprinted(QemuFields(q))) == QemuThroughFloat(q)
  {
    QemuFieldsReprinted(q);
    QemuFieldsRoundTrip(QemuThroughFloat(q));
  }

  lemma QemuFieldsRoundTrip(q: TemplateQemu)
    ensures QemuFrom(QemuFields(q)) == q
  {
  }

  /** Reprinting the fields is the same as reprinting the record's numbers. */
  lemma QemuFieldsReprinted(q: TemplateQemu)
    ensures Reprinted(QemuFields(q)) == QemuFields(QemuThroughFloat(q))
  {
    QemuIntTags(q);
    ReprintedTwoInts(QemuFields(q), Adapters, Ram, q.adapters, q.ram);
    QemuFieldsWith(q, Reprint(q.adapters), Reprint(q.ram));
  }

  /** Only `adapters` and `ram` hold whole numbers. */
  lemma QemuIntTags(q: TemplateQemu)
    ensures forall k :: k in QemuFields(q) && QemuFields(q)[k].Int? ==> k == Adapters || k == Ram
  {
  }

  lemma QemuFieldsWith(q: TemplateQemu, a: int, r: int)
    ensures QemuFields(q.(adapters := a, ram := r)) == QemuFields(q)[Adapters := Int(a)][Ram := Int(r)]
  {
  }

  lemma DockerDecodes(d: TemplateDocker)
    ensures DockerFrom(DockerObject(d)) == DockerThroughFloat(d)
  {
    OmitReprinted(DockerFields(d));
    DockerFromOmitted(Reprinted(DockerFields(d)));
    DockerFieldsDecode(d);
  }

  lemma DockerFieldsDecode(d: TemplateDocker)
    ensures DockerFrom(Reprinted(DockerFields(d))) == DockerThroughFloat(d)
  {
    DockerFieldsReprinted(d);
    DockerFieldsRoundTrip(DockerThroughFloat(d));
  }

  lemma DockerFieldsRoundTrip(d: TemplateDocker)
    ensures DockerFrom(DockerFields(d)) == d
  {
  }

  lemma DockerFieldsReprinted(d: TemplateDocker)
    ensures Reprinted(DockerFields(d)) == DockerFields(DockerThroughFloat(d))
  {
    DockerIntTags(d);
    ReprintedTwoInts(DockerFields(d), Adapters, ConsoleHttpPort, d.adapters, d.consoleHttpPort);
    DockerFieldsWith(d, Reprint(d.adapters), Reprint(d.consoleHttpPort));
  }

  /** Only `adapters` and `console_http_port` hold whole numbers. */
  lemma DockerIntTags(d: TemplateDocker)
    ensures forall k :: k in DockerFields(d) && DockerFields(d)[k].Int? ==> k == Adapters || k == ConsoleHttpPort
  {
  }

  lemma DockerFieldsWith(d: TemplateDocker, a: int, p: int)
    ensures DockerFields(d.(adapters := a, consoleHttpPort := p)) == DockerFields(d)[Adapters := Int(a)][ConsoleHttpPort := Int(p)]
  {
  }

  /** The Qemu object decodes into the record exactly when its whole
      numbers fit. */
  lemma QemuConforms(q: TemplateQemu)
    ensures Conforms(QemuObject(q), QemuKeys) <==> QemuFits(q)
  {
    OmitReprinted(QemuFields(q));
    QemuFieldsReprinted(q);
    QemuFieldsConform(QemuThroughFloat(q));
  }

  /** The record's fields, zero ones left out, decode exactly when its two
      whole numbers lie within int64. */
  lemma QemuFieldsConform(q: TemplateQemu)
    ensures Conforms(Omit(QemuFields(q)), QemuKeys) <==> FitsInt64(q.adapters) && FitsInt64(q.ram)
  {
    if FitsInt64(q.adapters) && FitsInt64(q.ram) {
      QemuFieldsFit(q);
    } else {
      var m := Omit(QemuFields(q));
      assert q.adapters != 0 ==> Adapters in m && m[Adapters] == Int(q.adapters);
      assert q.ram != 0 ==> Ram in m && m[Ram] == Int(q.ram);
    }
  }

  lemma QemuFieldsFit(q: TemplateQemu)
    requires FitsInt64(q.adapters) && FitsInt64(q.ram)
    ensures Conforms(Omit(QemuFields(q)), QemuKeys)
  {
    QemuFieldsShape(q);
    QemuIntTags(q);
    WellKindedConforms(QemuFields(q), QemuKeys);
    OmitConforms(QemuFields(q), QemuKeys);
  }

  lemma DockerConforms(d: TemplateDocker)
    ensures Conforms(DockerObject(d), DockerKeys) <==> DockerFits(d)
  {
    OmitReprinted(DockerFields(d));
    DockerFieldsReprinted(d);
    DockerFieldsConform(DockerThroughFloat(d));
  }

  lemma DockerFieldsConform(d: TemplateDocker)
    ensures Conforms(Omit(DockerFields(d)), DockerKeys) <==> FitsInt64(d.adapters) && FitsInt64(d.consoleHttpPort)
  {
    if FitsInt64(d.adapters) && FitsInt64(d.consoleHttpPort) {
      DockerFieldsFit(d);
    } else {
      var m := Omit(DockerFields(d));
      assert d.adapters != 0 ==> Adapters in m && m[Adapters] == Int(d.adapters);
      assert d.consoleHttpPort != 0 ==> ConsoleHttpPort in m && m[ConsoleHttpPort] == Int(d.consoleHttpPort);
    }
  }

  lemma DockerFieldsFit(d: TemplateDocker)
    requires FitsInt64(d.adapters) && FitsInt64(d.consoleHttpPort)
    ensures Conforms(Omit(DockerFields(d)), DockerKeys)
  {
    DockerFieldsShape(d);
    DockerIntTags(d);
    WellKindedConforms(DockerFields(d), DockerKeys);
    OmitConforms(DockerFields(d), DockerKeys);
  }

  lemma BaseFromOmitted(m: Object)
    ensures BaseFrom(Omit(m)) == BaseFrom(m)
  {
    GetOmitted(m);
  }

  lemma QemuFromOmitted(m: Object)
    ensures QemuFrom(Omit(m)) == QemuFrom(m)
  {
    GetOmitted(m);
  }

  lemma DockerFromOmitted(m: Object)
    ensures DockerFrom(Omit(m)) == DockerFrom(m)
  {
    GetOmitted(m);
  }

  /** The base tags and the Qemu tags are disjoint; the base tags and the
      Docker tags share exactly `usage`. */
  lemma TagOverlap()
    ensures BaseKeys !! QemuKeys
    ensures BaseKeys * DockerKeys == {Usage}
  {
  }

  /** Decoding a record reads only that record's tags; `usage` is read
      separately because it is the one tag the base and Docker records share. */
  lemma BaseFromAgree(m1: Object, m2: Object)
    requires Agree(m1, m2, BaseKeys - {Usage})
    ensures BaseFrom(m1) == BaseFrom(m2).(usage := GetStr(m1, Usage))
  {
    GetAgree(m1, m2, Builtin);
    GetAgree(m1, m2, Category);
    GetAgree(m1, m2, ComputeId);
    GetAgree(m1, m2, DefaultNameFormat);
    GetAgree(m1, m2, FirstPortName);
    GetAgree(m1, m2, Name);
    GetAgree(m1, m2, Symbol);
    GetAgree(m1, m2, TemplateId);
    GetAgree(m1, m2, TemplateType);
  }

  lemma QemuFromAgree(m1: Object, m2: Object)
    requires Agree(m1, m2, QemuKeys)
    ensures QemuFrom(m1) == QemuFrom(m2)
  {
    GetAgree(m1, m2, Options);
    GetAgree(m1, m2, KernelCommandLine);
    GetAgree(m1, m2, AdapterType);
    GetAgree(m1, m2, Adapters);
    GetAgree(m1, m2, BootPriority);
    GetAgree(m1, m2, ConsoleType);
    GetAgree(m1, m2, HdaDiskInterface);
    GetAgree(m1, m2, Ram);
    GetAgree(m1, m2, QemuPath);
    GetAgree(m1, m2, PortNameFormat);
    GetAgree(m1, m2, BiosImage);
    GetAgree(m1, m2, HdaDiskImage);
    GetAgree(m1, m2, CdromImage);
  }

  lemma DockerFromAgree(m1: Object, m2: Object)
    requires Agree(m1, m2, DockerKeys - {Usage})
    ensures DockerFrom(m1) == DockerFrom(m2).(usage := GetStr(m1, Usage))
  {
    GetAgree(m1, m2, Image);
    GetAgree(m1, m2, Adapters);
    GetAgree(m1, m2, StartCommand);
    GetAgree(m1, m2, Environment);
    GetAgree(m1, m2, ConsoleType);
    GetAgree(m1, m2, ConsoleAutoStart);
    GetAgree(m1, m2, ConsoleHttpPort);
    GetAgree(m1, m2, ConsoleHttpPath);
    GetAgree(m1, m2, ConsoleResolution);
    GetAgree(m1, m2, ExtraHosts);
    GetAgree(m1, m2, ExtraVolumes);
  }

  /** Decoding the encoded form of a template gives its normalized form,
      and fails with an UnmarshalTypeError exactly when a whole number of
      its record no longer fits its Go field after the float64 pass. For a
      "qemu" template the Qemu record comes back as strconv reprinted its
      numbers, because its tags never collide with the base tags. */
  lemma RoundTrip(t: Template)
    ensures Unmarshal(Marshal(t)) == if RecordFits(t) then Success(Normalized(t)) else Failure(BadJson)
  {
    var b := BaseObject(t);
    var x := TypeData(t);
    var m := Marshal(t);
    TagOverlap();
    BaseConforms(m);
    MergedAgrees(b, x, BaseKeys - {Usage});
    BaseFromAgree(m, b);
    BaseDecodes(t);
    if t.templateType == TemplateTypeQemu {
      QemuTypeData(t);
      MergedOverAgrees(b, x, QemuKeys);
      ConformsAgree(m, x, QemuKeys);
      QemuFromAgree(m, x);
    } else if t.templateType == TemplateTypeDocker {
      DockerTypeData(t);
      MergedOverAgrees(b, x, DockerKeys - {Usage});
      ConformsAgree(m, x, DockerKeys - {Usage});
      UsageConforms(m, DockerKeys);
      UsageConforms(x, DockerKeys);
      DockerFromAgree(m, x);
    }
  }

  /** The own-type record's whole numbers lie within int64 as they stand. */
  predicate QemuInRange(q: TemplateQemu) {
    FitsInt64(q.adapters) && FitsInt64(q.ram)
  }

  predicate DockerInRange(d: TemplateDocker) {
    FitsInt64(d.adapters) && FitsInt64(d.consoleHttpPort)
  }

  /** The client can decode a template the server holds. */
  predicate Decodable(t: Template) {
    && (t.templateType == TemplateTypeQemu ==> QemuInRange(t.qemu.GetOr(ZeroQemu)))
    && (t.templateType == TemplateTypeDocker ==> DockerInRange(t.docker.GetOr(ZeroDocker)))
  }

  /** Every template of a listing decodes. */
  predicate AllDecodable(ts: seq<Template>) {
    forall i :: 0 <= i < |ts| ==> Decodable(ts[i])
  }

  /** The record of a stored template as the server writes it: its numbers
      as they are stored, with no float64 pass (zero fields are left out,
      which decoding does not notice). */
  function StoredTypeData(t: Template): (m: Object)
    ensures WellKinded(m)
  {
    if t.templateType == TemplateTypeQemu && t.qemu.Some? then
      QemuFieldsShape(t.qemu.value);
      Omit(QemuFields(t.qemu.value))
    else if t.templateType == TemplateTypeDocker && t.docker.Some? then
      DockerFieldsShape(t.docker.value);
      Omit(DockerFields(t.docker.value))
    else map[]
  }

  /** The object the server sends for a stored template. */
  function Stored(t: Template): (m: Object)
    ensures WellKinded(m)
  {
    BaseObject(t) + StoredTypeData(t)
  }

  /** Decoding the server's object for a stored template succeeds exactly
      when the template is Decodable. */
  lemma StoredDecodes(t: Template)
    ensures Unmarshal(Stored(t)).Success? <==> Decodable(t)
  {
    StoredBase(t);
    if t.templateType == TemplateTypeQemu {
      StoredQemu(t);
    } else if t.templateType == TemplateTypeDocker {
      StoredDocker(t);
    }
  }

  lemma StoredBase(t: Template)
    ensures Conforms(Stored(t), BaseKeys) && GetStr(Stored(t), TemplateType) == t.templateType
  {
    var b := BaseObject(t);
    var y := StoredTypeData(t);
    TagOverlap();
    BaseConforms(Stored(t));
    MergedAgrees(b, y, BaseKeys - {Usage});
    BaseFromAgree(Stored(t), b);
    BaseDecodes(t);
  }

  lemma StoredQemu(t: Template)
    requires t.templateType == TemplateTypeQemu
    ensures Conforms(Stored(t), QemuKeys) <==> QemuInRange(t.qemu.GetOr(ZeroQemu))
  {
    var y := StoredTypeData(t);
    TagOverlap();
    MergedOverAgrees(BaseObject(t), y, QemuKeys);
    ConformsAgree(Stored(t), y, QemuKeys);
    if t.qemu.Some? {
      QemuFieldsConform(t.qemu.value);
    }
  }

  lemma StoredDocker(t: Template)
    requires t.templateType == TemplateTypeDocker
    ensures Conforms(Stored(t), DockerKeys) <==> DockerInRange(t.docker.GetOr(ZeroDocker))
  {
    var y := StoredTypeData(t);
    TagOverlap();
    MergedOverAgrees(BaseObject(t), y, DockerKeys - {Usage});
    ConformsAgree(Stored(t), y, DockerKeys - {Usage});
    UsageConforms(Stored(t), DockerKeys);
    UsageConforms(y, DockerKeys);
    if t.docker.Some? {
      DockerFieldsConform(t.docker.value);
    }
  }

  /** A template Create stores decodes exactly when the one it was given
      fits: the float64 pass decides both. */
  lemma CreatedDecodable(t: Template, id: string)
    ensures Decodable(Normalized(t).(templateId := id)) <==> RecordFits(t)
  {
  }

  /** No base tag holds a whole number, so a well-kinded object always
      decodes into the base fields. */
  lemma BaseConforms(m: Object)
    requires WellKinded(m)
    ensures Conforms(m, BaseKeys)
  {
    WellKindedConforms(m, BaseKeys);
  }

  /** `usage` holds a string, so it never decides whether a well-kinded
      object decodes. */
  lemma UsageConforms(m: Object, keys: set<Key>)
    requires WellKinded(m)
    ensures Conforms(m, keys) <==> Conforms(m, keys - {Usage})
  {
  }

  /** The Qemu data of a "qemu" template decodes to its record, a nil one to the zero record. */
  lemma QemuTypeData(t: Template)
    requires t.templateType == TemplateTypeQemu
    ensures TypeData(t).Keys <= QemuKeys
    ensures QemuFrom(TypeData(t)) == QemuThroughFloat(t.qemu.GetOr(ZeroQemu))
    ensures Conforms(TypeData(t), QemuKeys) <==> QemuFits(t.qemu.GetOr(ZeroQemu))
  {
    if t.qemu.Some? {
      QemuDecodes(t.qemu.value);
      QemuConforms(t.qemu.value);
    } else {
      assert QemuFrom(map[]) == ZeroQemu == QemuThroughFloat(ZeroQemu);
    }
  }

  /** The Docker data of a "docker" template decodes to its record (a nil one
      to the zero record) and holds `usage` exactly when the record's usage is set. */
  lemma DockerTypeData(t: Template)
    requires t.templateType == TemplateTypeDocker
    ensures TypeData(t).Keys <= DockerKeys
    ensures DockerFrom(TypeData(t)) == DockerThroughFloat(t.docker.GetOr(ZeroDocker))
    ensures Usage in TypeData(t) <==> t.docker.GetOr(ZeroDocker).usage != ""
    ensures Usage in TypeData(t) ==> TypeData(t)[Usage] == Str(t.docker.GetOr(ZeroDocker).usage)
    ensures Conforms(TypeData(t), DockerKeys) <==> DockerFits(t.docker.GetOr(ZeroDocker))
  {
    if t.docker.Some? {
      var d := t.docker.value;
      DockerDecodes(d);
      DockerConforms(d);
      OmitReprinted(DockerFields(d));
      DockerFieldsReprinted(d);
      DockerUsageField(DockerThroughFloat(d), d.usage);
    } else {
      assert DockerFrom(map[]) == ZeroDocker == DockerThroughFloat(ZeroDocker);
    }
  }

  lemma DockerUsageField(d: TemplateDocker, u: string)
    requires d.usage == u
    ensures Usage in Omit(DockerFields(d)) <==> u != ""
    ensures Usage in Omit(DockerFields(d)) ==> Omit(DockerFields(d))[Usage] == Str(u)
  {
  }

  /** Normalizing twice changes nothing more. */
  lemma NormalizedIsCanonical(t: Template)
    ensures Normalized(Normalized(t)) == Normalized(t)
  {
    if t.templateType == TemplateTypeQemu {
      QemuThroughFloatTwice(t.qemu.GetOr(ZeroQemu));
    } else if t.templateType == TemplateTypeDocker {
      var d := DockerThroughFloat(t.docker.GetOr(ZeroDocker));
      var u := if d.usage != "" then d.usage else t.usage;
      DockerThroughFloatTwice(t.docker.GetOr(ZeroDocker));
      DockerThroughFloatKeepsUsage(d, u);
    }
  }

  lemma QemuThroughFloatTwice(q: TemplateQemu)
    ensures QemuThroughFloat(QemuThroughFloat(q)) == QemuThroughFloat(q)
  {
    ReprintIdempotent(q.adapters);
    ReprintIdempotent(q.ram);
  }

  lemma DockerThroughFloatTwice(d: TemplateDocker)
    ensures DockerThroughFloat(DockerThroughFloat(d)) == DockerThroughFloat(d)
  {
    ReprintIdempotent(d.adapters);
    ReprintIdempotent(d.consoleHttpPort);
  }

  /** The float64 pass commutes with setting the usage. */
  lemma DockerThroughFloatKeepsUsage(d: TemplateDocker, u: string)
    ensures DockerThroughFloat(d.(usage := u)) == DockerThroughFloat(d).(usage := u)
  {
  }

  /** Records whose whole numbers are at most 2^53 in magnitude come back
      from the float64 pass with the same digits, and fit. */
  lemma ExactNumbersSurvive(q: TemplateQemu, d: TemplateDocker)
    requires -(Pow53 as int) <= q.adapters <= Pow53 && -(Pow53 as int) <= q.ram <= Pow53
    requires -(Pow53 as int) <= d.adapters <= Pow53 && -(Pow53 as int) <= d.consoleHttpPort <= Pow53
    ensures QemuThroughFloat(q) == q && DockerThroughFloat(d) == d
    ensures QemuFits(q) && DockerFits(d)
  {
    ReprintExactUpTo2To53(q.adapters);
    ReprintExactUpTo2To53(q.ram);
    ReprintExactUpTo2To53(d.adapters);
    ReprintExactUpTo2To53(d.consoleHttpPort);
  }

  /** A Qemu template with 2^53 + 1 megabytes of memory comes back with 2^53. */
  lemma LargeRamIsRounded(q: TemplateQemu)
    requires q.ram == Pow53 + 1
    ensures QemuThroughFloat(q).ram == Pow53
  {
    FirstInexact();
    ShortestOf2To53();
  }

  /** A "qemu" template with a `ram` of 2^60 decodes, but with
      1152921504606847000: the float64 2^60 printed in its shortest form. */
  lemma RamOf2To60ComesBackShortest(t: Template)
    requires t.templateType == TemplateTypeQemu && t.qemu.Some? && t.qemu.value.ram == Pow60
    requires -(Pow53 as int) <= t.qemu.value.adapters <= Pow53
    ensures Unmarshal(Marshal(t)).Success?
    ensures Unmarshal(Marshal(t)).value.qemu == Some(t.qemu.value.(ram := 1152921504606847000))
  {
    var q := t.qemu.value;
    ReprintOf2To60();
    ReprintExactUpTo2To53(q.adapters);
    assert QemuThroughFloat(q) == q.(ram := 1152921504606847000);
    assert RecordFits(t);
    RoundTrip(t);
  }

  /** A "qemu" template with the largest `ram` an int64 holds does not
      survive its JSON form: the float64 pass turns it into
      9223372036854776000, which decoding rejects. */
  lemma MaxRamFailsToDecode(t: Template)
    requires t.templateType == TemplateTypeQemu && t.qemu.Some? && t.qemu.value.ram == MaxInt64
    ensures Unmarshal(Marshal(t)) == Failure(BadJson)
  {
    ReprintOfMaxInt64();
    RoundTrip(t);
  }

  function TemplateName(t: Template): string { t.name }

  /** GET v2/templates/<id>. The reply is decoded as gns3.Get does, so a
      stored template that is not Decodable gives the wrapped decode error. */
  function Fetch(s: Server, id: string): (r: Result<Template, Error>)
    ensures r.Success? <==>
              && Answers(s, Read(TemplateAt(id)))
              && exists i :: && 0 <= i < |s.templates| && s.templates[i].templateId == id && Decodable(s.templates[i])
                             && forall j :: 0 <= j < i ==> s.templates[j].templateId != id
    ensures r.Success? ==> r.value in s.templates && r.value.templateId == id && Decodable(r.value)
    ensures !Answers(s, Read(TemplateAt(id))) ==> r == Failure(Refusal)
    ensures Answers(s, Read(TemplateAt(id))) && (forall i :: 0 <= i < |s.templates| ==> s.templates[i].templateId != id) ==>
              r == Failure(Missing)
    ensures r.Failure? && r.error != Refusal && r.error != Missing ==> r.error == Wrapped("decode", BadJson)
  {
    if !Answers(s, Read(TemplateAt(id))) then Failure(Refusal)
    else match Resolve.Find(s.templates, (t: Template) => t.templateId == id)
      case None => Failure(Missing)
      case Some(i) => if Decodable(s.templates[i]) then Success(s.templates[i]) else Failure(Wrapped("decode", BadJson))
  }

  /** GET v2/templates: the whole listing is decoded, and the first template
      that does not decode fails it. */
  function List(s: Server): (r: Result<seq<Template>, Error>)
    ensures r.Success? <==> Answers(s, Read(TemplatesAll)) && AllDecodable(s.templates)
    ensures r.Success? ==> r.value == s.templates
    ensures !Answers(s, Read(TemplatesAll)) ==> r == Failure(Refusal)
    ensures Answers(s, Read(TemplatesAll)) && !AllDecodable(s.templates) ==> r == Failure(Wrapped("decode", BadJson))
  {
    if !Answers(s, Read(TemplatesAll)) then Failure(Refusal)
    else if AllDecodable(s.templates) then Success(s.templates)
    else Failure(Wrapped("decode", BadJson))
  }

  /** After Create has stored a template whose numbers no longer fit, every
      answered listing fails to decode. */
  lemma UnfitCreateBreaksList(s: Server, t: Template)
    requires Answers(s, Request(POST, TemplatesAll, TemplateBody(t))) && !RecordFits(t)
    requires Answers(Create(s, t).srv, Read(TemplatesAll))
    ensures List(Create(s, t).srv) == Failure(Wrapped("decode", BadJson))
  {
    var srv := Create(s, t).srv;
    var k := |s.templates|;
    CreatedDecodable(t, srv.templates[k].templateId);
    assert !Decodable(srv.templates[k]);
  }

  /** Templates.Get: a UUID-shaped id is fetched directly first; otherwise, or
      when that fetch fails, the first listed template named `id` is returned. */
  function Get(s: Server, id: string): (st: Step<Template>)
    ensures st.srv == s
    ensures Text.IsUuid(id) && Fetch(s, id).Success? ==>
              st.result == Fetch(s, id) && st.sent == [Read(TemplateAt(id))]
    ensures !(Text.IsUuid(id) && Fetch(s, id).Success?) ==>
              st.sent == (if Text.IsUuid(id) then [Read(TemplateAt(id))] else []) + [Read(TemplatesAll)]
    ensures !(Text.IsUuid(id) && Fetch(s, id).Success?) && !Answers(s, Read(TemplatesAll)) ==>
              st.result == Failure(Refusal)
    ensures !(Text.IsUuid(id) && Fetch(s, id).Success?) && Answers(s, Read(TemplatesAll)) && !AllDecodable(s.templates) ==>
              st.result == Failure(Wrapped("decode", BadJson))
    ensures !(Text.IsUuid(id) && Fetch(s, id).Success?) && Answers(s, Read(TemplatesAll)) && AllDecodable(s.templates) ==>
              && (st.result.Success? <==> exists i :: 0 <= i < |s.templates| && s.templates[i].name == id)
              && (st.result.Success? ==> Resolve.IsFirstNamed(s.templates, TemplateName, id, st.result.value))
              && (st.result.Failure? ==> st.result.error == NotFound)
    ensures st.result.Success? ==> st.result.value in s.templates
  {
    var direct := if Text.IsUuid(id) then Some(Fetch(s, id)) else None;
    var r := Resolve.ByIdOrName(id, direct, List(s), TemplateName);
    Step(s, LookupSent(TemplateAt(id), TemplatesAll, Text.IsUuid(id), direct.Some? && direct.value.Success?), r)
  }

  /** Templates.Create: POST v2/templates. The body travels in its JSON form,
      so the server holds the normalized template, and the client decodes
      the reply into it; that decoding fails, after the server has stored
      the template, when a whole number no longer fits its field. */
  function Create(s: Server, t: Template): (st: Step<Template>)
    ensures st.sent == [Request(POST, TemplatesAll, TemplateBody(t))]
    ensures st.result.Failure? <==> !Answers(s, st.sent[0]) || !RecordFits(t)
    ensures !Answers(s, st.sent[0]) ==> st.srv == s && st.result.error == Refusal
    ensures Answers(s, st.sent[0]) && !RecordFits(t) ==> st.result.error == Wrapped("decode", BadJson)
    ensures Answers(s, st.sent[0]) ==>
              && |st.srv.templates| == |s.templates| + 1
              && st.srv.templates[..|s.templates|] == s.templates
              && st.srv.templates[|s.templates|].name == t.name
              && st.srv.templates[|s.templates|].templateType == t.templateType
              && st.srv.nodes == s.nodes && st.srv.links == s.links && st.srv.projects == s.projects
    ensures st.result.Success? ==> st.result.value == st.srv.templates[|s.templates|]
  {
    var req := Request(POST, TemplatesAll, TemplateBody(t));
    if !Answers(s, req) then Step(s, [req], Failure(Refusal))
    else
      var created := Normalized(t).(templateId := NextId(s));
      var srv := Minted(s).(templates := s.templates + [created]);
      if RecordFits(t) then Step(srv, [req], Success(created))
      else Step(srv, [req], Failure(Wrapped("decode", BadJson)))
  }

  function Without(ts: seq<Template>, id: string): (r: seq<Template>)
    ensures forall t :: t in r <==> t in ts && t.templateId != id
  {
    if |ts| == 0 then []
    else (if ts[0].templateId == id then [] else [ts[0]]) + Without(ts[1..], id)
  }

  /** Templates.Delete: resolve, then DELETE v2/templates/<resolved id>. */
  function Delete(s: Server, id: string): (r: Reply)
    ensures Get(s, id).result.Failure? ==>
              r.srv == s && r.sent == Get(s, id).sent && r.id == "" && r.err == Some(Get(s, id).result.error)
    ensures Get(s, id).result.Success? ==>
              && r.id == Get(s, id).result.value.templateId
              && r.sent == Get(s, id).sent + [Request(DELETE, TemplateAt(r.id), NoBody)]
              && (r.err.None? <==> Answers(s, Request(DELETE, TemplateAt(r.id), NoBody)))
              && (r.err.None? ==> forall t :: t in r.srv.templates <==> t in s.templates && t.templateId != r.id)
              && (r.err.Some? ==> r.srv == s)
  {
    var found := Get(s, id);
    match found.result
    case Failure(e) => Reply(s, found.sent, "", Some(e))
    case Success(t) =>
      var req := Request(DELETE, TemplateAt(t.templateId), NoBody);
      if !Answers(s, req) then Reply(s, found.sent + [req], t.templateId, Some(Refusal))
      else Reply(s.(templates := Without(s.templates, t.templateId)), found.sent + [req], t.templateId, None)
  }
}

=== FILE: text.dfy ===
/** The string helpers of Go's `strings` and `fmt` packages that the modelled
    code relies on, restricted to ASCII. */
module Text {
  import opened Wrappers

  function LowerChar(c: char): char {
    if 'A' <= c <= 'Z' then (c as int + 32) as char else c
  }

  /** strings.ToLower, on the ASCII letters. */
  function ToLower(s: string): (r: string)
    ensures |r| == |s|
    ensures forall i :: 0 <= i < |s| ==> r[i] == LowerChar(s[i])
    ensures forall i :: 0 <= i < |s| ==> !('A' <= r[i] <= 'Z')
  {
    if |s| == 0 then "" else [LowerChar(s[0])] + ToLower(s[1..])
  }

  lemma ToLowerIdempotent(s: string)
    ensures ToLower(ToLower(s)) == ToLower(s)
  {
    var l := ToLower(s);
    assert forall i :: 0 <= i < |l| ==> LowerChar(l[i]) == l[i];
  }

  /** strings.HasPrefix(s, p). */
  predicate HasPrefix(s: string, p: string) {
    |p| <= |s| && s[..|p|] == p
  }

  /** strings.Contains(s, sub): some position of `s` starts with `sub`. */
  predicate Contains(s: string, sub: string)
    decreases |s|
  {
    HasPrefix(s, sub) || (|s| > 0 && Contains(s[1..], sub))
  }

  lemma ContainsAppended(s: string, sub: string)
    ensures Contains(s + sub, sub)
    decreases |s|
  {
    if |s| > 0 {
      assert (s + sub)[1..] == s[1..] + sub;
      ContainsAppended(s[1..], sub);
    } else {
      assert s + sub == sub;
    }
  }

  /** strings.IndexByte(s, c), with -1 written as None. */
  function IndexOf(s: string, c: char): (r: Option<nat>)
    ensures r.Some? ==> r.value < |s| && s[r.value] == c && c !in s[..r.value]
    ensures r.None? ==> c !in s
  {
    if |s| == 0 then None
    else if s[0] == c then Some(0)
    else match IndexOf(s[1..], c)
      case None => None
      case Some(i) =>
        assert s[..i + 1] == [s[0]] + s[1..][..i];
        Some(i + 1)
  }

  /** strings.LastIndexByte(s, c), with -1 written as None. */
  function LastIndexOf(s: string, c: char): (r: Option<nat>)
    ensures r.Some? ==> r.value < |s| && s[r.value] == c && c !in s[r.value + 1..]
    ensures r.None? ==> c !in s
    decreases |s|
  {
    if |s| == 0 then None
    else if s[|s| - 1] == c then Some(|s| - 1)
    else
      var front := s[..|s| - 1];
      match LastIndexOf(front, c)
      case None => assert s == front + [s[|s| - 1]]; None
      case Some(i) => assert s[i + 1..] == front[i + 1..] + [s[|s| - 1]]; Some(i)
  }

  /** strings.SplitN(s, sep, 2) for a one-character separator. */
  function SplitOnce(s: string, sep: char): (parts: seq<string>)
    ensures 1 <= |parts| <= 2
    ensures |parts| == 1 <==> sep !in s
    ensures |parts| == 1 ==> parts[0] == s
    ensures |parts| == 2 ==> parts[0] + [sep] + parts[1] == s && sep !in parts[0]
  {
    match IndexOf(s, sep)
    case None => [s]
    case Some(i) =>
      assert s == s[..i] + [sep] + s[i + 1..];
      [s[..i], s[i + 1..]]
  }

  /** The first `c` is found where it is. */
  lemma IndexOfAt(s: string, c: char, i: nat)
    requires i < |s| && s[i] == c && c !in s[..i]
    ensures IndexOf(s, c) == Some(i)
  {
    var r := IndexOf(s, c);
    assert s[..i + 1][i] == c;
    assert forall j | 0 <= j < i :: s[..i][j] == s[j];
    assert r.Some?;
    assert forall j | 0 <= j < r.value :: s[..r.value][j] == s[j];
  }

  /** The last `c` is found where it is. */
  lemma LastIndexOfAt(s: string, c: char, i: nat)
    requires i < |s| && s[i] == c && c !in s[i + 1..]
    ensures LastIndexOf(s, c) == Some(i)
  {
    var r := LastIndexOf(s, c);
    assert s[i..][0] == c;
    assert forall j | i < j < |s| :: s[i + 1..][j - i - 1] == s[j];
    assert r.Some?;
    assert forall j | r.value < j < |s| :: s[r.value + 1..][j - r.value - 1] == s[j];
  }

  /** The split falls at the first separator. */
  lemma SplitAt(s: string, sep: char, i: nat)
    requires i < |s| && s[i] == sep && sep !in s[..i]
    ensures SplitOnce(s, sep) == [s[..i], s[i + 1..]]
  {
    var parts := SplitOnce(s, sep);
    assert forall j | 0 <= j < i :: s[..i][j] == s[j];
    assert forall j | 0 <= j < |parts[0]| :: parts[0][j] == s[j];
    assert |parts[0]| == i;
    assert parts[0] == s[..i];
    assert parts[1] == s[i + 1..];
  }

  function HexDigit(n: nat): char
    requires n < 16
  {
    if n < 10 then ('0' as int + n) as char else ('a' as int + n - 10) as char
  }

  /** fmt.Sprintf("%x", b): two lower-case hex digits per byte. */
  function Hex(b: seq<bv8>): (r: string)
    ensures |r| == 2 * |b|
  {
    if |b| == 0 then ""
    else [HexDigit(b[0] as nat / 16), HexDigit(b[0] as nat % 16)] + Hex(b[1..])
  }

  /** Decimal rendering of a natural number. */
  function NatStr(n: nat): (r: string)
    ensures |r| > 0
  {
    if n < 10 then [HexDigit(n)] else NatStr(n / 10) + [HexDigit(n % 10)]
  }

  predicate IsHex(c: char) {
    '0' <= c <= '9' || 'a' <= c <= 'f' || 'A' <= c <= 'F'
  }

  /** xxxxxxxx-xxxx-xxxx-xxxx-xxxxxxxxxxxx */
  predicate IsCanonicalUuid(s: string) {
    && |s| == 36
    && s[8] == '-' && s[13] == '-' && s[18] == '-' && s[23] == '-'
    && forall i :: 0 <= i < 36 && i != 8 && i != 13 && i != 18 && i != 23 ==> IsHex(s[i])
  }

  /** A character UTF-8 writes as one byte. */
  predicate IsAscii(c: char) {
    c as int < 0x80
  }

  /** The strings github.com/google/uuid's Parse accepts: the canonical form;
      38 bytes whose middle 36 are canonical, the first and the last byte
      being skipped unread (so braces pass, and so does any other pair of
      one-byte characters); a case-insensitive "urn:uuid:" prefix; or 32
      bare hex digits. Parse measures bytes, and every form holds only
      one-byte characters, so the lengths here are byte lengths too. */
  predicate IsUuid(s: string) {
    || IsCanonicalUuid(s)
    || (|s| == 38 && IsAscii(s[0]) && IsAscii(s[37]) && IsCanonicalUuid(s[1..37]))
    || (|s| == 45 && ToLower(s[..9]) == "urn:uuid:" && IsCanonicalUuid(s[9..]))
    || (|s| == 32 && forall i :: 0 <= i < 32 ==> IsHex(s[i]))
  }

  /** Parse never reads the two ends of a 38-byte id: a canonical UUID
      between any two one-byte characters is accepted, in braces or not. */
  lemma UuidEndsUnread(a: char, u: string, b: char)
    requires IsAscii(a) && IsAscii(b) && IsCanonicalUuid(u)
    ensures IsUuid([a] + u + [b])
  {
    assert ([a] + u + [b])[1..37] == u;
  }

  /** An id wrapped in 'x' rather than braces still takes the direct fetch. */
  lemma UnbracedUuidAccepted()
    ensures IsUuid("x" + "6ba7b810-9dad-11d1-80b4-00c04fd430c8" + "x")
  {
    ExampleIsCanonical();
    UuidEndsUnread('x', "6ba7b810-9dad-11d1-80b4-00c04fd430c8", 'x');
  }

  lemma ExampleIsCanonical()
    ensures IsCanonicalUuid("6ba7b810-9dad-11d1-80b4-00c04fd430c8")
  {
    var u := "6ba7b810-9dad-11d1-80b4-00c04fd430c8";
    forall i | 0 <= i < 36 && i != 8 && i != 13 && i != 18 && i != 23
      ensures IsHex(u[i])
    {
    }
  }
}

=== FILE: topology.dfy ===
/** The topology query of cmd/getTopology.go: the parse of its output
    option and the three list helpers its template output offers
    (filterLinks, lookupNode, getPort). Fetching, marshalling and
    template execution are outside the model. */
module Topology {
  import opened Wrappers
  import opened Records
  import Text
  import Resolve

  /** What the output option selects: the output switch's format and,
      for a template, the template file. */
  datatype OutputOption = OutputOption(format: string, templateFile: string)

  /** The output switch's cases: `json`; `template`; everything else,
      `yaml` included, falls through to YAML. */
  datatype Format = JsonOut | YamlOut | TemplateOut(file: string)

  /** An option starting with "template" is split at its first '=' into
      format and file; without an '=' it is rejected. Any other option is
      the format itself. */
  function ParseOutput(output: string): (r: Result<OutputOption, Error>)
    ensures !Text.HasPrefix(output, "template") ==> r == Success(OutputOption(output, ""))
    ensures Text.HasPrefix(output, "template") ==> (r.Failure? <==> '=' !in output)
    ensures r.Failure? ==> r.error == NoTemplateFile
    ensures Text.HasPrefix(output, "template") && r.Success? ==>
              && r.value.format + "=" + r.value.templateFile == output
              && '=' !in r.value.format
  {
    if Text.HasPrefix(output, "template") then
      var parts := Text.SplitOnce(output, '=');
      if |parts| != 2 then Failure(NoTemplateFile)
      else Success(OutputOption(parts[0], parts[1]))
    else Success(OutputOption(output, ""))
  }

  /** The output switch applied to a parsed option. */
  function Select(o: OutputOption): (f: Format)
    ensures f.TemplateOut? <==> o.format == "template"
    ensures f.TemplateOut? ==> f.file == o.templateFile
    ensures f == JsonOut <==> o.format == "json"
  {
    if o.format == "json" then JsonOut
    else if o.format == "template" then TemplateOut(o.templateFile)
    else YamlOut
  }

  /** The option prefix that selects template output. */
  const TemplateEq := "template="

  /** An option of the form `<format>=<file>` with a format starting with
      "template" and holding no '=' parses back into exactly that format
      and file, whatever the file holds, '=' included. */
  lemma {:induction false} ParseOutputRoundTrip(format: string, file: string)
    requires Text.HasPrefix(format, "template") && '=' !in format
    ensures ParseOutput(format + "=" + file) == Success(OutputOption(format, file))
  {
    var output := format + "=" + file;
    assert output[..|"template"|] == format[..|"template"|];
    assert output[|format|] == '=';
    var r := ParseOutput(output);
    SplitIsUnique(r.value.format, r.value.templateFile, format, file);
  }

  /** Two ways of writing a string as `a + "=" + b` with no '=' in `a`
      are the same way. */
  lemma SplitIsUnique(a1: string, b1: string, a2: string, b2: string)
    requires '=' !in a1 && '=' !in a2
    requires a1 + "=" + b1 == a2 + "=" + b2
    ensures a1 == a2 && b1 == b2
  {
    var s := a1 + "=" + b1;
    FirstSeparator(a1, b1);
    FirstSeparator(a2, b2);
    assert a1 == s[..|a1|] == a2;
    assert b1 == s[|a1| + 1..] == b2;
  }

  /** The first '=' of `a + "=" + b` is the one after `a` when `a` has none. */
  lemma {:induction false} FirstSeparator(a: string, b: string)
    requires '=' !in a
    ensures Text.IndexOf(a + "=" + b, '=') == Some(|a|)
    decreases |a|
  {
    if |a| > 0 {
      assert (a + "=" + b)[1..] == a[1..] + "=" + b;
      FirstSeparator(a[1..], b);
    }
  }

  /** Template output is chosen exactly by `template=<file>`: a longer
      format such as `templates=<file>` falls through to YAML. */
  lemma TemplateOnlyWhenExact(output: string)
    requires ParseOutput(output).Success?
    ensures Select(ParseOutput(output).value).TemplateOut? <==> Text.HasPrefix(output, TemplateEq)
    ensures Select(ParseOutput(output).value).TemplateOut? ==>
              Select(ParseOutput(output).value).file == output[|TemplateEq|..]
  {
    var o := ParseOutput(output).value;
    if Text.HasPrefix(output, TemplateEq) {
      TemplateOptionParses(output);
    } else if o.format == "template" {
      TemplateFormatHasOption(output);
    }
  }

  lemma TemplateOptionParses(output: string)
    requires Text.HasPrefix(output, TemplateEq)
    ensures ParseOutput(output) == Success(OutputOption("template", output[|TemplateEq|..]))
  {
    var file := output[|TemplateEq|..];
    assert "template" + "=" == TemplateEq;
    assert output == output[..|TemplateEq|] + file;
    assert Text.HasPrefix("template", "template");
    ParseOutputRoundTrip("template", file);
  }

  lemma TemplateFormatHasOption(output: string)
    requires ParseOutput(output).Success? && ParseOutput(output).value.format == "template"
    ensures Text.HasPrefix(output, TemplateEq)
  {
    var o := ParseOutput(output).value;
    assert "template"[..|"template"|] == "template";
    assert Text.HasPrefix(output, "template");
    assert output == "template" + "=" + o.templateFile;
    assert output[..|TemplateEq|] == "template" + "=";
  }

  /** The inner loop of filterLinks: the scan of a link's endpoints that
      breaks at the first endpoint on the node. */
  function HasEnd(ends: seq<NodeRef>, nodeId: string): (b: bool)
    ensures b <==> exists j :: 0 <= j < |ends| && ends[j].nodeId == nodeId
  {
    if |ends| == 0 then false
    else if ends[0].nodeId == nodeId then true
    else HasEnd(ends[1..], nodeId)
  }

  /** Some endpoint of the link is on the node. */
  ghost predicate Touches(l: Link, nodeId: string) {
    exists j :: 0 <= j < |l.nodes| && l.nodes[j].nodeId == nodeId
  }

  /** filterLinks(nodeId, links): the links with an endpoint on the node,
      in their original order, each added once however many of its
      endpoints are on the node. */
  function FilterLinks(nodeId: string, links: seq<Link>): (r: seq<Link>)
    ensures |r| <= |links|
    ensures forall l :: l in r <==> l in links && Touches(l, nodeId)
    ensures forall l :: multiset(r)[l] == if Touches(l, nodeId) then multiset(links)[l] else 0
  {
    if |links| == 0 then []
    else
      var rest := FilterLinks(nodeId, links[1..]);
      assert links == [links[0]] + links[1..];
      if HasEnd(links[0].nodes, nodeId) then [links[0]] + rest else rest
  }

  /** filterLinks keeps the order of the list: filtering a concatenation
      is concatenating the filtered parts. With the single-link case this
      pins the result down completely. */
  lemma {:induction false} FilterLinksAppend(nodeId: string, a: seq<Link>, b: seq<Link>)
    ensures FilterLinks(nodeId, a + b) == FilterLinks(nodeId, a) + FilterLinks(nodeId, b)
    decreases |a|
  {
    if |a| > 0 {
      assert (a + b)[1..] == a[1..] + b;
      assert (a + b)[0] == a[0];
      FilterLinksAppend(nodeId, a[1..], b);
    } else {
      assert a + b == b;
    }
  }

  /** A single link is kept exactly when it has an endpoint on the node. */
  lemma FilterLinksSingle(nodeId: string, l: Link)
    ensures FilterLinks(nodeId, [l]) == if Touches(l, nodeId) then [l] else []
  {
    assert [l][1..] == [];
  }

  /** lookupNode(nodes, id): the first node with the id, or nil. */
  function LookupNode(nodes: seq<Node>, id: string): (r: Option<Node>)
    ensures r.None? <==> forall i :: 0 <= i < |nodes| ==> nodes[i].nodeId != id
    ensures r.Some? ==> Resolve.IsFirstNamed(nodes, (n: Node) => n.nodeId, id, r.value)
  {
    Resolve.First(nodes, (n: Node) => n.nodeId == id)
  }

  /** getPort(node, adapterNum, portNum) as written: the first port on the
      adapter; the port number is never looked at. */
  function PortAsWritten(node: Node, adapterNum: int, portNum: int): (r: Option<Port>)
    ensures r.None? <==> forall i :: 0 <= i < |node.ports| ==> node.ports[i].adapterNumber != adapterNum
    ensures r.Some? ==> r.value in node.ports && r.value.adapterNumber == adapterNum
  {
    match Resolve.First(node.ports, (p: Port) => p.adapterNumber == adapterNum)
    case None => None
    case Some(p) => Some(p)
  }

  /** A node whose first adapter has two ports: asking for port 1 of
      adapter 0 hands back port 0. */
  lemma PortAsWrittenIgnoresPortNumber()
    ensures var node := Node("n1", "vpcs1", "vpcs", "local", "", 0, 0, 0, map[], [Port(0, 0, "e0"), Port(0, 1, "e1")], "");
            && PortAsWritten(node, 0, 1) == Some(Port(0, 0, "e0"))
            && PortAsWritten(node, 0, 1).value.portNumber != 1
            && PortOf(node, 0, 1) == Some(Port(0, 1, "e1"))
  {
    var node := Node("n1", "vpcs1", "vpcs", "local", "", 0, 0, 0, map[], [Port(0, 0, "e0"), Port(0, 1, "e1")], "");
    assert node.ports[0].adapterNumber == 0;
    assert node.ports[0].portNumber != 1 && node.ports[1].portNumber == 1;
  }

  /** The port getPort's parameters ask for: the first port with both the
      adapter number and the port number. */
  function PortOf(node: Node, adapterNum: int, portNum: int): (r: Option<Port>)
    ensures r.None? <==>
              forall i :: 0 <= i < |node.ports| ==>
                node.ports[i].adapterNumber != adapterNum || node.ports[i].portNumber != portNum
    ensures r.Some? ==> r.value in node.ports && r.value.adapterNumber == adapterNum && r.value.portNumber == portNum
  {
    match Resolve.First(node.ports, (p: Port) => p.adapterNumber == adapterNum && p.portNumber == portNum)
    case None => None
    case Some(p) => Some(p)
  }

  /** When every port on the adapter is the asked-for port, as on the
      one-port adapters of the nodes the load command builds, the helper as
      written and the corrected one agree. */
  lemma PortAsWrittenAgreesOnSinglePortAdapters(node: Node, adapterNum: int, portNum: int)
    requires forall i :: 0 <= i < |node.ports| && node.ports[i].adapterNumber == adapterNum ==>
               node.ports[i].portNumber == portNum
    ensures PortAsWritten(node, adapterNum, portNum) == PortOf(node, adapterNum, portNum)
  {
    var p1 := (p: Port) => p.adapterNumber == adapterNum;
    var p2 := (p: Port) => p.adapterNumber == adapterNum && p.portNumber == portNum;
    FirstSamePredicate(node.ports, p1, p2);
  }

  /** Two predicates that agree on every element find the same first element. */
  lemma FirstSamePredicate<T>(xs: seq<T>, p1: T -> bool, p2: T -> bool)
    requires forall i :: 0 <= i < |xs| ==> p1(xs[i]) == p2(xs[i])
    ensures Resolve.First(xs, p1) == Resolve.First(xs, p2)
  {
    assert Resolve.Find(xs, p1) == Resolve.Find(xs, p2);
  }
}

=== FILE: url.dfy ===
/** Go's net/url Parse, as far as Appliances.Import relies on it: whether a
    reference parses, and the scheme it carries. The rules are those of
    net/url's parse, getScheme, parseAuthority, parseHost, validOptionalPort
    and unescape; the parsed host, path, query and fragment are not kept. */
module Url {
  import opened Wrappers
  import Text

  predicate SchemeStart(c: char) {
    'a' <= c <= 'z' || 'A' <= c <= 'Z'
  }

  predicate SchemeChar(c: char) {
    SchemeStart(c) || '0' <= c <= '9' || c == '+' || c == '-' || c == '.'
  }

  /** getScheme: the characters before a first ':' when they are all scheme
      characters and start with a letter; "" when there is none; None when
      the reference starts with ':' ("missing protocol scheme"). */
  function Scheme(s: string): (r: Option<string>)
    ensures r.None? <==> |s| > 0 && s[0] == ':'
    ensures r.Some? && r.value != "" ==> Text.HasPrefix(s, r.value + ":") && s[|r.value|] == ':'
  {
    SchemeFrom(s, 0)
  }

  function SchemeFrom(s: string, i: nat): (r: Option<string>)
    requires i <= |s|
    requires forall j :: 0 <= j < i ==> SchemeChar(s[j]) && (j == 0 ==> SchemeStart(s[j]))
    ensures r.None? <==> i == 0 && |s| > 0 && s[0] == ':'
    ensures r.Some? && r.value != "" ==> Text.HasPrefix(s, r.value + ":") && s[|r.value|] == ':'
    decreases |s| - i
  {
    if i == |s| then Some("")
    else if s[i] == ':' then (if i == 0 then None else Some(s[..i]))
    else if SchemeStart(s[i]) || (i > 0 && SchemeChar(s[i])) then SchemeFrom(s, i + 1)
    else Some("")
  }

  /** The control characters net/url refuses before the fragment. */
  predicate IsControl(c: char) {
    c as int < 0x20 || c as int == 0x7f
  }

  /** Every '%' opens an escape of two hex digits. */
  predicate ValidEscapes(s: string) {
    forall i :: 0 <= i < |s| && s[i] == '%' ==> i + 2 < |s| && Text.IsHex(s[i + 1]) && Text.IsHex(s[i + 2])
  }

  function HexValue(c: char): nat
    requires Text.IsHex(c)
  {
    if '0' <= c <= '9' then c as nat - '0' as nat
    else if 'a' <= c <= 'f' then c as nat - 'a' as nat + 10
    else c as nat - 'A' as nat + 10
  }

  predicate AlphaNum(c: char) {
    'a' <= c <= 'z' || 'A' <= c <= 'Z' || '0' <= c <= '9'
  }

  /** The characters a host may hold as they are: non-ASCII, letters and
      digits, and the marks and delimiters net/url lets through in a host;
      '%' opens an escape. */
  predicate HostChar(c: char) {
    c as int >= 0x80 || AlphaNum(c) || HostMark(c)
  }

  /** The sub-delimiters of section 2.2 of RFC 3986. */
  predicate SubDelim(c: char) {
    c == '!' || c == '$' || c == '&' || c == '\'' || c == '(' || c == ')' || c == '*' || c == '+' || c == ',' || c == ';' || c == '='
  }

  /** The marks a host may hold besides letters and digits: the
      sub-delimiters, ':', brackets, '<', '>', '"', the unreserved marks and
      the '%' of an escape. */
  predicate HostMark(c: char) {
    SubDelim(c) || c == ':' || c == '[' || c == ']' || c == '<' || c == '>' || c == '"' || c == '-' || c == '_' || c == '.' || c == '~' || c == '%'
  }

  /** In a host an escape may only encode a non-ASCII byte, except "%25". */
  predicate ValidHostEscapes(h: string) {
    forall i :: 0 <= i < |h| && h[i] == '%' ==>
      i + 2 < |h| && Text.IsHex(h[i + 1]) && Text.IsHex(h[i + 2])
      && (HexValue(h[i + 1]) >= 8 || h[i + 1..i + 3] == "25")
  }

  /** validOptionalPort: nothing, or ':' and digits only. */
  predicate ValidPort(p: string) {
    p == "" || (p[0] == ':' && forall i :: 1 <= i < |p| ==> '0' <= p[i] <= '9')
  }

  /** parseHost: a bracketed literal needs its closing ']' and only a port
      after it; otherwise whatever follows the last ':' is a port. */
  predicate ValidHost(h: string) {
    && (if Text.HasPrefix(h, "[") then
          match Text.LastIndexOf(h, ']')
          case None => false
          case Some(i) => ValidPort(h[i + 1..])
        else
          match Text.LastIndexOf(h, ':')
          case None => true
          case Some(i) => ValidPort(h[i..]))
    && (forall i :: 0 <= i < |h| ==> HostChar(h[i]))
    && ValidHostEscapes(h)
  }

  /** The characters validUserinfo accepts. */
  predicate UserinfoChar(c: char) {
    AlphaNum(c) || c == '@' || SubDelim(c) || c == '-' || c == '.' || c == '_' || c == '~' || c == ':' || c == '%'
  }

  /** parseAuthority: the host after the last '@' and the user
      information before it. */
  predicate ValidAuthority(a: string) {
    match Text.LastIndexOf(a, '@')
    case None => ValidHost(a)
    case Some(i) =>
      && ValidHost(a[i + 1..])
      && (forall j :: 0 <= j < i ==> UserinfoChar(a[j]))
      && ValidEscapes(a[..i])
  }

  /** The first segment of a path: everything before its first '/'. */
  function FirstSegment(p: string): (r: string)
    ensures Text.HasPrefix(p, r) && '/' !in r
    ensures '/' !in p ==> r == p
  {
    var parts := Text.SplitOnce(p, '/');
    if |parts| == 2 then assert p == parts[0] + ['/'] + parts[1]; parts[0] else p
  }

  /** The reference without its fragment: everything before the first '#'. */
  function WithoutFragment(s: string): (u: string)
    ensures Text.HasPrefix(s, u) && '#' !in u
    ensures |u| < |s| ==> s[|u|] == '#'
  {
    var cut := Text.SplitOnce(s, '#');
    if |cut| == 2 then assert s == cut[0] + ['#'] + cut[1]; cut[0] else s
  }

  /** What is rejected before the fragment of `s` is in the reference
      without it. */
  lemma FragmentCut(s: string)
    ensures var u := WithoutFragment(s);
            && ((exists i :: 0 <= i < |s| && IsControl(s[i]) && '#' !in s[..i]) ==>
                  exists i :: 0 <= i < |u| && IsControl(u[i]))
            && (Text.HasPrefix(s, ":") ==> Scheme(u) == None)
  {
    var u := WithoutFragment(s);
    if i :| 0 <= i < |s| && IsControl(s[i]) && '#' !in s[..i] {
      forall j | |u| < j <= |s|
        ensures '#' in s[..j]
      {
        assert s[..j][|u|] == s[|u|];
      }
      assert u[i] == s[..|u|][i];
    }
    if Text.HasPrefix(s, ":") {
      assert s[0] == ':';
      assert |u| > 0 && u[0] == s[..|u|][0];
    }
  }

  /** The scheme of a prefix of `s` is spelled at the start of `s`, before a ':'. */
  lemma SchemeInReference(s: string, u: string)
    requires Text.HasPrefix(s, u) && Scheme(u).Some? && Scheme(u).value != ""
    ensures var n := |Scheme(u).value|;
            0 < n < |s| && s[n] == ':' && s[..n] == Scheme(u).value
  {
    var v := Scheme(u).value;
    var n := |v|;
    assert u[..n + 1] == v + ":";
    assert s[..n + 1] == u[..n + 1];
    assert s[..n] == s[..n + 1][..n];
  }

  /** The fragment: everything after the first '#', "" when there is none. */
  function Fragment(s: string): string {
    var cut := Text.SplitOnce(s, '#');
    if |cut| == 2 then cut[1] else ""
  }

  /** Whether net/url accepts what follows the scheme (the whole reference
      when there is no scheme), the query cut off at the first '?': an
      opaque rest after a scheme is taken as it is; a relative path may not
      have ':' in its first segment; "//" opens an authority, except that
      without a scheme "///" does not; the path's escapes must be valid. */
  predicate RestParses(scheme: string, afterScheme: string) {
    var rest := Text.SplitOnce(afterScheme, '?')[0];
    if !Text.HasPrefix(rest, "/") && scheme != "" then true
    else if !Text.HasPrefix(rest, "/") && ':' in FirstSegment(rest) then false
    else if (scheme != "" || !Text.HasPrefix(rest, "///")) && Text.HasPrefix(rest, "//") then
      var authority := Text.SplitOnce(rest[2..], '/')[0];
      ValidAuthority(authority) && ValidEscapes(rest[2 + |authority|..])
    else ValidEscapes(rest)
  }

  /** net/url's parse of the reference without its fragment: control
      characters are rejected, "*" is accepted, a leading ':' is rejected,
      and otherwise RestParses decides after the scheme. */
  function ParseReference(u: string): (r: Option<string>)
    ensures (exists i :: 0 <= i < |u| && IsControl(u[i])) ==> r.None?
    ensures Scheme(u).None? ==> r.None?
    ensures r.Some? && r.value != "" ==>
              Scheme(u).Some? && Scheme(u).value != "" && r.value == Text.ToLower(Scheme(u).value)
  {
    if exists i :: 0 <= i < |u| && IsControl(u[i]) then None
    else if u == "*" then Some("")
    else match Scheme(u)
      case None => None
      case Some(scheme) =>
        if scheme == "" then (if RestParses("", u) then Some("") else None)
        else if RestParses(scheme, u[|scheme| + 1..]) then Some(Text.ToLower(scheme))
        else None
  }

  /** url.Parse(s): the scheme, lower-cased, or None when net/url rejects
      the reference. Control characters before the fragment, a bad escape
      in the fragment and a leading ':' are rejected; "*" is accepted. */
  function Parse(s: string): (r: Option<string>)
    ensures (exists i :: 0 <= i < |s| && IsControl(s[i]) && '#' !in s[..i]) ==> r.None?
    ensures Text.HasPrefix(s, ":") ==> r.None?
    ensures r.Some? && r.value != "" ==>
              exists n :: 0 < n < |s| && s[n] == ':' && r.value == Text.ToLower(s[..n])
  {
    var u := WithoutFragment(s);
    FragmentCut(s);
    var r := ParseReference(u);
    if r.None? || !ValidEscapes(Fragment(s)) then None
    else if r.value == "" then r
    else
      SchemeInReference(s, u);
      r
  }

  /** The characters of an ordinary relative or absolute file path. */
  predicate PathChar(c: char) {
    AlphaNum(c) || c == '/' || c == '.' || c == '-' || c == '_' || c == '~'
  }

  /** A path of ordinary characters parses, with no scheme: it is copied
      as a local file. */
  lemma PlainPathParses(s: string)
    requires forall i :: 0 <= i < |s| ==> PathChar(s[i])
    ensures Parse(s) == Some("")
  {
    assert '#' !in s && '?' !in s && ':' !in s;
    assert s != "*" by {
      if |s| == 1 { assert PathChar(s[0]); }
    }
    assert forall i :: 0 <= i < |s| ==> !IsControl(s[i]);
    NoColonNoScheme(s, 0);
    ParsePlain(s, "");
    PlainRestParses(s);
  }

  /** Without a ':' there is no scheme. */
  lemma {:induction false} NoColonNoScheme(s: string, i: nat)
    requires i <= |s| && ':' !in s
    requires forall j :: 0 <= j < i ==> SchemeChar(s[j]) && (j == 0 ==> SchemeStart(s[j]))
    ensures SchemeFrom(s, i) == Some("")
    decreases |s| - i
  {
    if i < |s| && (SchemeStart(s[i]) || (i > 0 && SchemeChar(s[i]))) {
      NoColonNoScheme(s, i + 1);
    }
  }

  lemma PlainRestParses(s: string)
    requires forall i :: 0 <= i < |s| ==> PathChar(s[i])
    ensures RestParses("", s)
  {
    assert '?' !in s;
    assert Text.SplitOnce(s, '?')[0] == s;
    assert ValidEscapes(s);
    var first := FirstSegment(s);
    assert ':' !in first by {
      assert forall i :: 0 <= i < |first| ==> first[i] == s[i];
    }
    if Text.HasPrefix(s, "//") && !Text.HasPrefix(s, "///") {
      PlainAuthority(s);
    }
  }

  /** The authority and the path after it, in a reference of ordinary
      path characters that starts with "//". */
  lemma PlainAuthority(s: string)
    requires forall i :: 0 <= i < |s| ==> PathChar(s[i])
    requires Text.HasPrefix(s, "//")
    ensures var authority := Text.SplitOnce(s[2..], '/')[0];
            ValidAuthority(authority) && ValidEscapes(s[2 + |authority|..])
  {
    var after := s[2..];
    PlainSuffix(s, 2);
    var authority := Text.SplitOnce(after, '/')[0];
    PlainSegment(after);
    PlainHost(authority);
    PlainSuffix(s, 2 + |authority|);
    PlainEscapes(s[2 + |authority|..]);
  }

  /** A suffix of ordinary path characters is made of them too. */
  lemma PlainSuffix(s: string, n: nat)
    requires forall i :: 0 <= i < |s| ==> PathChar(s[i])
    requires n <= |s|
    ensures forall i :: 0 <= i < |s[n..]| ==> PathChar(s[n..][i])
  {
    assert forall i :: 0 <= i < |s[n..]| ==> s[n..][i] == s[n + i];
  }

  /** The first segment of ordinary path characters has no '/'. */
  lemma PlainSegment(p: string)
    requires forall i :: 0 <= i < |p| ==> PathChar(p[i])
    ensures var seg := Text.SplitOnce(p, '/')[0];
            forall i :: 0 <= i < |seg| ==> PathChar(seg[i]) && seg[i] != '/'
  {
    var seg := Text.SplitOnce(p, '/')[0];
    assert Text.HasPrefix(p, seg) && '/' !in seg;
    assert forall i :: 0 <= i < |seg| ==> seg[i] == p[i];
  }

  /** Ordinary path characters hold no '%', so no bad escape. */
  lemma PlainEscapes(t: string)
    requires forall i :: 0 <= i < |t| ==> PathChar(t[i])
    ensures ValidEscapes(t)
  {
  }

  /** A host of ordinary path characters is a valid authority. */
  lemma PlainHost(h: string)
    requires forall i :: 0 <= i < |h| ==> PathChar(h[i]) && h[i] != '/'
    ensures ValidAuthority(h)
  {
    assert '@' !in h && ':' !in h && ']' !in h && '%' !in h;
    assert !Text.HasPrefix(h, "[") by {
      if |h| > 0 { assert h[0] != '['; }
    }
    assert forall i :: 0 <= i < |h| ==> HostChar(h[i]);
    assert ValidHost(h);
  }

  /** A reference with no scheme whose first path segment holds ':' is
      rejected ("first path segment in URL cannot contain colon"). */
  lemma ColonInFirstSegmentRejected(s: string)
    requires '#' !in s && '?' !in s
    requires Scheme(s) == Some("") && !Text.HasPrefix(s, "/") && ':' in FirstSegment(s)
    ensures Parse(s) == None
  {
    assert WithoutFragment(s) == s;
  }

  /** A path reference with a '%' that does not open two hex digits is
      rejected. */
  lemma BadEscapeRejected(s: string)
    requires '#' !in s && '?' !in s
    requires Scheme(s) == Some("") && !Text.HasPrefix(s, "//") && ':' !in FirstSegment(s)
    requires !ValidEscapes(s)
    ensures Parse(s) == None
  {
    assert WithoutFragment(s) == s;
  }

  /** SchemeFrom from `i` on, when the characters before `k` are scheme
      characters and `k` is where the scan stops. */
  lemma {:induction false} SchemeScan(s: string, i: nat, k: nat)
    requires i <= k < |s|
    requires forall j :: 0 <= j < k ==> SchemeChar(s[j]) && (j == 0 ==> SchemeStart(s[j]))
    requires s[k] == ':' || !(SchemeStart(s[k]) || (k > 0 && SchemeChar(s[k])))
    ensures SchemeFrom(s, i) == if s[k] != ':' then Some("") else if k == 0 then None else Some(s[..k])
    decreases k - i
  {
    if i < k {
      SchemeScan(s, i + 1, k);
    }
  }

  /** Parse, for a reference with neither fragment nor query whose scheme
      is known, is the verdict of RestParses. */
  lemma ParsePlain(s: string, scheme: string)
    requires '#' !in s && '?' !in s && s != "*"
    requires forall i :: 0 <= i < |s| ==> !IsControl(s[i])
    requires Scheme(s) == Some(scheme)
    ensures scheme == "" ==> Parse(s) == if RestParses("", s) then Some("") else None
    ensures scheme != "" ==>
              Parse(s) == if RestParses(scheme, s[|scheme| + 1..]) then Some(Text.ToLower(scheme)) else None
  {
    assert WithoutFragment(s) == s;
    assert Fragment(s) == "";
    assert ValidEscapes("");
    assert Parse(s) == ParseReference(s);
    ReferenceVerdict(s, scheme);
  }

  /** ParseReference on a reference free of control characters other than
      "*" is the verdict of RestParses after its scheme. */
  lemma ReferenceVerdict(u: string, scheme: string)
    requires u != "*"
    requires forall i :: 0 <= i < |u| ==> !IsControl(u[i])
    requires Scheme(u) == Some(scheme)
    ensures scheme == "" ==> ParseReference(u) == if RestParses("", u) then Some("") else None
    ensures scheme != "" ==>
              ParseReference(u) == if RestParses(scheme, u[|scheme| + 1..]) then Some(Text.ToLower(scheme)) else None
  {
    assert !exists i :: 0 <= i < |u| && IsControl(u[i]);
    if scheme == "" {
      assert ParseReference(u) == if RestParses("", u) then Some("") else None;
    } else {
      assert ParseReference(u) ==
        if RestParses(scheme, u[|scheme| + 1..]) then Some(Text.ToLower(scheme)) else None;
    }
  }

  /** A reference with a scheme whose authority ends in ':' and a port
      that is not all digits is rejected ("invalid port"). */
  lemma BadPortRejected(s: string, scheme: string, i: nat)
    requires '#' !in s && '?' !in s && s != "*"
    requires forall j :: 0 <= j < |s| ==> !IsControl(s[j])
    requires Scheme(s) == Some(scheme) && scheme != ""
    requires Text.HasPrefix(s[|scheme| + 1..], "//")
    requires var host := FirstSegment(s[|scheme| + 3..]);
             && '@' !in host && !Text.HasPrefix(host, "[")
             && i < |host| && host[i] == ':' && ':' !in host[i + 1..]
             && exists j :: i < j < |host| && !('0' <= host[j] <= '9')
    ensures Parse(s) == None
  {
    ParsePlain(s, scheme);
    var rest := s[|scheme| + 1..];
    assert rest[2..] == s[|scheme| + 3..];
    BadPortHost(FirstSegment(rest[2..]), i);
    AuthorityRejected(scheme, rest);
  }

  /** After a scheme, "//" and an authority net/url refuses, the rest is
      refused. */
  lemma AuthorityRejected(scheme: string, rest: string)
    requires scheme != "" && '?' !in rest && Text.HasPrefix(rest, "//")
    requires !ValidAuthority(FirstSegment(rest[2..]))
    ensures !RestParses(scheme, rest)
  {
    assert Text.SplitOnce(rest, '?')[0] == rest;
  }

  /** A host whose last ':' is followed by something other than digits. */
  lemma BadPortHost(host: string, i: nat)
    requires '@' !in host && !Text.HasPrefix(host, "[")
    requires i < |host| && host[i] == ':' && ':' !in host[i + 1..]
    requires exists j :: i < j < |host| && !('0' <= host[j] <= '9')
    ensures !ValidAuthority(host)
  {
    var k := Text.LastIndexOf(host, ':').value;
    assert forall j | i < j < |host| :: host[i + 1..][j - i - 1] == host[j];
    assert forall j | k < j < |host| :: host[k + 1..][j - k - 1] == host[j];
    assert k == i;
    var j :| i < j < |host| && !('0' <= host[j] <= '9');
    assert host[i..][j - i] == host[j];
  }
}

=== FILE: wrappers.dfy ===
/** Failure-carrying values shared by every module of the model, and the
    error taxonomy of the client library and its commands. */
module Wrappers {

  datatype Option<+T> = None | Some(value: T) {
    function GetOr(default: T): T {
      match this
      case Some(v) => v
      case None => default
    }
  }

  datatype Result<+R, +E> = Success(value: R) | Failure(error: E)

  /** The errors the Go code can produce on the modelled paths. */
  datatype Error =
    | NotFound                           // gns3.ErrNotFound: a name/id did not resolve
    | HttpError(status: int)             // gns3.HttpError: the server answered with a non-success status
    | BadJson                            // json.UnmarshalTypeError: a known key held a value of another kind, or a number outside its field's range
    | Md5Mismatch                        // gns3.ErrMd5Mismatch
    | NoTemplateFile                     // cmd.ErrNoTemplateFile
    | NoEmulator(name: string)           // "<name> no configuration found for known emulators"
    | BadDownloadRequest(url: string)    // grab.NewRequest refused the URL
    | Exited(code: int)                  // os.Exit: the process ended, nothing after it runs
    | LocalIo(path: string)              // an os.* call on the named path failed
    | Wrapped(context: string, cause: Error)  // fmt.Errorf("<context>: %w", cause)
    | Annotated(cause: Error, note: string)   // fmt.Errorf("%w: <note>", cause)

  /** The answer of the modelled server to a request it refuses. */
  const Refusal: Error := HttpError(500)

  /** The answer of the modelled server to a request on an id it does not hold. */
  const Missing: Error := HttpError(404)
}
